=== FILE: README.md ===
# Gomarkdown2image: the decision layer, in Dafny

Gomarkdown2image turns Markdown into an image in four steps:

1. Parse the Markdown to HTML with goldmark. On request, an AI model (Gemini or Ollama) first rewrites the text.
2. Wrap the HTML in a styled document.
3. Load that document into a headless browser.
4. Take a screenshot.

It is offered as an HTTP service with two endpoints, a JSON body and a file upload.

Parsing, AI generation and screenshotting are all done by external libraries. This project models the small, pure layer of decisions around them:

- **Parameter validation** (`Validation`). Range checks, the theme whitelist, and the custom-CSS validator: a byte cap, a case-insensitive blocklist and quote parity.
- **Image-format parsing and MIME types** (`Formats`).
- **Option merging in the HTTP handlers** (`Handlers`, and the older copy in `LegacyHandlers`). Request fields override the defaults. The handlers also fix the order in which a request is refused.
- **The conversion pipeline** (`Converter`). It chooses between the traditional and the AI parser, then parses, wraps and renders.
- **Parser-strategy selection** (`Parsers`). This covers prompt selection and the fallback to a plain goldmark parse whenever the AI step fails.
- **The AI error type** (`Errors`). It has a retryable flag fixed by the error class. Two first-match substring classifiers map SDK errors into these classes (`Classifier`, used by `Gemini` and `Ollama`).
- **AI configuration and request validation** (`AIProvider`), **provider dispatch** (`Factory`) and **the prompt-template table** (`Prompts`).
- **The HTML document template** (`Template`) and **the renderer's option and format switch** (`Renderer`).
- **Configuration constants and value types** (`Settings`, `AITypes`), plus Go string primitives (`Strings`).

## How the model is built

Every external collaborator is a function-typed value passed in, so each one is an oracle.

| collaborator | modelled as |
|---|---|
| goldmark | `Parsers.Goldmark` |
| `text/template` | `Prompts.TemplateEngine` |
| the Gemini SDK call | a `Gemini.Call -> Gemini.Outcome` function |
| the Ollama streaming API | an `Ollama.Call -> Ollama.Outcome` function, delivering a sequence of chunks |
| the rod browser and page | `Renderer.Browser` and `Renderer.Page`, one outcome per page call |
| the SDK client constructors | `Factory.Backends` |

The model keeps what the Go code decides on its own: every branch, error message, constant and order of checks. The contracts state what each decision promises.

The `*ai.Error` struct and Go errors are modelled together by one datatype, `Errors.Error`:

- `Message` is `fmt.Errorf`.
- `Wrapped` is `%w`.
- `AIError` is `*ai.Error`.

A nil error is `None`.

Strings are Dafny strings of Unicode scalar values. Wherever the source compares a length, it uses Go's byte length, modelled by `Strings.Utf8Length`.

Go's global prompt map is an explicit immutable map (`Prompts.PromptTable`). It is threaded through the functions that read it.

The model follows the code where the code and its apparent intent differ:

- **Unknown template.** An unknown prompt-template name fails the AI step. That failure triggers the fallback parse, so it is not an error of the conversion (`Parsers.UnknownTemplateFallsBack`).
- **`</style` without `>`.** The CSS blocklist holds the closing tag `</style>` with its `>`. So `</style ` passes validation (`Validation.StyleCloseWithoutBracketAccepted`).
- **Custom CSS is not escaped.** It is inserted after the base stylesheet's `</style>`, outside any style element (`Template.CustomCSSVerbatim`).
- **Ollama ignores the endpoint.** The Ollama client is created from the environment, so the configured base URL never reaches it (`Ollama.EndpointIgnored`).
- **The AI parser is never closed.** The converter only closes a parser that has a `Close` method, and the AI parser has none. `Converter.Convert` therefore closes nothing. `Parsers.CloseProvider` models the provider's own `Close`, which the converter never reaches.
- **Wrapped AI errors are not retryable.** `IsRetryable` uses a type assertion, not `errors.As` (`Errors.WrappedNeverRetryable`).

## Model

| member | source | states |
|---|---|---|
| Validation.ValidateQuality | internal/utils/validation.go:11-16 | accepted exactly when 1 <= quality <= 100; otherwise the fixed range message |
| Validation.ValidateWidth | internal/utils/validation.go:19-24 | accepted exactly when 200 <= width <= 4000; otherwise the fixed range message |
| Validation.ValidateFontSize | internal/utils/validation.go:27-32 | accepted exactly when 8 <= size <= 72; otherwise the fixed range message |
| Validation.ValidateDevicePixelRatio | internal/utils/validation.go:35-40 | accepted exactly when 0.5 <= ratio <= 4.0; otherwise the fixed range message |
| Validation.ValidateTheme | internal/utils/validation.go:43-51 | accepted exactly for "light" and "dark"; the rejection quotes the theme |
| Validation.FirstForbidden | internal/utils/validation.go:84-88 | the blocklist scan: the index found is the first pattern contained, and every earlier pattern is absent |
| Validation.ValidateCustomCSS | internal/utils/validation.go:54-96 | "" is accepted; accepted exactly when the CSS is within 100000 UTF-8 bytes, contains no blocklisted pattern in any case, and has an even number of each quote; an oversize CSS gets the size message; otherwise the first pattern found is named; CSS that passes the size and pattern checks but has an odd quote count gets the unpaired-quote message |
| Validation.DefaultsValid | internal/config/defaults.go:8-26 | every presentation default passes its own validator |
| Validation.ThemeCaseSensitive | internal/utils/validation.go:43-51 | "Dark" and "LIGHT" are rejected |
| Validation.ShoutedScriptRejected | internal/utils/validation.go:66-88 | an upper-case `<SCRIPT` anywhere in the CSS is rejected |
| Validation.StrayQuoteRejected | internal/utils/validation.go:91-93 | one extra apostrophe after balanced CSS is rejected |
| Validation.StyleCloseWithoutBracketAccepted | internal/utils/validation.go:69-88 | "</style " passes every check, because the blocklist demands the `>` |
| Formats.ParseImageFormat | internal/utils/format.go:12-23 | accepted exactly when the trimmed, lower-cased text is png, jpeg, jpg or webp; "jpg" means JPEG; the result is always a supported format; the error quotes the raw input |
| Formats.ParseImageFormatOrDefault | internal/utils/format.go:26-32 | never fails: the parsed format, or PNG when parsing fails |
| Formats.GetContentType | internal/utils/format.go:35-44 | a supported format's MIME type is "image/" and its name; anything else is image/png |
| Formats.CanonicalRoundTrip | internal/utils/format.go:12-23 | parsing a format constant's own name gives that constant back |
| Formats.ParseIdempotent | internal/utils/format.go:12-23 | parsing a parsed format again gives the same result |
| Formats.NormalizedSpellingParsesAlike | internal/utils/format.go:13-22 | parsing the trimmed, lower-cased spelling succeeds exactly when parsing the original does, with the same format |
| Formats.PaddedUpperCaseAccepted | internal/utils/format.go:13-19 | " JPG\n" parses as JPEG and "\tWebP " as WebP |
| Formats.ContentTypeOfParsed | internal/utils/format.go:26-44 | the MIME type of any lenient parse names the parsed format |
| Strings.NormalizeIdempotent | internal/utils/format.go:13 | trimming and lower-casing twice gives what once gives |
| Settings.DefaultImageFormat | internal/config/defaults.go:30-32 | the default format is one the renderer supports |
| Settings.DefaultsInRange | internal/config/limits.go:6-39 | every presentation default lies in its accepted range; the three size caps are all 10 MiB |
| Renderer.DefaultRenderOptions | pkg/renderer/renderer.go:48-57 | 1200 wide, automatic height, full-page PNG at quality 90 and ratio 1.0 |
| Renderer.NewRodRenderer | pkg/renderer/renderer.go:70-91 | succeeds exactly when the browser connects; a connection panic becomes "failed to connect to browser: " and the panic value |
| Renderer.ViewportFor | pkg/renderer/renderer.go:122-127 | the viewport takes the width, height and pixel ratio from the options and is never mobile |
| Renderer.ScreenshotParamsFor | pkg/renderer/renderer.go:155-173 | parameters exist exactly for the three supported formats; quality is passed only for JPEG and WebP; capture is always from the surface |
| Renderer.RenderToImage | pkg/renderer/renderer.go:102-182 | each failing step is wrapped with its own message: "failed to create page", "failed to set viewport", "failed to set document content", "failed to wait for page load"; an image comes only after the viewport, content and load steps all succeed with a supported format; when they do, the result is exactly the page's screenshot with the full-page flag and the format's parameters |
| Renderer.IdleIgnored | pkg/renderer/renderer.go:144-152 | whether the page ever went idle makes no difference |
| Renderer.NilOptionsAreDefaults | pkg/renderer/renderer.go:103-105 | nil options render as the defaults |
| Renderer.UnsupportedFormatRejected | pkg/renderer/renderer.go:133-172 | after a successful load, an unsupported format is refused with "unsupported image format: " and no screenshot is taken |
| Renderer.PageFailureBeforeFormat | pkg/renderer/renderer.go:112-115 | a page-creation failure is reported whatever the format |
| Renderer.PngIgnoresQuality | pkg/renderer/renderer.go:160-162 | for PNG the quality option has no effect |
| Template.DefaultTemplate | pkg/parser/template.go:20-28 | the configured defaults: "Markdown to Image", light, 1200, 16, "Arial, sans-serif", no custom CSS |
| Template.EscapedInert | pkg/parser/template.go:62 | the escaped title holds no `<`, `>`, quote or NUL, and is never shorter than the title |
| Template.EscapeRoundTrip | pkg/parser/template.go:62 | decoding the escaped title gives it back when it has no NUL |
| Template.TitleIsInert | pkg/parser/template.go:50-62 | the title can never open or close a tag in the document |
| Template.BaseCSSEmbedsSizes | pkg/parser/template.go:76-107 | the stylesheet holds the font family, the font size in px, and the width as max-width in px |
| Template.BaseCSSEmbedsColours | pkg/parser/template.go:83-107 | the stylesheet holds the theme's text, page and container colours |
| Template.ThemePalettes | pkg/parser/template.go:233-252 | "dark" gives #e6edf3 / #0d1117 / #161b22; every other theme gives #24292f / #ffffff / #ffffff |
| Template.BaseCSSEndsWithElementRules | pkg/parser/template.go:109-229 | the stylesheet ends with the fixed element rules |
| Template.PieceInBaseCSS | pkg/parser/template.go:72-230 | every piece of the generated stylesheet occurs in it |
| Template.DocumentLaid | pkg/parser/template.go:45-60 | in the document skeleton: the fixed head opens it; the title, the head styles and the container are each found; it ends by closing body and html |
| Template.DocumentLayout | pkg/parser/template.go:45-66 | the document for a template opens with the doctype head; it holds the escaped title, the base then custom CSS closing the head, and the content in the container; it ends by closing body and html |
| Template.WrapHTML | pkg/parser/template.go:39-69 | never fails; a nil template means the default template |
| Template.NonDarkThemesAlike | pkg/parser/template.go:233-252 | any theme other than "dark" yields the same document as "light" |
| Template.CustomCSSVerbatim | pkg/parser/template.go:54-64 | any markup inside the custom CSS appears unescaped in the document |
| Errors.IsRetryableType | pkg/ai/errors.go:89-96 | retryable exactly for rate_limit, server_error, timeout and network |
| Errors.NewError | pkg/ai/errors.go:66-74 | keeps the class, message and original; status 0; the flag is the class's retryability |
| Errors.NewErrorWithCode | pkg/ai/errors.go:77-86 | as NewError, and the status code is recorded |
| Errors.IsRetryable | pkg/ai/errors.go:99-104 | true exactly for a bare AI error whose flag is set |
| Errors.Unwrap | pkg/ai/errors.go:61-63 | an AI error unwraps to its original, and a `%w` wrapper to its cause |
| Errors.UnwrapNewError | pkg/ai/errors.go:61-74 | unwrapping a constructed error gives back the original passed in |
| Errors.WrappedNeverRetryable | pkg/ai/errors.go:99-104 | an error wrapped with `%w` is never retryable |
| Errors.AIErrorTextShape | pkg/ai/errors.go:53-58 | the text is "[class] message", followed by ": " and the original's text when there is one |
| Errors.TextDeterminesClass | pkg/ai/errors.go:8-58 | two AI errors with the same text have the same class |
| Classifier.FirstFiring | pkg/ai/gemini/client.go:248-295 | the rule chosen is one that fires, and no earlier rule fires |
| Classifier.FirstMatchDecides | pkg/ai/gemini/client.go:248-295 | the class and summary are those of the first rule that fires |
| Classifier.NoRuleFiresIsUnknown | pkg/ai/gemini/client.go:293-294 | when no rule fires, the class is unknown with "unknown error" |
| Classifier.ClassFromTable | pkg/ai/ollama/client.go:227-256 | the class is unknown or the class of some rule |
| AIProvider.ValidateConfig | pkg/ai/provider.go:43-76 | accepted exactly when the config is present, names gemini or ollama, has a key if Gemini, has a model, and has non-negative timeout and retries; each failure, checked in the source's order, gives its own message: nil config, invalid provider, missing Gemini key, empty model, negative timeout, negative retries |
| AIProvider.ValidateGenerateRequest | pkg/ai/provider.go:79-97 | accepted exactly when the request is present with a prompt, non-negative max tokens, and temperature in [0, 1]; each failure, checked in the source's order, gives its own message: nil request, empty prompt, negative max tokens, temperature out of range |
| AIProvider.OllamaKeyIrrelevant | pkg/ai/provider.go:54-58 | an Ollama config is judged the same whatever its key |
| AIProvider.DefaultConfigNeedsKey | pkg/ai/provider.go:54-58 | the default config is refused for its missing key, and accepted with any non-empty key |
| AIProvider.TemperatureBounds | pkg/ai/provider.go:92-94 | both ends of [0, 1] are accepted; any temperature outside is refused |
| AITypes.DefaultConfig | pkg/ai/types.go:105-114 | Gemini with the flash model, 30 s, 3 retries, no key, and the default prompt config |
| AITypes.DefaultPromptConfig | pkg/ai/types.go:117-122 | a non-empty system text and no templates |
| Gemini.New | pkg/ai/gemini/client.go:28-57 | an invalid config is wrapped as "invalid config"; a client failure is an auth error; the client keeps the config; the timeout is 30 s when configured as 0, else as configured |
| Gemini.SystemPrompt | pkg/ai/gemini/client.go:85-88 | the request's system text, else the config's default, else none |
| Gemini.Int32 | pkg/ai/gemini/client.go:76-78 | always in the int32 range, and the identity inside it |
| Gemini.CallFor | pkg/ai/gemini/client.go:73-93 | the model is the configured one; max tokens is set only when positive, as the request's value cut to int32; temperature is set only when positive; the system instruction is set only when non-empty, and is then the chosen system text |
| Gemini.ResponseFrom | pkg/ai/gemini/client.go:106-132 | the content is the first candidate's text parts joined in order, or "" when it has no content; the finish reason is Go's `string()` of the SDK enum, one rune or U+FFFD; the model is always in the metadata; when usage is reported, the total tokens and the decimal prompt and candidate counts are recorded |
| Gemini.RuneString | pkg/ai/gemini/client.go:120 | a one-rune string: the rune with that code when it is a Unicode scalar value, else U+FFFD |
| Gemini.JoinTextAppend | pkg/ai/gemini/client.go:109-115 | joining the text parts distributes over splitting the part list |
| Gemini.JoinTextParts | pkg/ai/gemini/client.go:110-113 | a non-text part adds nothing to the content, and a text part adds exactly its text |
| Gemini.Generate | pkg/ai/gemini/client.go:60-133 | an invalid request is refused before any call; SDK errors are classified; an empty reply is a server error; success comes exactly for a valid request whose call returns a reply with at least one candidate, and is then that reply's response |
| Gemini.HandleError | pkg/ai/gemini/client.go:239-296 | nil stays nil; otherwise an AI error that keeps the original, has status 0, and has the class's retryability |
| Gemini.HandleErrorFirstMatch | pkg/ai/gemini/client.go:248-295 | each class is chosen exactly when its rule fires and no earlier one does, in the order auth, rate limit, timeout, network, server, invalid; otherwise unknown |
| Gemini.AuthOutranksTimeout | pkg/ai/gemini/client.go:248-268 | any text containing "401" is an auth error, whatever else it says |
| Ollama.New | pkg/ai/ollama/client.go:27-61 | an invalid config is wrapped; an environment failure is a network error; the timeout is 60 s when configured as 0, else as configured |
| Ollama.FullPrompt | pkg/ai/ollama/client.go:77-86 | the system text, a blank line, then the prompt, when there is a system text (the request's, else the default); the prompt alone otherwise |
| Ollama.CallFor | pkg/ai/ollama/client.go:89-99 | model and full prompt sent; temperature only when positive |
| Ollama.Collect | pkg/ai/ollama/client.go:102-111 | the streaming callback joins every chunk's text in order and keeps the token count of the last chunk marked done |
| Ollama.Generate | pkg/ai/ollama/client.go:64-128 | an invalid request is refused before any call; stream errors are classified; success has the joined text, the done chunk's token count, "stop", and the model |
| Ollama.HandleError | pkg/ai/ollama/client.go:222-257 | nil stays nil; otherwise an AI error that keeps the original, has the class's retryability, and is classed network, invalid request, timeout or unknown |
| Ollama.EndpointIgnored | pkg/ai/ollama/client.go:33-48 | the base URL has no effect on what is sent |
| Ollama.NewIgnoresEndpoint | pkg/ai/ollama/client.go:33-48 | the base URL has no effect on construction |
| Ollama.PromptIsSuffix | pkg/ai/ollama/client.go:83-86 | the user's prompt is always the tail of the prompt sent |
| Ollama.JoinedAppend | pkg/ai/ollama/client.go:105-106 | joining distributes over splitting the stream |
| Ollama.LastDoneWins | pkg/ai/ollama/client.go:107-109 | a later done chunk overrides any earlier token count |
| Ollama.OllamaClasses | pkg/ai/ollama/client.go:222-257 | Ollama errors are never auth, rate-limit or server errors; they are retryable unless invalid-request or unknown |
| Ollama.RefusedIsUnreachable | pkg/ai/ollama/client.go:231-235 | "connection refused" is a retryable network error, "cannot connect to Ollama service" |
| Ollama.ModelNotFoundNeedsBoth | pkg/ai/ollama/client.go:238-240 | the invalid-request class needs both "model" and "not found", and no earlier match |
| Prompts.RenderPrompt | pkg/ai/prompts.go:96-116 | an unknown name is "template not found"; parse and execution errors are wrapped; success is the execution's output |
| Prompts.GetPromptTemplate | pkg/ai/prompts.go:119-122 | found exactly when the name is in the table, with its text; "" otherwise |
| Prompts.SetPromptTemplate | pkg/ai/prompts.go:125-127 | the name is added or replaced, and every other entry is kept |
| Prompts.ListPromptTemplates | pkg/ai/prompts.go:130-136 | every name of the table exactly once |
| Prompts.DefaultTableNames | pkg/ai/prompts.go:16-85 | the built-in table has exactly enhance, translate, explain_code, format and summarize |
| Prompts.DefaultTemplateSlots | pkg/ai/prompts.go:16-85 | four templates end with the content placeholder; the code template holds the code placeholder |
| Prompts.GetAfterSet | pkg/ai/prompts.go:119-127 | after a set, the new text is found, and every other lookup is unchanged |
| Prompts.RenderSeesOnlyItsEntry | pkg/ai/prompts.go:96-116 | rendering depends on the named entry only |
| Prompts.UnknownNameNotFound | pkg/ai/prompts.go:98-101 | "Enhance" is not a built-in name, so it is not found |
| Factory.Name | pkg/ai/gemini/client.go:226-228 | each backend reports its own tag |
| Factory.NewProvider | pkg/ai/factory/factory.go:24-37 | nil is refused; gemini and ollama go to their constructors; any other tag is "unsupported provider" |
| Factory.Generate | pkg/ai/provider.go:12-22 | each provider answers through its own backend's Generate; an invalid request is refused by either backend; success carries the configured model; every failure of a valid request is an AI error |
| Factory.Close | pkg/ai/gemini/client.go:231-236 | Gemini reports its SDK client's close; Ollama's close always succeeds |
| Factory.ProviderFromValidConfig | pkg/ai/factory/factory.go:24-37 | a provider is only built from a config the validator accepts; its name is the configured tag, and it keeps the config |
| Factory.UnknownTagNeverValidated | pkg/ai/factory/factory.go:34-35 | an unknown tag is "unsupported provider", never the validator's message |
| Factory.OllamaCloseAlwaysSucceeds | pkg/ai/ollama/client.go:216-219 | closing an Ollama provider never fails |
| Parsers.GoldmarkParse | pkg/parser/parser.go:65-73 | goldmark's output, or its error wrapped as "failed to parse markdown" |
| Parsers.NewAIParserProvider | pkg/parser/provider.go:93-110 | a factory failure is final and wrapped; otherwise the provider keeps the prompt settings |
| Parsers.NewProvider | pkg/parser/provider.go:222-246 | nil and "traditional" give goldmark; "ai" without a config is refused; "ai" with a config is exactly the AI parser-provider constructor's result; other types are unsupported; an AI provider comes from a valid config and keeps its prompt settings |
| Parsers.CreateParser | pkg/parser/provider.go:113-122 | never fails; an AI parser always has an enabled goldmark fallback |
| Parsers.ProviderName | pkg/parser/provider.go:125-127 | "goldmark", or "ai-" and the backend's name |
| Parsers.CloseProvider | pkg/parser/provider.go:130-135 | closes the AI backend, so an Ollama-backed provider never fails to close |
| Parsers.TemplateData | pkg/parser/provider.go:183-187 | the caller's data (empty for nil), with "Content" set to the Markdown and every other key kept |
| Parsers.PromptFor | pkg/parser/provider.go:178-201 | custom prompt, then a blank line, then the Markdown; else the named template; else "enhance"; render errors are wrapped |
| Parsers.EnhanceRequest | pkg/parser/provider.go:204-209 | 8192 tokens at temperature 0.7, valid exactly when the prompt is non-empty |
| Parsers.EnhanceWithAI | pkg/parser/provider.go:171-217 | prompt errors pass through; success is the backend's content |
| Parsers.Parse | pkg/parser/provider.go:153-168 | AI success parses the AI text; AI failure parses the original when the fallback is on, and is wrapped otherwise |
| Parsers.FallbackOnAIFailure | pkg/parser/provider.go:153-161 | whenever the AI step fails, the parse equals goldmark's parse of the original |
| Parsers.AISuccessParsesEnhanced | pkg/parser/provider.go:155-167 | on AI success, goldmark parses the AI's text, not the original |
| Parsers.UnknownTemplateFallsBack | pkg/parser/provider.go:181-192 | an unknown template is not an error: the original is parsed |
| Parsers.EmptyPromptFallsBack | pkg/parser/provider.go:204-214 | an empty rendered prompt also ends in the fallback |
| Parsers.CustomPromptAlwaysSent | pkg/parser/provider.go:178-180 | a custom prompt always makes a valid request |
| Parsers.AIProviderName | pkg/parser/provider.go:125-127 | an AI parser provider is named "ai-" and the configured tag |
| Converter.DefaultConvertOptions | pkg/converter/converter.go:55-74 | the fixed defaults: traditional mode, 1200 wide, PNG at 90, full page, Gemini with the enhance template |
| Converter.NewConverter | pkg/converter/converter.go:87-101 | a browser that cannot be reached is "failed to create renderer" |
| Converter.AIConfigFor | pkg/converter/converter.go:185-192 | provider, key, endpoint and model copied from the options; 30 s and 3 retries |
| Converter.CreateAIParser | pkg/converter/converter.go:183-211 | succeeds exactly when the factory does, giving a fallback-enabled AI parser with the options' prompt settings |
| Converter.ParserFor | pkg/converter/converter.go:127-141 | only the mode "ai" takes the AI route; there the built AI parser is used exactly as built, and a build failure is wrapped as "failed to create AI parser"; an AI parser always has the fallback on |
| Converter.TemplateFor | pkg/converter/converter.go:150-157 | the six presentation fields copied unchanged |
| Converter.RenderOptionsFor | pkg/converter/converter.go:165-172 | width, format, quality, full page and ratio copied; height always 0 |
| Converter.RenderStage | pkg/converter/converter.go:159-179 | the wrapped document is rendered; render errors are wrapped |
| Converter.Convert | pkg/converter/converter.go:118-180 | a parser-creation failure is returned as is; a parse failure is wrapped as "failed to parse markdown"; when both succeed, the wrapped document is rendered, and a render failure is wrapped as "failed to render image"; an image means all three stages succeeded |
| Converter.NilOptionsAreDefaults | pkg/converter/converter.go:119-121 | nil options convert as the defaults, which take the traditional route |
| Converter.TraditionalIgnoresAI | pkg/converter/converter.go:127-141 | off the AI route, the AI fields and backends make no difference |
| Converter.AIFailureConvertsAsTraditional | pkg/converter/converter.go:127-147 | end to end, a failing AI step gives the traditional result |
| Converter.ParseErrorStopsBeforeRender | pkg/converter/converter.go:144-147 | a parse error fails the conversion before the browser is used |
| Converter.AIParserFailureIsFinal | pkg/converter/converter.go:129-132 | failing to build the AI parser fails the conversion, with no fallback |
| Handlers.BuildConvertOptionsFromParams | internal/handlers/convert.go:242-300 | for each field: a text field overrides exactly when non-empty, a number exactly when positive, and otherwise the default is kept; the format goes through the lenient parser; the AI fields, full page and prompt data keep their defaults; the format is always supported |
| Handlers.ConvertAndReply | internal/handlers/convert.go:66-100 | a converter failure is a 500 CONVERTER_INIT_FAILED; a conversion failure is a 500 CONVERSION_FAILED; an image comes exactly when conversion succeeds, with the format's MIME type |
| Handlers.ConvertHandler | internal/handlers/convert.go:24-101 | refusal order: binding, then the 10 MiB cap, then the custom CSS; any request within the cap with acceptable CSS goes to the conversion with the built options; any non-400 reply passed all three |
| Handlers.UploadHandler | internal/handlers/convert.go:118-238 | refusal order: binding, missing file, file size, open (500), read (500), custom CSS (400 INVALID_CUSTOM_CSS); once all pass, the file's text goes to the conversion with the built options |
| Handlers.EmptyRequestGivesDefaults | internal/handlers/convert.go:243 | an empty request gives exactly the default options |
| Handlers.OneFieldChangesOneOption | internal/handlers/convert.go:246-268 | setting one field changes that one option and nothing else |
| Handlers.BuiltFormatSupported | internal/handlers/convert.go:266-268 | any requested format ends up supported, and its MIME type names it |
| Handlers.NoClampInBuilder | internal/handlers/convert.go:255-257 | the builder itself does not clamp: it copies any width above the validator's 4000 unchanged, though the validator would refuse it; the range is enforced only by the binding tags, whose outcome is an input here |
| Handlers.SizeCheckedBeforeCSS | internal/handlers/convert.go:40-64 | an oversize request with bad CSS is refused as too large |
| Handlers.CSSRefusedBeforeBrowser | internal/handlers/convert.go:53-79 | refused CSS never reaches the browser, whatever the environment |
| Handlers.TooLargeDetailsText | internal/handlers/convert.go:47 | the size refusal names the cap as 10 MB |
| LegacyHandlers.BuildConvertOptions | pkg/handlers/convert.go:215-248 | for each presentation field: it overrides exactly when non-empty or positive, and otherwise the default is kept, with width 1200 and PNG as defaults; the AI fields and full page keep their defaults |
| LegacyHandlers.BuildConvertOptionsFromForm | pkg/handlers/convert.go:251-284 | the same options as the JSON builder for the same fields; title and width override as there; the result is full-page and traditional |
| LegacyHandlers.GetContentType | pkg/handlers/convert.go:287-296 | jpeg and jpg give image/jpeg; webp gives image/webp; everything else gives image/png |
| LegacyHandlers.ConvertAndReply | pkg/handlers/convert.go:52-86 | a converter failure is a 500; a conversion failure is a 500 CONVERSION_FAILED; an image comes exactly when both the converter and the conversion succeed, and carries the converted bytes with the legacy MIME type |
| LegacyHandlers.ConvertHandler | pkg/handlers/convert.go:22-87 | binding, then the 10 MiB cap, then straight to the conversion |
| LegacyHandlers.UploadHandler | pkg/handlers/convert.go:104-212 | binding, missing file, size, then open and read failures as 500s; once all pass, the file's text goes to the conversion with the form builder's options |
| LegacyHandlers.BuildersAgree | pkg/handlers/convert.go:215-284 | the two legacy builders agree field for field |
| LegacyHandlers.ContentTypesAgreeOnCanonicalNames | pkg/handlers/convert.go:287-296 | legacy and current MIME switches agree on the canonical names; only the legacy one reads "jpg" as JPEG |
| LegacyHandlers.SameSizeCap | pkg/handlers/convert.go:39 | the legacy cap is the configured 10 MiB |
| LegacyHandlers.HostileCSSReachesConverter | pkg/handlers/convert.go:38-71 | CSS that the current handlers refuse reaches the converter here unchanged |

## Left out

- **Goldmark parsing, the AI SDKs and the browser.** These are external libraries. They are oracles here, and only their outcomes are modelled.
- **`RodRenderer.RenderToFile` and `RodRenderer.Close`.** File output and process shutdown.
- **`GenerateStream` of the interface, Gemini and Ollama.** It is goroutine and channel plumbing.
- **Contexts, timeouts and cancellation.** The configured timeout is kept as a number handed to the oracle, but nothing expires.
- Gemini.New and Ollama.New: the timeout stays an unbounded number of seconds. Go multiplies it by `time.Second` in int64, which wraps around for timeouts beyond about 292 years; that overflow is not modelled.
- **`text/template` execution inside `RenderPrompt`.** It is the `Prompts.TemplateEngine` oracle. The built-in template texts are kept verbatim.
- **`ConvertFile`.** It is file reading and writing around `Convert`.
- **The `Close` of `DefaultConverter` and the handlers' deferred `conv.Close()`.** Browser shutdown.
- **The `defer closer.Close()` in `Convert`.** It can never run, because the AI parser has no `Close`.
- **Mutation of the caller's prompt-data map by `enhanceWithAI`.** Go writes "Content" into the caller's map. The model builds a new map. No caller observes the difference within one conversion.
- **gin binding, the `binding:` tags, and the HTTP and CLI plumbing.** This covers `c.JSON`/`c.Data`, the middleware, `cmd/`, and the multipart reading. The bound request or its error is an input.
- **The `RequestParams` interface.** It and its getters are not part of this model. The request is a record of every field the option builder reads.
- **The float types.** The pixel ratio and temperature are `real`, which has no NaN. Gemini's `float32` temperature conversion is not modelled.
- Strings.ToLower: lowers ASCII letters plus the two non-ASCII runes whose lower case is ASCII (U+0130 and U+212A). Every other rune is kept. All patterns the core searches for are ASCII, so containment answers agree with Go's full Unicode lowering. The lowered text itself can differ from Go's.
- **The legacy handlers' own `ParseImageFormat`.** It is not part of this model. The legacy builders take it as a parameter.
- **Non-string prompt data.** Go's prompt data is `map[string]interface{}`. The model holds string values only, so templates that read numbers, lists or nested maps from it are not represented.
- **Global prompt-table state.** Concurrent `SetPromptTemplate` calls are not modelled. The table is a value passed in and returned.

=== FILE: ai_provider.dfy ===
/** Validation shared by both AI backends (pkg/ai/provider.go). Each validator
    returns the nil error (`None`) or the first failing check's message. */
module AIProvider {
  import opened Wrappers
  import opened Errors
  import opened AITypes

  /** The first two checks of `ValidateConfig`: a known provider, and a key if it is Gemini. */
  predicate ProviderUsable(c: Config) {
    && (c.provider == ProviderGemini || c.provider == ProviderOllama)
    && (c.provider == ProviderGemini ==> c.apiKey != "")
  }

  /** Every check `ValidateConfig` makes, stated as one condition. */
  predicate ConfigAcceptable(cfg: Option<Config>) {
    && cfg.Some?
    && ProviderUsable(cfg.value)
    && cfg.value.model != ""
    && cfg.value.timeout >= 0
    && cfg.value.maxRetries >= 0
  }

  /** `ValidateConfig`. */
  function ValidateConfig(cfg: Option<Config>): (r: Option<Error>)
    ensures r.None? <==> ConfigAcceptable(cfg)
    ensures cfg.None? ==> r == Some(Message("config cannot be nil"))
    ensures cfg.Some? && cfg.value.provider != ProviderGemini && cfg.value.provider != ProviderOllama
            ==> r == Some(Message("invalid provider type: " + cfg.value.provider))
    ensures cfg.Some? && cfg.value.provider == ProviderGemini && cfg.value.apiKey == ""
            ==> r == Some(Message("API key is required for Gemini provider"))
    ensures cfg.Some? && ProviderUsable(cfg.value) && cfg.value.model == ""
            ==> r == Some(Message("model name cannot be empty"))
    ensures cfg.Some? && ProviderUsable(cfg.value) && cfg.value.model != "" && cfg.value.timeout < 0
            ==> r == Some(Message("timeout must be non-negative"))
    ensures cfg.Some? && ProviderUsable(cfg.value) && cfg.value.model != "" && cfg.value.timeout >= 0
            && cfg.value.maxRetries < 0
            ==> r == Some(Message("max retries must be non-negative"))
    ensures r.Some? ==> r.value.Message?
  {
    if cfg.None? then Some(Message("config cannot be nil"))
    else
      var c := cfg.value;
      if c.provider != ProviderGemini && c.provider != ProviderOllama then
        Some(Message("invalid provider type: " + c.provider))
      else if c.provider == ProviderGemini && c.apiKey == "" then
        Some(Message("API key is required for Gemini provider"))
      else if c.model == "" then Some(Message("model name cannot be empty"))
      else if c.timeout < 0 then Some(Message("timeout must be non-negative"))
      else if c.maxRetries < 0 then Some(Message("max retries must be non-negative"))
      else None
  }

  /** Every check `ValidateGenerateRequest` makes, stated as one condition. */
  predicate RequestAcceptable(req: Option<GenerateRequest>) {
    && req.Some?
    && req.value.prompt != ""
    && req.value.maxTokens >= 0
    && 0.0 <= req.value.temperature <= 1.0
  }

  /** `ValidateGenerateRequest`. */
  function ValidateGenerateRequest(req: Option<GenerateRequest>): (r: Option<Error>)
    ensures r.None? <==> RequestAcceptable(req)
    ensures req.None? ==> r == Some(Message("request cannot be nil"))
    ensures req.Some? && req.value.prompt == "" ==> r == Some(Message("prompt cannot be empty"))
    ensures req.Some? && req.value.prompt != "" && req.value.maxTokens < 0
            ==> r == Some(Message("max tokens must be non-negative"))
    ensures req.Some? && req.value.prompt != "" && req.value.maxTokens >= 0
            && (req.value.temperature < 0.0 || req.value.temperature > 1.0)
            ==> r == Some(Message("temperature must be between 0 and 1"))
    ensures r.Some? ==> r.value.Message?
  {
    if req.None? then Some(Message("request cannot be nil"))
    else
      var q := req.value;
      if q.prompt == "" then Some(Message("prompt cannot be empty"))
      else if q.maxTokens < 0 then Some(Message("max tokens must be non-negative"))
      else if q.temperature < 0.0 || q.temperature > 1.0 then
        Some(Message("temperature must be between 0 and 1"))
      else None
  }

  // ---------------------------------------------------------------------------

  /** Ollama needs no key: an Ollama config is judged without looking at `apiKey`. */
  lemma OllamaKeyIrrelevant(c: Config, key: string)
    requires c.provider == ProviderOllama
    ensures ValidateConfig(Some(c)).None? == ValidateConfig(Some(c.(apiKey := key))).None?
  {
  }

  /** The default configuration names Gemini but carries no key, so it is rejected as it stands. */
  lemma DefaultConfigNeedsKey()
    ensures ValidateConfig(Some(DefaultConfig())) == Some(Message("API key is required for Gemini provider"))
    ensures forall k :: k != "" ==> ValidateConfig(Some(DefaultConfig().(apiKey := k))).None?
  {
  }

  /** Both temperature endpoints are accepted; any value past them is rejected. */
  lemma TemperatureBounds(q: GenerateRequest)
    requires q.prompt != "" && q.maxTokens >= 0
    ensures ValidateGenerateRequest(Some(q.(temperature := 0.0))).None?
    ensures ValidateGenerateRequest(Some(q.(temperature := 1.0))).None?
    ensures q.temperature < 0.0 || q.temperature > 1.0 ==>
              ValidateGenerateRequest(Some(q)) == Some(Message("temperature must be between 0 and 1"))
  {
  }
}

=== FILE: ai_types.dfy ===
/** The AI package's value types (pkg/ai/types.go): provider configuration and the
    request/response of one generation call. Request contexts are not modelled. */
module AITypes {
  import opened Wrappers

  /** `ProviderType` is a Go string type; any string can appear in a config. */
  type ProviderType = string

  const ProviderGemini: ProviderType := "gemini"
  const ProviderOllama: ProviderType := "ollama"

  datatype PromptConfig = PromptConfig(defaultSystem: string, templates: map<string, string>)

  /** `Config`; `prompts` is the `*PromptConfig` pointer (`None` is nil). */
  datatype Config = Config(
    provider: ProviderType,
    apiKey: string,
    baseURL: string,
    model: string,
    timeout: int,
    maxRetries: int,
    prompts: Option<PromptConfig>,
    extra: map<string, string>)

  datatype GenerateRequest = GenerateRequest(
    prompt: string,
    system: string,
    maxTokens: int,
    temperature: real,
    metadata: map<string, string>)

  datatype GenerateResponse = GenerateResponse(
    content: string,
    tokensUsed: int,
    finishReason: string,
    metadata: map<string, string>)

  const DefaultSystemPrompt := "你是一个专业的 Markdown 文档处理助手,擅长优化和增强文档内容。"

  /** `DefaultPromptConfig`. */
  function DefaultPromptConfig(): (p: PromptConfig)
    ensures p.defaultSystem != "" && p.templates == map[]
  {
    PromptConfig(DefaultSystemPrompt, map[])
  }

  /** `DefaultConfig`: Gemini, 30 s, three retries, the default prompt configuration, no key. */
  function DefaultConfig(): (c: Config)
    ensures c.provider == ProviderGemini && c.model == "gemini-2.0-flash-exp"
    ensures c.timeout == 30 && c.maxRetries == 3 && c.apiKey == "" && c.baseURL == ""
    ensures c.prompts == Some(DefaultPromptConfig()) && c.extra == map[]
  {
    Config(ProviderGemini, "", "", "gemini-2.0-flash-exp", 30, 3, Some(DefaultPromptConfig()), map[])
  }
}

=== FILE: classifier.dfy ===
/** The shape shared by the Gemini and Ollama `handleError` functions: an ordered
    list of rules tried first to last against the lower-cased error text; the
    first rule that fires decides the class, and `Unknown` is the fall-through.

    A rule fires when one of its alternatives does, and an alternative fires
    when the text contains every phrase in it (Ollama's "model" together with
    "not found" is the one alternative with two phrases).
 */
module Classifier {
  import opened Strings
  import opened Errors

  datatype Rule = Rule(alternatives: seq<seq<string>>, kind: ErrorType, summary: string)

  predicate AllPhrases(text: string, phrases: seq<string>) {
    forall k :: 0 <= k < |phrases| ==> Contains(text, phrases[k])
  }

  predicate Fires(r: Rule, text: string) {
    exists a :: 0 <= a < |r.alternatives| && AllPhrases(text, r.alternatives[a])
  }

  /** Index of the first rule that fires, or `|rules|` when none does. */
  function FirstFiring(rules: seq<Rule>, text: string): (i: nat)
    ensures i <= |rules|
    ensures forall j :: 0 <= j < i ==> !Fires(rules[j], text)
    ensures i < |rules| ==> Fires(rules[i], text)
  {
    if |rules| == 0 then 0
    else if Fires(rules[0], text) then 0
    else 1 + FirstFiring(rules[1..], text)
  }

  /** The class chosen for `text`. */
  function Classify(rules: seq<Rule>, text: string): ErrorType {
    var i := FirstFiring(rules, text);
    if i < |rules| then rules[i].kind else Unknown
  }

  /** The summary message that goes with the class chosen for `text`. */
  function Summary(rules: seq<Rule>, text: string): string {
    var i := FirstFiring(rules, text);
    if i < |rules| then rules[i].summary else "unknown error"
  }

  /** First-match semantics: rule `i` decides exactly when it fires and no earlier rule does. */
  lemma FirstMatchDecides(rules: seq<Rule>, text: string, i: nat)
    requires i < |rules|
    requires Fires(rules[i], text)
    requires forall j :: 0 <= j < i ==> !Fires(rules[j], text)
    ensures Classify(rules, text) == rules[i].kind
    ensures Summary(rules, text) == rules[i].summary
  {
    var f := FirstFiring(rules, text);
    assert f == i by {
      if f < i {
        assert false;
      }
    }
  }

  /** The fall-through class is taken exactly when no rule fires. */
  lemma NoRuleFiresIsUnknown(rules: seq<Rule>, text: string)
    requires forall j :: 0 <= j < |rules| ==> !Fires(rules[j], text)
    ensures Classify(rules, text) == Unknown
    ensures Summary(rules, text) == "unknown error"
  {
  }

  /** The chosen class is `Unknown` or the class of some rule of the table. */
  lemma ClassFromTable(rules: seq<Rule>, text: string)
    ensures Classify(rules, text) == Unknown
         || exists j :: 0 <= j < |rules| && rules[j].kind == Classify(rules, text)
  {
  }

  /** A single-phrase alternative fires whenever its phrase is contained. */
  lemma PhraseFires(r: Rule, text: string, a: nat)
    requires a < |r.alternatives| && |r.alternatives[a]| == 1
    requires Contains(text, r.alternatives[a][0])
    ensures Fires(r, text)
  {
    assert AllPhrases(text, r.alternatives[a]);
  }
}

=== FILE: converter.dfy ===
/** The end-to-end conversion (pkg/converter/converter.go): choose the parser,
    parse, wrap the HTML in the document template, render it.

    The converter's shared parser is always the goldmark parser (the only
    constructor installs it), so a `Converter` holds just the browser.
 */
module Converter {
  import opened Wrappers
  import opened Errors
  import opened AITypes
  import Renderer
  import Template
  import Parsers
  import Factory

  datatype ConvertOptions = ConvertOptions(
    title: string,
    theme: string,
    customCSS: string,
    width: int,
    fontSize: int,
    fontFamily: string,
    imageFormat: Renderer.ImageFormat,
    imageQuality: int,
    fullPage: bool,
    devicePixelRatio: real,
    parserMode: string,
    aiProvider: string,
    aiModel: string,
    aiAPIKey: string,
    aiEndpoint: string,
    aiPromptTemplate: string,
    aiCustomPrompt: string,
    aiPromptData: Parsers.PromptData)

  /** `DefaultConvertOptions`: the template and render defaults, the traditional parser,
      and Gemini with the "enhance" template pre-selected for the AI route. */
  function DefaultConvertOptions(): (o: ConvertOptions)
    ensures o.title == "Markdown to Image" && o.theme == "light" && o.customCSS == ""
    ensures o.width == 1200 && o.fontSize == 16 && o.fontFamily == "Arial, sans-serif"
    ensures o.imageFormat == Renderer.FormatPNG && o.imageQuality == 90 && o.fullPage && o.devicePixelRatio == 1.0
    ensures o.parserMode == "traditional" && o.aiProvider == ProviderGemini && o.aiModel == "gemini-2.0-flash-exp"
    ensures o.aiAPIKey == "" && o.aiEndpoint == "http://localhost:11434"
    ensures o.aiPromptTemplate == "enhance" && o.aiCustomPrompt == "" && o.aiPromptData == Some(map[])
  {
    ConvertOptions("Markdown to Image", "light", "", 1200, 16, "Arial, sans-serif",
                   Renderer.FormatPNG, 90, true, 1.0,
                   "traditional", "gemini", "gemini-2.0-flash-exp", "", "http://localhost:11434",
                   "enhance", "", Some(map[]))
  }

  datatype Converter = Converter(renderer: Renderer.Browser)

  /** `NewConverter`: a browser that cannot be reached makes no converter. */
  function NewConverter(connect: Result<Renderer.Browser, string>): (r: Result<Converter, Error>)
    ensures r.Ok? <==> connect.Ok?
    ensures r.Ok? ==> r.value.renderer == connect.value
    ensures r.Err? ==> r.error == Wrapped("failed to create renderer", Message("failed to connect to browser: " + connect.error))
  {
    match Renderer.NewRodRenderer(connect)
    case Ok(b) => Ok(Converter(b))
    case Err(e) => Err(Wrapped("failed to create renderer", e))
  }

  /** The AI configuration `createAIParser` builds: the options' backend fields, 30 s, three retries, no prompt configuration. */
  function AIConfigFor(o: ConvertOptions): (cfg: Config)
    ensures cfg.provider == o.aiProvider && cfg.apiKey == o.aiAPIKey && cfg.baseURL == o.aiEndpoint
    ensures cfg.model == o.aiModel && cfg.timeout == 30 && cfg.maxRetries == 3
    ensures cfg.prompts.None? && cfg.extra == map[]
  {
    Config(o.aiProvider, o.aiAPIKey, o.aiEndpoint, o.aiModel, 30, 3, None, map[])
  }

  /** `createAIParser`: an "ai" parser provider from the options, then its parser. */
  function CreateAIParser(o: ConvertOptions, b: Factory.Backends): (r: Result<Parsers.Parser, Error>)
    ensures r.Ok? <==> Factory.NewProvider(Some(AIConfigFor(o)), b).Ok?
    ensures r.Err? ==> r.error == Wrapped("failed to create AI provider", Factory.NewProvider(Some(AIConfigFor(o)), b).error)
    ensures r.Ok? ==> r.value == Parsers.AIParser(Factory.NewProvider(Some(AIConfigFor(o)), b).value,
                                                  o.aiPromptTemplate, o.aiPromptData, o.aiCustomPrompt, true, true)
  {
    var pc := Parsers.ProviderConfig(Parsers.ProviderTypeAI, Some(AIConfigFor(o)), o.aiPromptTemplate, o.aiPromptData, o.aiCustomPrompt);
    match Parsers.NewProvider(Some(pc), b)
    case Err(e) => Err(e)
    case Ok(pp) => Parsers.CreateParser(pp)
  }

  /** The parser a conversion uses: an AI parser exactly when the mode is "ai", else the shared goldmark parser. */
  function ParserFor(o: ConvertOptions, b: Factory.Backends): (r: Result<Parsers.Parser, Error>)
    ensures o.parserMode != "ai" ==> r == Ok(Parsers.GoldmarkParser)
    ensures o.parserMode == "ai" && CreateAIParser(o, b).Err? ==>
              r == Err(Wrapped("failed to create AI parser", CreateAIParser(o, b).error))
    ensures o.parserMode == "ai" && CreateAIParser(o, b).Ok? ==> r == CreateAIParser(o, b)
    ensures o.parserMode == "ai" && r.Ok? ==> r.value.AIParser? && r.value.enableFallback
  {
    if o.parserMode == "ai" then
      match CreateAIParser(o, b)
      case Err(e) => Err(Wrapped("failed to create AI parser", e))
      case Ok(p) => Ok(p)
    else Ok(Parsers.GoldmarkParser)
  }

  /** The document template: the six presentation fields copied unchanged. */
  function TemplateFor(o: ConvertOptions): (t: Template.HTMLTemplate)
    ensures t.title == o.title && t.theme == o.theme && t.customCSS == o.customCSS
    ensures t.width == o.width && t.fontSize == o.fontSize && t.fontFamily == o.fontFamily
  {
    Template.HTMLTemplate(o.title, o.theme, o.customCSS, o.width, o.fontSize, o.fontFamily)
  }

  /** The render options: five fields copied, the height always automatic. */
  function RenderOptionsFor(o: ConvertOptions): (ro: Renderer.RenderOptions)
    ensures ro.width == o.width && ro.height == 0 && ro.format == o.imageFormat
    ensures ro.quality == o.imageQuality && ro.fullPage == o.fullPage && ro.devicePixelRatio == o.devicePixelRatio
  {
    Renderer.RenderOptions(o.width, 0, o.imageFormat, o.imageQuality, o.fullPage, o.devicePixelRatio)
  }

  /** The rendering stage: wrap the HTML and hand the document to the browser. */
  function RenderStage(c: Converter, html: string, o: ConvertOptions): (r: Result<Renderer.Image, Error>)
    ensures match Renderer.RenderToImage(c.renderer, Template.Wrap(html, TemplateFor(o)), Some(RenderOptionsFor(o)))
            case Ok(img) => r == Ok(img)
            case Err(e) => r == Err(Wrapped("failed to render image", e))
  {
    match Template.WrapHTML(html, Some(TemplateFor(o)))
    case Err(e) => Err(Wrapped("failed to wrap HTML", e))
    case Ok(full) =>
      match Renderer.RenderToImage(c.renderer, full, Some(RenderOptionsFor(o)))
      case Ok(img) => Ok(img)
      case Err(e) => Err(Wrapped("failed to render image", e))
  }

  /** `Convert`: nil options mean the defaults; a parser or parse failure stops before any rendering. */
  function Convert(c: Converter, markdown: string, opts: Option<ConvertOptions>, s: Parsers.Services, b: Factory.Backends)
    : (r: Result<Renderer.Image, Error>)
    ensures var o := opts.GetOr(DefaultConvertOptions());
            ParserFor(o, b).Err? ==> r == Err(ParserFor(o, b).error)
    ensures var o := opts.GetOr(DefaultConvertOptions());
            ParserFor(o, b).Ok? && Parsers.Parse(ParserFor(o, b).value, markdown, s).Err? ==>
              r == Err(Wrapped("failed to parse markdown", Parsers.Parse(ParserFor(o, b).value, markdown, s).error))
    ensures var o := opts.GetOr(DefaultConvertOptions());
            ParserFor(o, b).Ok? && Parsers.Parse(ParserFor(o, b).value, markdown, s).Ok? ==>
              var page := Template.Wrap(Parsers.Parse(ParserFor(o, b).value, markdown, s).value, TemplateFor(o));
              match Renderer.RenderToImage(c.renderer, page, Some(RenderOptionsFor(o)))
              case Ok(img) => r == Ok(img)
              case Err(e) => r == Err(Wrapped("failed to render image", e))
    ensures r.Ok? ==>
              var o := opts.GetOr(DefaultConvertOptions());
              && ParserFor(o, b).Ok? && Parsers.Parse(ParserFor(o, b).value, markdown, s).Ok?
              && Renderer.RenderToImage(c.renderer, Template.Wrap(Parsers.Parse(ParserFor(o, b).value, markdown, s).value,
                                                                  TemplateFor(o)), Some(RenderOptionsFor(o))).Ok?
  {
    var o := opts.GetOr(DefaultConvertOptions());
    match ParserFor(o, b)
    case Err(e) => Err(e)
    case Ok(p) =>
      match Parsers.Parse(p, markdown, s)
      case Err(e) => Err(Wrapped("failed to parse markdown", e))
      case Ok(html) => RenderStage(c, html, o)
  }

  // ---------------------------------------------------------------------------

  /** Nil options convert exactly as the defaults do, and the defaults take the traditional route. */
  lemma NilOptionsAreDefaults(c: Converter, markdown: string, s: Parsers.Services, b: Factory.Backends)
    ensures Convert(c, markdown, None, s, b) == Convert(c, markdown, Some(DefaultConvertOptions()), s, b)
    ensures ParserFor(DefaultConvertOptions(), b) == Ok(Parsers.GoldmarkParser)
  {
  }

  /** Off the AI route, the AI fields and the backends make no difference to the result. */
  lemma TraditionalIgnoresAI(c: Converter, markdown: string, o: ConvertOptions, s: Parsers.Services,
                             b1: Factory.Backends, b2: Factory.Backends, provider: string, template: string)
    requires o.parserMode != "ai"
    ensures Convert(c, markdown, Some(o), s, b1)
         == Convert(c, markdown, Some(o.(aiProvider := provider, aiPromptTemplate := template)), s, b2)
  {
  }

  /** End to end, a failing AI step yields the same image (or error) as the traditional route. */
  lemma {:induction false} AIFailureConvertsAsTraditional(c: Converter, markdown: string, o: ConvertOptions,
                                                         s: Parsers.Services, b: Factory.Backends)
    requires o.parserMode == "ai" && CreateAIParser(o, b).Ok?
    requires var p := CreateAIParser(o, b).value;
             Parsers.EnhanceWithAI(p.ai, p.customPrompt, p.promptTemplate, p.promptData, markdown, s).Err?
    ensures Convert(c, markdown, Some(o), s, b) == Convert(c, markdown, Some(o.(parserMode := "traditional")), s, b)
  {
    var p := CreateAIParser(o, b).value;
    var t := o.(parserMode := "traditional");
    assert ParserFor(o, b) == Ok(p);
    ConvertWithParser(c, markdown, o, s, b, p);
    ConvertWithParser(c, markdown, t, s, b, Parsers.GoldmarkParser);
    assert Parsers.Parse(p, markdown, s) == Parsers.GoldmarkParse(s.goldmark, markdown);
    assert RenderOptionsFor(o) == RenderOptionsFor(t);
    assert TemplateFor(o) == TemplateFor(t);
  }

  /** Once the parser is known, a conversion is the parse followed by the render stage. */
  lemma ConvertWithParser(c: Converter, markdown: string, o: ConvertOptions, s: Parsers.Services,
                          b: Factory.Backends, p: Parsers.Parser)
    requires ParserFor(o, b) == Ok(p)
    ensures Convert(c, markdown, Some(o), s, b)
         == match Parsers.Parse(p, markdown, s)
            case Err(e) => Err(Wrapped("failed to parse markdown", e))
            case Ok(html) => RenderStage(c, html, o)
  {
  }

  /** A parse failure is reported before the browser is touched: the browser makes no difference. */
  lemma {:induction false} ParseErrorStopsBeforeRender(c1: Converter, c2: Converter, markdown: string,
                                                      o: ConvertOptions, s: Parsers.Services, b: Factory.Backends)
    requires ParserFor(o, b).Ok? && Parsers.Parse(ParserFor(o, b).value, markdown, s).Err?
    ensures Convert(c1, markdown, Some(o), s, b) == Convert(c2, markdown, Some(o), s, b)
    ensures Convert(c1, markdown, Some(o), s, b).Err?
  {
  }

  /** A failure to build the AI parser is final: no fallback to the traditional route. */
  lemma AIParserFailureIsFinal(c: Converter, markdown: string, o: ConvertOptions, s: Parsers.Services, b: Factory.Backends)
    requires o.parserMode == "ai" && CreateAIParser(o, b).Err?
    ensures Convert(c, markdown, Some(o), s, b)
         == Err(Wrapped("failed to create AI parser", Wrapped("failed to create AI provider",
                                                               Factory.NewProvider(Some(AIConfigFor(o)), b).error)))
  {
  }
}

=== FILE: errors.dfy ===
/** Go `error` values as the core produces them, and the AI error struct of
    pkg/ai/errors.go.

    An error is either a plain `fmt.Errorf` message, a `fmt.Errorf("ctx: %w", cause)`
    wrapper, or a `*ai.Error`. A nil `error` is `None` of an `Option<Error>`.
 */
module Errors {
  import opened Wrappers

  /** The seven AI error classes. */
  datatype ErrorType = Auth | RateLimit | InvalidReq | ServerError | Timeout | Network | Unknown {

    /** The class's string value (`ErrorType` is a Go string type). */
    function Tag(): string {
      match this
      case Auth => "auth"
      case RateLimit => "rate_limit"
      case InvalidReq => "invalid_req"
      case ServerError => "server_error"
      case Timeout => "timeout"
      case Network => "network"
      case Unknown => "unknown"
    }
  }

  datatype Error =
    | Message(text: string)
    | Wrapped(context: string, cause: Error)
    | AIError(kind: ErrorType, message: string, statusCode: int, retryable: bool,
              original: Option<Error>, metadata: map<string, string>)

  /** `isRetryable`: the advisory flag is fixed by the error class. */
  function IsRetryableType(t: ErrorType): (r: bool)
    ensures r <==> t in {RateLimit, ServerError, Timeout, Network}
    ensures r ==> t != Auth && t != InvalidReq && t != Unknown
  {
    match t
    case RateLimit | ServerError | Timeout | Network => true
    case _ => false
  }

  /** `NewError`: a classified error with no status code and empty metadata. */
  function NewError(t: ErrorType, msg: string, original: Option<Error>): (e: Error)
    ensures e.AIError? && e.kind == t && e.message == msg && e.original == original
    ensures e.retryable <==> t in {RateLimit, ServerError, Timeout, Network}
    ensures e.statusCode == 0 && e.metadata == map[]
  {
    AIError(t, msg, 0, IsRetryableType(t), original, map[])
  }

  /** `NewErrorWithCode`: as `NewError`, recording an HTTP status code. */
  function NewErrorWithCode(t: ErrorType, msg: string, statusCode: int, original: Option<Error>): (e: Error)
    ensures e.AIError? && e.kind == t && e.message == msg && e.original == original
    ensures e.statusCode == statusCode && e.metadata == map[]
    ensures e.retryable <==> t in {RateLimit, ServerError, Timeout, Network}
  {
    AIError(t, msg, statusCode, IsRetryableType(t), original, map[])
  }

  /** `IsRetryable(err)`: only a bare `*ai.Error` answers with its flag (a type
      assertion, not `errors.As`, so a wrapped AI error is not retryable). */
  function IsRetryable(err: Option<Error>): (r: bool)
    ensures r <==> err.Some? && err.value.AIError? && err.value.retryable
  {
    match err
    case Some(AIError(_, _, _, retryable, _, _)) => retryable
    case _ => false
  }

  /** `err.Error()`. */
  function ErrorText(e: Error): string {
    match e
    case Message(text) => text
    case Wrapped(context, cause) => context + ": " + ErrorText(cause)
    case AIError(kind, message, _, _, original, _) =>
      if original.Some? then "[" + kind.Tag() + "] " + message + ": " + ErrorText(original.value)
      else "[" + kind.Tag() + "] " + message
  }

  /** `errors.Unwrap(e)`: the `%w` cause of a wrapper, `Original` of an AI error. */
  function Unwrap(e: Error): (r: Option<Error>)
    ensures e.Message? ==> r.None?
    ensures e.Wrapped? ==> r == Some(e.cause)
    ensures e.AIError? ==> r == e.original
  {
    match e
    case Message(_) => None
    case Wrapped(_, cause) => Some(cause)
    case AIError(_, _, _, _, original, _) => original
  }

  // ---------------------------------------------------------------------------

  /** `Unwrap` undoes `NewError`: the original error comes back unchanged. */
  lemma UnwrapNewError(t: ErrorType, msg: string, original: Option<Error>)
    ensures Unwrap(NewError(t, msg, original)) == original
    ensures Unwrap(NewErrorWithCode(t, msg, 0, original)) == original
  {
  }

  /** A retryable AI error stops being retryable once wrapped with `%w`. */
  lemma WrappedNeverRetryable(context: string, cause: Error)
    ensures !IsRetryable(Some(Wrapped(context, cause)))
  {
  }

  /** The text of an AI error is its bracketed class and its message, then ": " and the original's text when there is one. */
  lemma AIErrorTextShape(e: Error)
    requires e.AIError?
    ensures HasPrefixText(ErrorText(e), "[" + e.kind.Tag() + "] " + e.message)
    ensures e.original.None? ==> ErrorText(e) == "[" + e.kind.Tag() + "] " + e.message
    ensures e.original.Some? ==>
              ErrorText(e) == "[" + e.kind.Tag() + "] " + e.message + ": " + ErrorText(e.original.value)
  {
    var p := "[" + e.kind.Tag() + "] " + e.message;
    if e.original.Some? {
      assert ErrorText(e) == p + (": " + ErrorText(e.original.value));
    }
  }

  predicate HasPrefixText(s: string, p: string) {
    |p| <= |s| && s[..|p|] == p
  }

  /** The class tags contain no `]`, so the bracketed prefix names exactly one class. */
  lemma {:induction false} TextDeterminesClass(e1: Error, e2: Error)
    requires e1.AIError? && e2.AIError?
    requires ErrorText(e1) == ErrorText(e2)
    ensures e1.kind == e2.kind
  {
    AIErrorTextShape(e1);
    AIErrorTextShape(e2);
    var s := ErrorText(e1);
    BracketPrefix(s, e1.kind.Tag(), e1.message);
    BracketPrefix(s, e2.kind.Tag(), e2.message);
    SameBracketedTag(s, e1.kind, e2.kind);
  }

  lemma BracketPrefix(s: string, tag: string, msg: string)
    requires HasPrefixText(s, "[" + tag + "] " + msg)
    ensures HasPrefixText(s, "[" + tag + "]")
  {
    var p := "[" + tag + "] " + msg;
    assert ("[" + tag + "]") == p[..|tag| + 2];
  }

  lemma SameBracketedTag(s: string, a: ErrorType, b: ErrorType)
    requires HasPrefixText(s, "[" + a.Tag() + "]") && HasPrefixText(s, "[" + b.Tag() + "]")
    ensures a == b
  {
    var ta, tb := a.Tag(), b.Tag();
    assert s[1 + |ta|] == ']' && s[1 + |tb|] == ']';
    assert forall i :: 0 <= i < |ta| ==> s[1 + i] == ta[i];
    assert forall i :: 0 <= i < |tb| ==> s[1 + i] == tb[i];
    NoBracketInTag(a);
    NoBracketInTag(b);
    if |ta| < |tb| {
      assert false;
    } else if |tb| < |ta| {
      assert false;
    } else {
      assert ta == tb;
      TagInjective(a, b);
    }
  }

  lemma NoBracketInTag(t: ErrorType)
    ensures forall i :: 0 <= i < |t.Tag()| ==> t.Tag()[i] != ']'
  {
  }

  lemma TagInjective(a: ErrorType, b: ErrorType)
    requires a.Tag() == b.Tag()
    ensures a == b
  {
  }
}

=== FILE: factory.dfy ===
/** Provider dispatch (pkg/ai/factory/factory.go) and the `ai.Provider` interface
    over the two backends: `Generate`, `Name` and `Close`. */
module Factory {
  import opened Wrappers
  import opened Errors
  import opened AITypes
  import opened AIProvider
  import Gemini
  import Ollama

  /** A constructed provider: one of the two backends. */
  datatype Provider = GeminiProvider(gemini: Gemini.Client) | OllamaProvider(ollama: Ollama.Client)

  /** What the backends' constructors consult outside the model: the Gemini SDK's
      client creation (given the key) and the Ollama client's environment lookup. */
  datatype Backends = Backends(geminiConnect: string -> Option<Error>, ollamaEnvironment: Option<Error>)

  /** `Name`: the backend's own tag. */
  function Name(p: Provider): (n: ProviderType)
    ensures p.GeminiProvider? <==> n == ProviderGemini
    ensures p.OllamaProvider? <==> n == ProviderOllama
  {
    match p
    case GeminiProvider(_) => ProviderGemini
    case OllamaProvider(_) => ProviderOllama
  }

  /** The configuration a provider was built from. */
  function ConfigOf(p: Provider): Config {
    match p
    case GeminiProvider(c) => c.config
    case OllamaProvider(c) => c.config
  }

  /** `NewProvider`: nil and unknown tags are refused here; a known tag goes to its backend's constructor. */
  function NewProvider(cfg: Option<Config>, b: Backends): (r: Result<Provider, Error>)
    ensures cfg.None? ==> r == Err(Message("config cannot be nil"))
    ensures cfg.Some? && cfg.value.provider != ProviderGemini && cfg.value.provider != ProviderOllama ==>
              r == Err(Message("unsupported provider: " + cfg.value.provider))
    ensures cfg.Some? && cfg.value.provider == ProviderGemini ==>
              match Gemini.New(cfg, b.geminiConnect)
              case Ok(c) => r == Ok(GeminiProvider(c))
              case Err(e) => r == Err(e)
    ensures cfg.Some? && cfg.value.provider == ProviderOllama ==>
              match Ollama.New(cfg, b.ollamaEnvironment)
              case Ok(c) => r == Ok(OllamaProvider(c))
              case Err(e) => r == Err(e)
  {
    if cfg.None? then Err(Message("config cannot be nil"))
    else if cfg.value.provider == ProviderGemini then
      match Gemini.New(cfg, b.geminiConnect)
      case Ok(c) => Ok(GeminiProvider(c))
      case Err(e) => Err(e)
    else if cfg.value.provider == ProviderOllama then
      match Ollama.New(cfg, b.ollamaEnvironment)
      case Ok(c) => Ok(OllamaProvider(c))
      case Err(e) => Err(e)
    else Err(Message("unsupported provider: " + cfg.value.provider))
  }

  /** `Generate` through the interface; each backend's SDK call is its own oracle. */
  function Generate(p: Provider, req: Option<GenerateRequest>,
                    geminiSend: Gemini.Call -> Gemini.Outcome,
                    ollamaSend: Ollama.Call -> Ollama.Outcome): (r: Result<GenerateResponse, Error>)
    ensures !RequestAcceptable(req) ==>
              r == Err(NewError(InvalidReq, "invalid request", ValidateGenerateRequest(req)))
    ensures r.Ok? ==> "model" in r.value.metadata && r.value.metadata["model"] == ConfigOf(p).model
    ensures r.Err? && RequestAcceptable(req) ==> r.error.AIError?
    ensures p.GeminiProvider? ==> r == Gemini.Generate(p.gemini, req, geminiSend)
    ensures p.OllamaProvider? ==> r == Ollama.Generate(p.ollama, req, ollamaSend)
  {
    match p
    case GeminiProvider(c) => Gemini.Generate(c, req, geminiSend)
    case OllamaProvider(c) => Ollama.Generate(c, req, ollamaSend)
  }

  /** `Close`: Gemini closes its SDK client (whose outcome is `geminiClose`); Ollama has nothing to close. */
  function Close(p: Provider, geminiClose: Option<Error>): (r: Option<Error>)
    ensures p.OllamaProvider? ==> r.None?
    ensures p.GeminiProvider? ==> r == geminiClose
  {
    match p
    case GeminiProvider(_) => geminiClose
    case OllamaProvider(_) => None
  }

  // ---------------------------------------------------------------------------

  /** Only a configuration `ValidateConfig` accepts ever yields a provider, and the
      provider reports the configured tag as its name and keeps the configuration. */
  lemma {:induction false} ProviderFromValidConfig(cfg: Option<Config>, b: Backends)
    requires NewProvider(cfg, b).Ok?
    ensures ConfigAcceptable(cfg) && ValidateConfig(cfg).None?
    ensures Name(NewProvider(cfg, b).value) == cfg.value.provider
    ensures ConfigOf(NewProvider(cfg, b).value) == cfg.value
  {
    if cfg.value.provider == ProviderGemini {
      assert Gemini.New(cfg, b.geminiConnect).Ok?;
    } else {
      assert Ollama.New(cfg, b.ollamaEnvironment).Ok?;
    }
  }

  /** An unknown tag is reported as unsupported by the factory before any validation runs:
      the validator's own "invalid provider type" message never reaches the caller. */
  lemma UnknownTagNeverValidated(cfg: Config, b: Backends)
    requires cfg.provider != ProviderGemini && cfg.provider != ProviderOllama
    ensures NewProvider(Some(cfg), b) == Err(Message("unsupported provider: " + cfg.provider))
    ensures NewProvider(Some(cfg), b) != Err(ValidateConfig(Some(cfg)).value)
  {
    var refused := "unsupported provider: " + cfg.provider;
    var invalid := "invalid provider type: " + cfg.provider;
    assert ValidateConfig(Some(cfg)).value == Message(invalid);
    assert refused[0] == 'u' && invalid[0] == 'i';
  }

  /** Closing never fails for an Ollama provider, whatever the Gemini client would report. */
  lemma OllamaCloseAlwaysSucceeds(cfg: Config, b: Backends, geminiClose: Option<Error>)
    requires cfg.provider == ProviderOllama && NewProvider(Some(cfg), b).Ok?
    ensures Close(NewProvider(Some(cfg), b).value, geminiClose).None?
  {
  }
}

=== FILE: format.dfy ===
/** Image-format parsing and MIME types (internal/utils/format.go). */
module Formats {
  import opened Wrappers
  import opened Strings
  import opened Errors
  import opened Renderer

  /** The spellings accepted once trimmed and lower-cased. */
  predicate KnownSpelling(s: string) {
    s == "png" || s == "jpeg" || s == "jpg" || s == "webp"
  }

  /** `ParseImageFormat`: trims, lower-cases, and maps "jpg" to JPEG; the error quotes the raw input. */
  function ParseImageFormat(format: string): (r: Result<ImageFormat, Error>)
    ensures r.Ok? <==> KnownSpelling(ToLower(TrimSpace(format)))
    ensures r.Ok? ==> Supported(r.value)
    ensures r.Ok? && ToLower(TrimSpace(format)) == "jpg" ==> r.value == FormatJPEG
    ensures r.Ok? && ToLower(TrimSpace(format)) != "jpg" ==> r.value == ToLower(TrimSpace(format))
    ensures r.Err? ==> r.error == Message("不支持的图片格式: " + format + " (支持: png, jpeg, webp)")
  {
    var key := ToLower(TrimSpace(format));
    if key == "png" then Ok(FormatPNG)
    else if key == "jpeg" || key == "jpg" then Ok(FormatJPEG)
    else if key == "webp" then Ok(FormatWebP)
    else Err(Message("不支持的图片格式: " + format + " (支持: png, jpeg, webp)"))
  }

  /** `ParseImageFormatOrDefault`: PNG whenever parsing fails. */
  function ParseImageFormatOrDefault(format: string): (f: ImageFormat)
    ensures Supported(f)
    ensures ParseImageFormat(format).Ok? ==> f == ParseImageFormat(format).value
    ensures ParseImageFormat(format).Err? ==> f == FormatPNG
  {
    match ParseImageFormat(format)
    case Ok(f) => f
    case Err(_) => FormatPNG
  }

  /** `GetContentType`: JPEG and WebP by name, everything else as PNG. */
  function GetContentType(f: ImageFormat): (mime: string)
    ensures Supported(f) ==> mime == "image/" + f
    ensures !Supported(f) ==> mime == "image/png"
  {
    if f == FormatJPEG then "image/jpeg"
    else if f == FormatWebP then "image/webp"
    else "image/png"
  }

  // ---------------------------------------------------------------------------

  /** Parsing a canonical format name gives it back: parse inverts the format's own spelling. */
  lemma CanonicalRoundTrip(f: ImageFormat)
    requires Supported(f)
    ensures ParseImageFormat(f) == Ok(f)
  {
    assert Trimmed(f);
    TrimOfTrimmed(f);
    LowerIdempotentOn(f);
  }

  /** A parsed format parses to itself again. */
  lemma ParseIdempotent(format: string)
    requires ParseImageFormat(format).Ok?
    ensures ParseImageFormat(ParseImageFormat(format).value) == ParseImageFormat(format)
  {
    CanonicalRoundTrip(ParseImageFormat(format).value);
  }

  /** Normalising first changes nothing: the trimmed, lower-cased spelling is accepted
      exactly when the original is, and names the same format. */
  lemma {:induction false} NormalizedSpellingParsesAlike(format: string)
    ensures ParseImageFormat(ToLower(TrimSpace(format))).Ok? <==> ParseImageFormat(format).Ok?
    ensures ParseImageFormat(format).Ok? ==>
              ParseImageFormat(ToLower(TrimSpace(format))).value == ParseImageFormat(format).value
  {
    NormalizeIdempotent(format);
  }

  /** Surrounding white space and letter case do not matter: e.g. " JPG\n" is JPEG. */
  lemma PaddedUpperCaseAccepted()
    ensures ParseImageFormat(" JPG\n") == Ok(FormatJPEG)
    ensures ParseImageFormat("\tWebP ") == Ok(FormatWebP)
  {
    assert TrimSpace(" JPG\n") == "JPG";
    assert ToLower("JPG") == "jpg";
    assert TrimSpace("\tWebP ") == "WebP";
    assert ToLower("WebP") == "webp";
  }

  /** The MIME type of any parse result names the parsed format. */
  lemma ContentTypeOfParsed(format: string)
    ensures GetContentType(ParseImageFormatOrDefault(format)) == "image/" + ParseImageFormatOrDefault(format)
  {
  }

  lemma LowerIdempotentOn(f: ImageFormat)
    requires Supported(f)
    ensures ToLower(f) == f
  {
  }
}

=== FILE: gemini.dfy ===
/** The Gemini backend (pkg/ai/gemini/client.go) with the Google SDK as an oracle.

    The model keeps what the client decides on its own: config validation and
    timeout defaulting at construction, the parameters it hands the SDK, how it
    assembles a `GenerateResponse` from the SDK's reply, and how it classifies
    the SDK's errors.
 */
module Gemini {
  import opened Wrappers
  import opened Strings
  import opened Errors
  import opened AITypes
  import opened AIProvider
  import opened Classifier

  /** The `*Provider` struct; the SDK client handle itself is not modelled. */
  datatype Client = Client(config: Config, timeoutSeconds: int)

  /** What the client hands `GenerativeModel(...).GenerateContent`. */
  datatype Call = Call(
    model: string,
    prompt: string,
    maxOutputTokens: Option<int>,
    temperature: Option<real>,
    systemInstruction: Option<string>,
    timeoutSeconds: int)

  datatype Part = TextPart(text: string) | OtherPart
  /** `finishReason` is the SDK's `FinishReason`, an `int32` enumeration. */
  datatype Candidate = Candidate(content: Option<seq<Part>>, finishReason: int)
  datatype Usage = Usage(promptTokens: int, candidatesTokens: int, totalTokens: int)
  datatype Reply = Reply(candidates: seq<Candidate>, usage: Option<Usage>)

  /** The SDK's answer: a possibly nil reply, or an error. */
  datatype Outcome = Replied(reply: Option<Reply>) | Failed(cause: Error)

  const DefaultTimeoutSeconds := 30

  /** `newGeminiProvider`; `connect` stands for `genai.NewClient` given the API key. */
  function New(cfg: Option<Config>, connect: string -> Option<Error>): (r: Result<Client, Error>)
    ensures ValidateConfig(cfg).Some? ==> r == Err(Wrapped("invalid config", ValidateConfig(cfg).value))
    ensures ConfigAcceptable(cfg) && connect(cfg.value.apiKey).Some? ==>
              r == Err(NewError(Auth, "failed to create Gemini client", connect(cfg.value.apiKey)))
    ensures r.Ok? <==> ConfigAcceptable(cfg) && connect(cfg.value.apiKey).None?
    ensures r.Ok? ==> r.value.config == cfg.value && r.value.timeoutSeconds > 0
    ensures r.Ok? && cfg.value.timeout == 0 ==> r.value.timeoutSeconds == DefaultTimeoutSeconds
    ensures r.Ok? && cfg.value.timeout != 0 ==> r.value.timeoutSeconds == cfg.value.timeout
  {
    var invalid := ValidateConfig(cfg);
    if invalid.Some? then Err(Wrapped("invalid config", invalid.value))
    else
      var c := cfg.value;
      var connErr := connect(c.apiKey);
      if connErr.Some? then Err(NewError(Auth, "failed to create Gemini client", connErr))
      else Ok(Client(c, if c.timeout == 0 then DefaultTimeoutSeconds else c.timeout))
  }

  /** The system instruction: the request's own, else the config's default, else none. */
  function SystemPrompt(cfg: Config, req: GenerateRequest): (s: string)
    ensures req.system != "" ==> s == req.system
    ensures req.system == "" && cfg.prompts.Some? ==> s == cfg.prompts.value.defaultSystem
    ensures req.system == "" && cfg.prompts.None? ==> s == ""
  {
    if req.system == "" && cfg.prompts.Some? then cfg.prompts.value.defaultSystem else req.system
  }

  /** Go's `int32(n)` conversion: two's-complement wrap-around. */
  function Int32(n: int): (r: int)
    ensures -0x8000_0000 <= r < 0x8000_0000
    ensures -0x8000_0000 <= n < 0x8000_0000 ==> r == n
  {
    (n + 0x8000_0000) % 0x1_0000_0000 - 0x8000_0000
  }

  /** Go's `string(r)` on an integer: the one-rune string of that code point, or U+FFFD when
      the value is not a Unicode scalar value. */
  function RuneString(n: int): (s: string)
    ensures |s| == 1
    ensures 0 <= n < 0xD800 || 0xE000 <= n < 0x11_0000 ==> s[0] as int == n
    ensures n < 0 || 0xD800 <= n < 0xE000 || n >= 0x11_0000 ==> s == "\U{FFFD}"
  {
    if 0 <= n < 0xD800 || 0xE000 <= n < 0x11_0000 then [n as char] else "\U{FFFD}"
  }

  /** The SDK parameters for a request: limits only when positive, system text only when non-empty. */
  function CallFor(c: Client, req: GenerateRequest): (call: Call)
    ensures call.model == c.config.model && call.prompt == req.prompt
    ensures call.maxOutputTokens.Some? <==> req.maxTokens > 0
    ensures call.maxOutputTokens.Some? ==> call.maxOutputTokens.value == Int32(req.maxTokens)
    ensures call.temperature.Some? <==> req.temperature > 0.0
    ensures call.temperature.Some? ==> call.temperature.value == req.temperature
    ensures call.systemInstruction.Some? <==> SystemPrompt(c.config, req) != ""
    ensures call.systemInstruction.Some? ==> call.systemInstruction.value == SystemPrompt(c.config, req)
    ensures call.timeoutSeconds == c.timeoutSeconds
  {
    var sys := SystemPrompt(c.config, req);
    Call(c.config.model, req.prompt,
         if req.maxTokens > 0 then Some(Int32(req.maxTokens)) else None,
         if req.temperature > 0.0 then Some(req.temperature) else None,
         if sys != "" then Some(sys) else None,
         c.timeoutSeconds)
  }

  /** The text parts of a candidate, concatenated in order; other parts are skipped. */
  function JoinText(parts: seq<Part>): string {
    if |parts| == 0 then ""
    else JoinText(parts[..|parts| - 1])
         + (match parts[|parts| - 1] case TextPart(t) => t case OtherPart => "")
  }

  /** Joining distributes over splitting the parts. */
  lemma {:induction false} JoinTextAppend(a: seq<Part>, b: seq<Part>)
    ensures JoinText(a + b) == JoinText(a) + JoinText(b)
    decreases |b|
  {
    if |b| == 0 {
      assert a + b == a;
    } else {
      var b' := b[..|b| - 1];
      assert (a + b)[..|a + b| - 1] == a + b';
      JoinTextAppend(a, b');
    }
  }

  /** A non-text part adds nothing, wherever it sits; a text part adds exactly its text. */
  lemma {:induction false} JoinTextParts(a: seq<Part>, b: seq<Part>, t: string)
    ensures JoinText(a + [OtherPart] + b) == JoinText(a + b)
    ensures JoinText(a + [TextPart(t)] + b) == JoinText(a) + t + JoinText(b)
  {
    JoinTextAppend(a + [OtherPart], b);
    JoinTextAppend(a, b);
    JoinTextAppend(a + [TextPart(t)], b);
  }

  /** The response built from the first candidate of a non-empty reply. */
  function ResponseFrom(c: Client, reply: Reply): (r: GenerateResponse)
    requires |reply.candidates| > 0
    ensures reply.candidates[0].content.Some? ==> r.content == JoinText(reply.candidates[0].content.value)
    ensures reply.candidates[0].content.None? ==> r.content == ""
    ensures r.finishReason == RuneString(reply.candidates[0].finishReason)
    ensures "model" in r.metadata && r.metadata["model"] == c.config.model
    ensures reply.usage.None? ==> r.tokensUsed == 0 && r.metadata.Keys == {"model"}
    ensures reply.usage.Some? ==> r.tokensUsed == reply.usage.value.totalTokens
                                  && r.metadata.Keys == {"prompt_tokens", "candidates_tokens", "model"}
                                  && r.metadata["prompt_tokens"] == IntToString(reply.usage.value.promptTokens)
                                  && r.metadata["candidates_tokens"] == IntToString(reply.usage.value.candidatesTokens)
  {
    var cand := reply.candidates[0];
    var text := if cand.content.Some? then JoinText(cand.content.value) else "";
    match reply.usage
    case None => GenerateResponse(text, 0, RuneString(cand.finishReason), map["model" := c.config.model])
    case Some(u) =>
      GenerateResponse(text, u.totalTokens, RuneString(cand.finishReason),
                       map["prompt_tokens" := IntToString(u.promptTokens),
                           "candidates_tokens" := IntToString(u.candidatesTokens),
                           "model" := c.config.model])
  }

  /** `Generate`, with `send` standing for the SDK call. */
  function Generate(c: Client, req: Option<GenerateRequest>, send: Call -> Outcome): (r: Result<GenerateResponse, Error>)
    ensures !RequestAcceptable(req) ==>
              r == Err(NewError(InvalidReq, "invalid request", ValidateGenerateRequest(req)))
    ensures RequestAcceptable(req) && send(CallFor(c, req.value)).Failed? ==>
              r == Err(HandleError(Some(send(CallFor(c, req.value)).cause)).value)
    ensures RequestAcceptable(req) && send(CallFor(c, req.value)).Replied? &&
            (send(CallFor(c, req.value)).reply.None? || |send(CallFor(c, req.value)).reply.value.candidates| == 0) ==>
              r == Err(NewError(ServerError, "empty response from Gemini", None))
    ensures r.Ok? <==> RequestAcceptable(req) && send(CallFor(c, req.value)).Replied?
                       && send(CallFor(c, req.value)).reply.Some?
                       && |send(CallFor(c, req.value)).reply.value.candidates| > 0
    ensures r.Ok? ==> r.value == ResponseFrom(c, send(CallFor(c, req.value)).reply.value)
  {
    var invalid := ValidateGenerateRequest(req);
    if invalid.Some? then Err(NewError(InvalidReq, "invalid request", invalid))
    else
      match send(CallFor(c, req.value))
      case Failed(cause) => Err(HandleError(Some(cause)).value)
      case Replied(reply) =>
        if reply.None? || |reply.value.candidates| == 0 then
          Err(NewError(ServerError, "empty response from Gemini", None))
        else Ok(ResponseFrom(c, reply.value))
  }

  // ---------------------------------------------------------------------------
  // Error classification

  /** The classifier table, in the order the source tests it. */
  const Rules: seq<Rule> := [
    Rule([["authentication"], ["api key"], ["unauthorized"], ["401"]], Auth, "authentication failed"),
    Rule([["rate limit"], ["quota"], ["too many requests"], ["429"]], RateLimit, "rate limit exceeded"),
    Rule([["timeout"], ["deadline exceeded"], ["context deadline"]], Timeout, "request timeout"),
    Rule([["connection"], ["network"], ["dial"]], Network, "network error"),
    Rule([["500"], ["502"], ["503"], ["504"], ["server error"], ["internal error"]], ServerError, "server error"),
    Rule([["invalid"], ["bad request"], ["400"]], InvalidReq, "invalid request")
  ]

  /** `handleError`: nil stays nil; anything else is classified and keeps the original. */
  function HandleError(err: Option<Error>): (r: Option<Error>)
    ensures err.None? <==> r.None?
    ensures err.Some? ==> r.value.AIError? && r.value.original == err && r.value.statusCode == 0
    ensures err.Some? ==> r.value.retryable == IsRetryableType(r.value.kind)
  {
    if err.None? then None
    else
      var lower := ToLower(ErrorText(err.value));
      Some(NewError(Classify(Rules, lower), Summary(Rules, lower), err))
  }

  /** First-match order: each class is chosen exactly when its rule fires and no earlier rule does. */
  lemma {:induction false} HandleErrorFirstMatch(err: Error)
    ensures var t := ToLower(ErrorText(err));
            var k := HandleError(Some(err)).value.kind;
            && (k == Auth <==> Fires(Rules[0], t))
            && (k == RateLimit <==> !Fires(Rules[0], t) && Fires(Rules[1], t))
            && (k == Timeout <==> !Fires(Rules[0], t) && !Fires(Rules[1], t) && Fires(Rules[2], t))
            && (k == Network <==> !Fires(Rules[0], t) && !Fires(Rules[1], t) && !Fires(Rules[2], t)
                                  && Fires(Rules[3], t))
            && (k == ServerError <==> (forall j :: 0 <= j < 4 ==> !Fires(Rules[j], t)) && Fires(Rules[4], t))
            && (k == InvalidReq <==> (forall j :: 0 <= j < 5 ==> !Fires(Rules[j], t)) && Fires(Rules[5], t))
            && (k == Unknown <==> forall j :: 0 <= j < |Rules| ==> !Fires(Rules[j], t))
  {
    var t := ToLower(ErrorText(err));
    var i := FirstFiring(Rules, t);
    if i < |Rules| {
      FirstMatchDecides(Rules, t, i);
    } else {
      NoRuleFiresIsUnknown(Rules, t);
    }
  }

  /** Authentication outranks every other class: e.g. a text with both "401" and "timeout" is `Auth`. */
  lemma {:induction false} AuthOutranksTimeout(err: Error)
    requires Contains(ToLower(ErrorText(err)), "401")
    ensures HandleError(Some(err)).value.kind == Auth
    ensures HandleError(Some(err)).value.message == "authentication failed"
  {
    var t := ToLower(ErrorText(err));
    PhraseFires(Rules[0], t, 3);
    FirstMatchDecides(Rules, t, 0);
  }
}

=== FILE: handlers.dfy ===
/** The HTTP handlers of the service (internal/handlers/convert.go) as pure
    decision functions: which request is refused, in which order, with which
    status and code, and which options reach the converter.

    gin's binding, the multipart file, the browser connection and the
    converter's collaborators are inputs; the response is a value.
 */
module Handlers {
  import opened Wrappers
  import opened Strings
  import opened Errors
  import Settings
  import Validation
  import Formats
  import Renderer
  import Converter
  import Parsers
  import Factory

  /** The request fields every option getter reads; an absent field is "" or 0. */
  datatype RequestParams = RequestParams(
    title: string,
    theme: string,
    customCSS: string,
    width: int,
    fontSize: int,
    fontFamily: string,
    imageFormat: string,
    imageQuality: int,
    devicePixelRatio: real,
    parserMode: string,
    aiProvider: string,
    aiModel: string,
    aiAPIKey: string,
    aiEndpoint: string,
    aiPromptTemplate: string,
    aiCustomPrompt: string)

  /** The JSON body of /api/convert: the Markdown and the option fields. */
  datatype ConvertRequest = ConvertRequest(markdown: string, params: RequestParams)

  /** The uploaded file: its declared size, the error of opening it, and what reading it gives. */
  datatype UploadedFile = UploadedFile(size: int, openError: Option<Error>, contents: Result<string, Error>)

  /** What the handlers consult outside the model: the browser connection and the converter's collaborators. */
  datatype Environment = Environment(
    connect: Result<Renderer.Browser, string>,
    services: Parsers.Services,
    backends: Factory.Backends)

  /** What the client receives: an image with its MIME type, or a JSON error body. */
  datatype Response =
    | ImageReply(contentType: string, body: Renderer.Image)
    | Failure(status: int, code: string, message: string, details: string)
  {
    /** The HTTP status of the response. */
    function Status(): int {
      if ImageReply? then 200 else status
    }
  }

  // ---------------------------------------------------------------------------
  // Options

  /** A text override: the request's value when non-empty, else the default. */
  function OrText(given: string, default: string): (r: string)
    ensures given != "" ==> r == given
    ensures given == "" ==> r == default
  {
    if given != "" then given else default
  }

  /** A numeric override: the request's value when positive, else the default. */
  function OrPositive(given: int, default: int): (r: int)
    ensures given > 0 ==> r == given
    ensures given <= 0 ==> r == default
  {
    if given > 0 then given else default
  }

  function OrPositiveReal(given: real, default: real): (r: real)
    ensures given > 0.0 ==> r == given
    ensures given <= 0.0 ==> r == default
  {
    if given > 0.0 then given else default
  }

  /** `buildConvertOptionsFromParams`: start from the defaults; a text field overrides
      when non-empty, a number when positive; the format goes through the lenient parser. */
  function BuildConvertOptionsFromParams(p: RequestParams): (o: Converter.ConvertOptions)
    ensures p.title != "" ==> o.title == p.title
    ensures p.theme != "" ==> o.theme == p.theme
    ensures p.customCSS != "" ==> o.customCSS == p.customCSS
    ensures p.width > 0 ==> o.width == p.width
    ensures p.fontSize > 0 ==> o.fontSize == p.fontSize
    ensures p.fontFamily != "" ==> o.fontFamily == p.fontFamily
    ensures p.imageFormat != "" ==> o.imageFormat == Formats.ParseImageFormatOrDefault(p.imageFormat)
    ensures p.imageQuality > 0 ==> o.imageQuality == p.imageQuality
    ensures p.devicePixelRatio > 0.0 ==> o.devicePixelRatio == p.devicePixelRatio
    ensures p.parserMode != "" ==> o.parserMode == p.parserMode
    ensures p.aiProvider != "" ==> o.aiProvider == p.aiProvider
    ensures p.aiModel != "" ==> o.aiModel == p.aiModel
    ensures p.aiAPIKey != "" ==> o.aiAPIKey == p.aiAPIKey
    ensures p.aiEndpoint != "" ==> o.aiEndpoint == p.aiEndpoint
    ensures p.aiPromptTemplate != "" ==> o.aiPromptTemplate == p.aiPromptTemplate
    ensures p.aiCustomPrompt != "" ==> o.aiCustomPrompt == p.aiCustomPrompt
    ensures p.title == "" ==> o.title == "Markdown to Image"
    ensures p.theme == "" ==> o.theme == "light"
    ensures p.customCSS == "" ==> o.customCSS == ""
    ensures p.fontFamily == "" ==> o.fontFamily == "Arial, sans-serif"
    ensures p.width <= 0 ==> o.width == 1200
    ensures p.fontSize <= 0 ==> o.fontSize == 16
    ensures p.imageFormat == "" ==> o.imageFormat == Renderer.FormatPNG
    ensures p.imageQuality <= 0 ==> o.imageQuality == 90
    ensures p.devicePixelRatio <= 0.0 ==> o.devicePixelRatio == 1.0
    ensures p.parserMode == "" ==> o.parserMode == "traditional"
    ensures p.aiProvider == "" ==> o.aiProvider == Converter.DefaultConvertOptions().aiProvider
    ensures p.aiModel == "" ==> o.aiModel == Converter.DefaultConvertOptions().aiModel
    ensures p.aiAPIKey == "" ==> o.aiAPIKey == ""
    ensures p.aiEndpoint == "" ==> o.aiEndpoint == Converter.DefaultConvertOptions().aiEndpoint
    ensures p.aiPromptTemplate == "" ==> o.aiPromptTemplate == "enhance"
    ensures p.aiCustomPrompt == "" ==> o.aiCustomPrompt == ""
    ensures Renderer.Supported(o.imageFormat)
    ensures o.fullPage && o.aiPromptData == Some(map[])
  {
    var d := Converter.DefaultConvertOptions();
    Converter.ConvertOptions(
      OrText(p.title, d.title), OrText(p.theme, d.theme), OrText(p.customCSS, d.customCSS),
      OrPositive(p.width, d.width), OrPositive(p.fontSize, d.fontSize), OrText(p.fontFamily, d.fontFamily),
      if p.imageFormat != "" then Formats.ParseImageFormatOrDefault(p.imageFormat) else d.imageFormat,
      OrPositive(p.imageQuality, d.imageQuality), d.fullPage, OrPositiveReal(p.devicePixelRatio, d.devicePixelRatio),
      OrText(p.parserMode, d.parserMode), OrText(p.aiProvider, d.aiProvider), OrText(p.aiModel, d.aiModel),
      OrText(p.aiAPIKey, d.aiAPIKey), OrText(p.aiEndpoint, d.aiEndpoint),
      OrText(p.aiPromptTemplate, d.aiPromptTemplate), OrText(p.aiCustomPrompt, d.aiCustomPrompt),
      d.aiPromptData)
  }

  // ---------------------------------------------------------------------------
  // Responses

  /** The details of a size refusal: the cap in whole MiB. */
  const TooLargeDetails := "最大支持 " + IntToString(Settings.MaxMarkdownSize / (1024 * 1024)) + " MB"

  /** The last two steps both handlers share: create the converter, convert, reply with the image. */
  function ConvertAndReply(markdown: string, o: Converter.ConvertOptions, env: Environment): (r: Response)
    ensures Converter.NewConverter(env.connect).Err? ==>
              r == Failure(500, "CONVERTER_INIT_FAILED", "转换器初始化失败", ErrorText(Converter.NewConverter(env.connect).error))
    ensures r.ImageReply? <==>
              && Converter.NewConverter(env.connect).Ok?
              && Converter.Convert(Converter.NewConverter(env.connect).value, markdown, Some(o), env.services, env.backends).Ok?
    ensures r.ImageReply? ==>
              && r.contentType == Formats.GetContentType(o.imageFormat)
              && r.body == Converter.Convert(Converter.NewConverter(env.connect).value, markdown, Some(o), env.services, env.backends).value
    ensures Converter.NewConverter(env.connect).Ok?
            && Converter.Convert(Converter.NewConverter(env.connect).value, markdown, Some(o), env.services, env.backends).Err? ==>
              r == Failure(500, "CONVERSION_FAILED", "Markdown 转换失败",
                           ErrorText(Converter.Convert(Converter.NewConverter(env.connect).value, markdown, Some(o),
                                                       env.services, env.backends).error))
    ensures r.Failure? ==> r.status == 500
  {
    match Converter.NewConverter(env.connect)
    case Err(e) => Failure(500, "CONVERTER_INIT_FAILED", "转换器初始化失败", ErrorText(e))
    case Ok(conv) =>
      match Converter.Convert(conv, markdown, Some(o), env.services, env.backends)
      case Err(e) => Failure(500, "CONVERSION_FAILED", "Markdown 转换失败", ErrorText(e))
      case Ok(img) => ImageReply(Formats.GetContentType(o.imageFormat), img)
  }

  /** `ConvertHandler`: binding, then the Markdown size cap, then the custom CSS, then the conversion. */
  function ConvertHandler(bound: Result<ConvertRequest, Error>, env: Environment): (r: Response)
    ensures bound.Err? ==> r == Failure(400, "INVALID_REQUEST", "请求参数验证失败", ErrorText(bound.error))
    ensures bound.Ok? && Utf8Length(bound.value.markdown) > Settings.MaxMarkdownSize ==>
              r == Failure(400, "CONTENT_TOO_LARGE", "Markdown 内容过大", TooLargeDetails)
    ensures bound.Ok? && Utf8Length(bound.value.markdown) <= Settings.MaxMarkdownSize
            && Validation.ValidateCustomCSS(bound.value.params.customCSS).Some? ==>
              r == Failure(400, "INVALID_CUSTOM_CSS", "自定义 CSS 验证失败",
                           ErrorText(Validation.ValidateCustomCSS(bound.value.params.customCSS).value))
    ensures bound.Ok? && Utf8Length(bound.value.markdown) <= Settings.MaxMarkdownSize
            && Validation.SafeCSS(bound.value.params.customCSS) ==>
              r == ConvertAndReply(bound.value.markdown, BuildConvertOptionsFromParams(bound.value.params), env)
    ensures r.Status() != 400 ==>
              && bound.Ok? && Utf8Length(bound.value.markdown) <= Settings.MaxMarkdownSize
              && Validation.SafeCSS(bound.value.params.customCSS)
  {
    match bound
    case Err(e) => Failure(400, "INVALID_REQUEST", "请求参数验证失败", ErrorText(e))
    case Ok(req) =>
      if Utf8Length(req.markdown) > Settings.MaxMarkdownSize then
        Failure(400, "CONTENT_TOO_LARGE", "Markdown 内容过大", TooLargeDetails)
      else
        match Validation.ValidateCustomCSS(req.params.customCSS)
        case Some(e) => Failure(400, "INVALID_CUSTOM_CSS", "自定义 CSS 验证失败", ErrorText(e))
        case None => ConvertAndReply(req.markdown, BuildConvertOptionsFromParams(req.params), env)
  }

  /** `UploadHandler`: form binding, the file, its declared size, opening and reading it, the custom CSS, the conversion. */
  function UploadHandler(bound: Result<RequestParams, Error>, file: Option<UploadedFile>, env: Environment): (r: Response)
    ensures bound.Err? ==> r == Failure(400, "INVALID_FORM", "表单参数验证失败", ErrorText(bound.error))
    ensures bound.Ok? && file.None? ==>
              r == Failure(400, "NO_FILE_UPLOADED", "未找到上传文件", "请在表单中上传文件 (字段名: file)")
    ensures bound.Ok? && file.Some? && file.value.size > Settings.MaxFileUploadSize ==>
              r == Failure(400, "FILE_TOO_LARGE", "文件过大", TooLargeDetails)
    ensures bound.Ok? && file.Some? && file.value.size <= Settings.MaxFileUploadSize && file.value.openError.Some? ==>
              r == Failure(500, "FILE_READ_FAILED", "文件读取失败", ErrorText(file.value.openError.value))
    ensures bound.Ok? && file.Some? && file.value.size <= Settings.MaxFileUploadSize && file.value.openError.None?
            && file.value.contents.Err? ==>
              r == Failure(500, "FILE_READ_FAILED", "文件内容读取失败", ErrorText(file.value.contents.error))
    ensures bound.Ok? && file.Some? && file.value.size <= Settings.MaxFileUploadSize && file.value.openError.None?
            && file.value.contents.Ok? && Validation.ValidateCustomCSS(bound.value.customCSS).Some? ==>
              r == Failure(400, "INVALID_CUSTOM_CSS", "自定义 CSS 验证失败",
                           ErrorText(Validation.ValidateCustomCSS(bound.value.customCSS).value))
    ensures bound.Ok? && file.Some? && file.value.size <= Settings.MaxFileUploadSize && file.value.openError.None?
            && file.value.contents.Ok? && Validation.SafeCSS(bound.value.customCSS) ==>
              r == ConvertAndReply(file.value.contents.value, BuildConvertOptionsFromParams(bound.value), env)
    ensures r.ImageReply? ==>
              && bound.Ok? && file.Some? && file.value.size <= Settings.MaxFileUploadSize
              && file.value.openError.None? && file.value.contents.Ok?
              && Validation.SafeCSS(bound.value.customCSS)
  {
    match bound
    case Err(e) => Failure(400, "INVALID_FORM", "表单参数验证失败", ErrorText(e))
    case Ok(params) =>
      match file
      case None => Failure(400, "NO_FILE_UPLOADED", "未找到上传文件", "请在表单中上传文件 (字段名: file)")
      case Some(f) =>
        if f.size > Settings.MaxFileUploadSize then Failure(400, "FILE_TOO_LARGE", "文件过大", TooLargeDetails)
        else if f.openError.Some? then Failure(500, "FILE_READ_FAILED", "文件读取失败", ErrorText(f.openError.value))
        else
          match f.contents
          case Err(e) => Failure(500, "FILE_READ_FAILED", "文件内容读取失败", ErrorText(e))
          case Ok(markdown) =>
            match Validation.ValidateCustomCSS(params.customCSS)
            case Some(e) => Failure(400, "INVALID_CUSTOM_CSS", "自定义 CSS 验证失败", ErrorText(e))
            case None => ConvertAndReply(markdown, BuildConvertOptionsFromParams(params), env)
  }

  // ---------------------------------------------------------------------------

  /** An empty request yields exactly the default options. */
  lemma EmptyRequestGivesDefaults()
    ensures BuildConvertOptionsFromParams(RequestParams("", "", "", 0, 0, "", "", 0, 0.0, "", "", "", "", "", "", ""))
         == Converter.DefaultConvertOptions()
  {
  }

  /** Filling in one field changes that one option and nothing else (shown for the title, the width and the format). */
  lemma OneFieldChangesOneOption(p: RequestParams, title: string, width: int, format: string)
    requires title != "" && width > 0 && format != ""
    ensures BuildConvertOptionsFromParams(p.(title := title)) == BuildConvertOptionsFromParams(p).(title := title)
    ensures BuildConvertOptionsFromParams(p.(width := width)) == BuildConvertOptionsFromParams(p).(width := width)
    ensures BuildConvertOptionsFromParams(p.(imageFormat := format))
         == BuildConvertOptionsFromParams(p).(imageFormat := Formats.ParseImageFormatOrDefault(format))
  {
  }

  /** Whatever format a request names, the options carry one the renderer supports, so the reply's MIME type names it. */
  lemma BuiltFormatSupported(p: RequestParams)
    ensures Renderer.Supported(BuildConvertOptionsFromParams(p).imageFormat)
    ensures Formats.GetContentType(BuildConvertOptionsFromParams(p).imageFormat)
         == "image/" + BuildConvertOptionsFromParams(p).imageFormat
  {
  }

  /**
   * The builder itself does not clamp: it copies a width past the validator's range unchanged.
   * The range is enforced only by the request's binding tags, whose outcome is an input here.
   */
  lemma NoClampInBuilder(p: RequestParams)
    requires p.width > Settings.MaxWidth
    ensures BuildConvertOptionsFromParams(p).width == p.width
    ensures Validation.ValidateWidth(BuildConvertOptionsFromParams(p).width).Some?
  {
  }

  /** The size cap is checked before the CSS: an oversized request with hostile CSS is refused as too large. */
  lemma SizeCheckedBeforeCSS(req: ConvertRequest, env: Environment)
    requires Utf8Length(req.markdown) > Settings.MaxMarkdownSize
    requires !Validation.SafeCSS(req.params.customCSS)
    ensures ConvertHandler(Ok(req), env).code == "CONTENT_TOO_LARGE"
  {
  }

  /** Refused CSS never reaches the browser: the response is the same whatever the environment. */
  lemma CSSRefusedBeforeBrowser(req: ConvertRequest, env1: Environment, env2: Environment)
    requires Utf8Length(req.markdown) <= Settings.MaxMarkdownSize
    requires !Validation.SafeCSS(req.params.customCSS)
    ensures ConvertHandler(Ok(req), env1) == ConvertHandler(Ok(req), env2)
    ensures ConvertHandler(Ok(req), env1).Status() == 400
  {
  }

  /** The size refusal names the cap as 10 MB. */
  lemma TooLargeDetailsText()
    ensures TooLargeDetails == "最大支持 10 MB"
  {
    assert Settings.MaxMarkdownSize / (1024 * 1024) == 10;
    assert NatToString(10) == "10";
  }
}

=== FILE: legacy_handlers.dfy ===
/** The older copy of the HTTP handlers (pkg/handlers/convert.go). It differs
    from internal/handlers: no custom-CSS validation, its own MIME switch, two
    hand-written option builders that never touch the AI fields, and its own
    format parser (pkg/handlers' `ParseImageFormat`, which is not part of this
    model and is taken as a parameter). */
module LegacyHandlers {
  import opened Wrappers
  import opened Strings
  import opened Errors
  import Renderer
  import Formats
  import Validation
  import Settings
  import Converter
  import Handlers

  /** The option fields of the legacy JSON body and upload form. */
  datatype LegacyParams = LegacyParams(
    title: string,
    theme: string,
    customCSS: string,
    width: int,
    fontSize: int,
    fontFamily: string,
    imageFormat: string,
    imageQuality: int,
    devicePixelRatio: real)

  /** The legacy JSON body. */
  datatype LegacyRequest = LegacyRequest(markdown: string, params: LegacyParams)

  /** The size cap both legacy handlers declare locally: 10 MiB. */
  const MaxSize := 10 * 1024 * 1024

  /** The shared shape of both legacy builders. */
  function ApplyLegacy(p: LegacyParams, parseFormat: string -> Renderer.ImageFormat): Converter.ConvertOptions {
    var d := Converter.DefaultConvertOptions();
    d.(title := Handlers.OrText(p.title, d.title),
       theme := Handlers.OrText(p.theme, d.theme),
       customCSS := Handlers.OrText(p.customCSS, d.customCSS),
       width := Handlers.OrPositive(p.width, d.width),
       fontSize := Handlers.OrPositive(p.fontSize, d.fontSize),
       fontFamily := Handlers.OrText(p.fontFamily, d.fontFamily),
       imageFormat := if p.imageFormat != "" then parseFormat(p.imageFormat) else d.imageFormat,
       imageQuality := Handlers.OrPositive(p.imageQuality, d.imageQuality),
       devicePixelRatio := Handlers.OrPositiveReal(p.devicePixelRatio, d.devicePixelRatio))
  }

  /** `buildConvertOptions`: the nine presentation fields override when non-empty or positive;
      the AI fields and the full-page flag keep their defaults. */
  function BuildConvertOptions(p: LegacyParams, parseFormat: string -> Renderer.ImageFormat): (o: Converter.ConvertOptions)
    ensures p.title != "" ==> o.title == p.title
    ensures p.title == "" ==> o.title == "Markdown to Image"
    ensures p.theme != "" ==> o.theme == p.theme
    ensures p.theme == "" ==> o.theme == "light"
    ensures p.customCSS != "" ==> o.customCSS == p.customCSS
    ensures p.customCSS == "" ==> o.customCSS == ""
    ensures p.fontFamily != "" ==> o.fontFamily == p.fontFamily
    ensures p.fontFamily == "" ==> o.fontFamily == "Arial, sans-serif"
    ensures p.fontSize > 0 ==> o.fontSize == p.fontSize
    ensures p.fontSize <= 0 ==> o.fontSize == 16
    ensures p.imageQuality > 0 ==> o.imageQuality == p.imageQuality
    ensures p.imageQuality <= 0 ==> o.imageQuality == 90
    ensures p.devicePixelRatio > 0.0 ==> o.devicePixelRatio == p.devicePixelRatio
    ensures p.devicePixelRatio <= 0.0 ==> o.devicePixelRatio == 1.0
    ensures p.width > 0 ==> o.width == p.width
    ensures p.width <= 0 ==> o.width == 1200
    ensures p.imageFormat != "" ==> o.imageFormat == parseFormat(p.imageFormat)
    ensures p.imageFormat == "" ==> o.imageFormat == Renderer.FormatPNG
    ensures o.fullPage
    ensures o.parserMode == "traditional" && o.aiProvider == "gemini" && o.aiModel == "gemini-2.0-flash-exp"
    ensures o.aiAPIKey == "" && o.aiEndpoint == "http://localhost:11434"
    ensures o.aiPromptTemplate == "enhance" && o.aiCustomPrompt == "" && o.aiPromptData == Some(map[])
  {
    ApplyLegacy(p, parseFormat)
  }

  /** `buildConvertOptionsFromForm`: a second hand-written copy of the same rules. */
  function BuildConvertOptionsFromForm(p: LegacyParams, parseFormat: string -> Renderer.ImageFormat)
    : (o: Converter.ConvertOptions)
    ensures o == BuildConvertOptions(p, parseFormat)
    ensures p.title != "" ==> o.title == p.title
    ensures p.width > 0 ==> o.width == p.width
    ensures p.width <= 0 ==> o.width == 1200
    ensures o.fullPage && o.parserMode == "traditional"
  {
    var d := Converter.DefaultConvertOptions();
    d.(title := Handlers.OrText(p.title, d.title),
       theme := Handlers.OrText(p.theme, d.theme),
       customCSS := Handlers.OrText(p.customCSS, d.customCSS),
       width := Handlers.OrPositive(p.width, d.width),
       fontSize := Handlers.OrPositive(p.fontSize, d.fontSize),
       fontFamily := Handlers.OrText(p.fontFamily, d.fontFamily),
       imageFormat := if p.imageFormat != "" then parseFormat(p.imageFormat) else d.imageFormat,
       imageQuality := Handlers.OrPositive(p.imageQuality, d.imageQuality),
       devicePixelRatio := Handlers.OrPositiveReal(p.devicePixelRatio, d.devicePixelRatio))
  }

  /** `getContentType`: matches the raw format string, accepting "jpg" as JPEG. */
  function GetContentType(format: string): (mime: string)
    ensures mime == "image/jpeg" <==> format == "jpeg" || format == "jpg"
    ensures mime == "image/webp" <==> format == "webp"
    ensures mime == "image/png" <==> format != "jpeg" && format != "jpg" && format != "webp"
  {
    if format == "jpeg" || format == "jpg" then "image/jpeg"
    else if format == "webp" then "image/webp"
    else "image/png"
  }

  /** Converter creation, conversion and the image reply, with the legacy MIME switch. */
  function ConvertAndReply(markdown: string, o: Converter.ConvertOptions, env: Handlers.Environment): (r: Handlers.Response)
    ensures Converter.NewConverter(env.connect).Err? ==>
              r == Handlers.Failure(500, "CONVERTER_INIT_FAILED", "转换器初始化失败",
                                    ErrorText(Converter.NewConverter(env.connect).error))
    ensures r.ImageReply? <==>
              && Converter.NewConverter(env.connect).Ok?
              && Converter.Convert(Converter.NewConverter(env.connect).value, markdown, Some(o), env.services, env.backends).Ok?
    ensures r.ImageReply? ==>
              && r.contentType == GetContentType(o.imageFormat)
              && r.body == Converter.Convert(Converter.NewConverter(env.connect).value, markdown, Some(o), env.services, env.backends).value
    ensures Converter.NewConverter(env.connect).Ok?
            && Converter.Convert(Converter.NewConverter(env.connect).value, markdown, Some(o), env.services, env.backends).Err? ==>
              r == Handlers.Failure(500, "CONVERSION_FAILED", "Markdown 转换失败",
                                    ErrorText(Converter.Convert(Converter.NewConverter(env.connect).value, markdown, Some(o),
                                                                env.services, env.backends).error))
    ensures r.Failure? ==> r.status == 500
  {
    match Converter.NewConverter(env.connect)
    case Err(e) => Handlers.Failure(500, "CONVERTER_INIT_FAILED", "转换器初始化失败", ErrorText(e))
    case Ok(conv) =>
      match Converter.Convert(conv, markdown, Some(o), env.services, env.backends)
      case Err(e) => Handlers.Failure(500, "CONVERSION_FAILED", "Markdown 转换失败", ErrorText(e))
      case Ok(img) => Handlers.ImageReply(GetContentType(o.imageFormat), img)
  }

  /** Legacy `ConvertHandler`: binding, then the size cap, then straight to the conversion. */
  function ConvertHandler(bound: Result<LegacyRequest, Error>, parseFormat: string -> Renderer.ImageFormat,
                          env: Handlers.Environment): (r: Handlers.Response)
    ensures bound.Err? ==> r == Handlers.Failure(400, "INVALID_REQUEST", "请求参数验证失败", ErrorText(bound.error))
    ensures bound.Ok? && Utf8Length(bound.value.markdown) > MaxSize ==>
              r == Handlers.Failure(400, "CONTENT_TOO_LARGE", "Markdown 内容过大", Handlers.TooLargeDetails)
    ensures bound.Ok? && Utf8Length(bound.value.markdown) <= MaxSize ==>
              r == ConvertAndReply(bound.value.markdown, BuildConvertOptions(bound.value.params, parseFormat), env)
  {
    match bound
    case Err(e) => Handlers.Failure(400, "INVALID_REQUEST", "请求参数验证失败", ErrorText(e))
    case Ok(req) =>
      if Utf8Length(req.markdown) > MaxSize then
        Handlers.Failure(400, "CONTENT_TOO_LARGE", "Markdown 内容过大", Handlers.TooLargeDetails)
      else ConvertAndReply(req.markdown, BuildConvertOptions(req.params, parseFormat), env)
  }

  /** Legacy `UploadHandler`: form binding, the file, its declared size, opening and reading it, the conversion. */
  function UploadHandler(bound: Result<LegacyParams, Error>, file: Option<Handlers.UploadedFile>,
                         parseFormat: string -> Renderer.ImageFormat, env: Handlers.Environment): (r: Handlers.Response)
    ensures bound.Err? ==> r == Handlers.Failure(400, "INVALID_FORM", "表单参数验证失败", ErrorText(bound.error))
    ensures bound.Ok? && file.None? ==>
              r == Handlers.Failure(400, "NO_FILE_UPLOADED", "未找到上传文件", "请在表单中上传文件 (字段名: file)")
    ensures bound.Ok? && file.Some? && file.value.size > MaxSize ==>
              r == Handlers.Failure(400, "FILE_TOO_LARGE", "文件过大", Handlers.TooLargeDetails)
    ensures bound.Ok? && file.Some? && file.value.size <= MaxSize && file.value.openError.Some? ==>
              r == Handlers.Failure(500, "FILE_READ_FAILED", "文件读取失败", ErrorText(file.value.openError.value))
    ensures bound.Ok? && file.Some? && file.value.size <= MaxSize && file.value.openError.None?
            && file.value.contents.Err? ==>
              r == Handlers.Failure(500, "FILE_READ_FAILED", "文件内容读取失败", ErrorText(file.value.contents.error))
    ensures bound.Ok? && file.Some? && file.value.size <= MaxSize && file.value.openError.None?
            && file.value.contents.Ok? ==>
              r == ConvertAndReply(file.value.contents.value, BuildConvertOptionsFromForm(bound.value, parseFormat), env)
  {
    match bound
    case Err(e) => Handlers.Failure(400, "INVALID_FORM", "表单参数验证失败", ErrorText(e))
    case Ok(params) =>
      match file
      case None => Handlers.Failure(400, "NO_FILE_UPLOADED", "未找到上传文件", "请在表单中上传文件 (字段名: file)")
      case Some(f) =>
        if f.size > MaxSize then Handlers.Failure(400, "FILE_TOO_LARGE", "文件过大", Handlers.TooLargeDetails)
        else if f.openError.Some? then
          Handlers.Failure(500, "FILE_READ_FAILED", "文件读取失败", ErrorText(f.openError.value))
        else
          match f.contents
          case Err(e) => Handlers.Failure(500, "FILE_READ_FAILED", "文件内容读取失败", ErrorText(e))
          case Ok(markdown) => ConvertAndReply(markdown, BuildConvertOptionsFromForm(params, parseFormat), env)
  }

  // ---------------------------------------------------------------------------

  /** The two hand-written builders agree field for field on every input. */
  lemma BuildersAgree(p: LegacyParams, parseFormat: string -> Renderer.ImageFormat)
    ensures BuildConvertOptions(p, parseFormat) == BuildConvertOptionsFromForm(p, parseFormat)
  {
  }

  /** The legacy and current MIME switches agree on the three canonical names, and only the legacy one takes "jpg" as JPEG. */
  lemma ContentTypesAgreeOnCanonicalNames(f: Renderer.ImageFormat)
    requires Renderer.Supported(f)
    ensures GetContentType(f) == Formats.GetContentType(f)
    ensures GetContentType("jpg") == "image/jpeg" && Formats.GetContentType("jpg") == "image/png"
  {
  }

  /** The legacy size cap is the configured one. */
  lemma SameSizeCap()
    ensures MaxSize == Settings.MaxMarkdownSize
  {
  }

  /** The legacy handler never inspects custom CSS: CSS the current handler refuses goes on to the conversion. */
  lemma HostileCSSReachesConverter(req: LegacyRequest, parseFormat: string -> Renderer.ImageFormat,
                                                      env: Handlers.Environment)
    requires Utf8Length(req.markdown) <= MaxSize
    requires !Validation.SafeCSS(req.params.customCSS) && req.params.customCSS != ""
    ensures ConvertHandler(Ok(req), parseFormat, env)
         == ConvertAndReply(req.markdown, BuildConvertOptions(req.params, parseFormat), env)
    ensures BuildConvertOptions(req.params, parseFormat).customCSS == req.params.customCSS
  {
  }
}

=== FILE: ollama.dfy ===
/** The Ollama backend (pkg/ai/ollama/client.go) with the Ollama API client as an oracle.

    The API client is created from the environment, so the configured base URL
    never reaches it. A generation streams chunks through a callback that
    appends each chunk's text and takes the token count from chunks marked done.
 */
module Ollama {
  import opened Wrappers
  import opened Strings
  import opened Errors
  import opened AITypes
  import opened AIProvider
  import opened Classifier

  /** The `*Provider` struct; the API client handle itself is not modelled. */
  datatype Client = Client(config: Config, timeoutSeconds: int)

  /** What the client hands `api.Client.Generate`: there is no URL in it. */
  datatype Call = Call(model: string, prompt: string, temperature: Option<real>, timeoutSeconds: int)

  /** One streamed `api.GenerateResponse`. */
  datatype Chunk = Chunk(response: string, done: bool, evalCount: int, promptEvalCount: int)

  /** The API's answer: the chunks delivered before it returned, or its error. */
  datatype Outcome = Streamed(chunks: seq<Chunk>) | Failed(cause: Error)

  const DefaultTimeoutSeconds := 60

  /** `newOllamaProvider`; `fromEnvironment` is the error of `api.ClientFromEnvironment`. */
  function New(cfg: Option<Config>, fromEnvironment: Option<Error>): (r: Result<Client, Error>)
    ensures ValidateConfig(cfg).Some? ==> r == Err(Wrapped("invalid config", ValidateConfig(cfg).value))
    ensures ConfigAcceptable(cfg) && fromEnvironment.Some? ==>
              r == Err(NewError(Network, "failed to create Ollama client", fromEnvironment))
    ensures r.Ok? <==> ConfigAcceptable(cfg) && fromEnvironment.None?
    ensures r.Ok? ==> r.value.config == cfg.value && r.value.timeoutSeconds > 0
    ensures r.Ok? && cfg.value.timeout == 0 ==> r.value.timeoutSeconds == DefaultTimeoutSeconds
    ensures r.Ok? && cfg.value.timeout != 0 ==> r.value.timeoutSeconds == cfg.value.timeout
  {
    var invalid := ValidateConfig(cfg);
    if invalid.Some? then Err(Wrapped("invalid config", invalid.value))
    else if fromEnvironment.Some? then Err(NewError(Network, "failed to create Ollama client", fromEnvironment))
    else
      var c := cfg.value;
      Ok(Client(c, if c.timeout == 0 then DefaultTimeoutSeconds else c.timeout))
  }

  /** The prompt sent: the system text (request's, else the config's default)
      and a blank line in front of the user prompt, or the user prompt alone. */
  function FullPrompt(cfg: Config, req: GenerateRequest): (p: string)
    ensures req.system != "" ==> p == req.system + "\n\n" + req.prompt
    ensures req.system == "" && (cfg.prompts.None? || cfg.prompts.value.defaultSystem == "") ==> p == req.prompt
    ensures req.system == "" && cfg.prompts.Some? && cfg.prompts.value.defaultSystem != "" ==>
              p == cfg.prompts.value.defaultSystem + "\n\n" + req.prompt
  {
    var sys := if req.system == "" && cfg.prompts.Some? then cfg.prompts.value.defaultSystem else req.system;
    if sys != "" then sys + "\n\n" + req.prompt else req.prompt
  }

  /** The API parameters for a request. */
  function CallFor(c: Client, req: GenerateRequest): (call: Call)
    ensures call.model == c.config.model && call.prompt == FullPrompt(c.config, req)
    ensures call.temperature.Some? <==> req.temperature > 0.0
    ensures call.temperature.Some? ==> call.temperature.value == req.temperature
    ensures call.timeoutSeconds == c.timeoutSeconds
  {
    Call(c.config.model, FullPrompt(c.config, req),
         if req.temperature > 0.0 then Some(req.temperature) else None,
         c.timeoutSeconds)
  }

  /** All chunk texts, in arrival order. */
  function Joined(chunks: seq<Chunk>): string {
    if |chunks| == 0 then "" else Joined(chunks[..|chunks| - 1]) + chunks[|chunks| - 1].response
  }

  /** The token count the callback leaves behind: that of the last chunk marked done, or zero. */
  function DoneTokens(chunks: seq<Chunk>): int {
    if |chunks| == 0 then 0
    else if chunks[|chunks| - 1].done then chunks[|chunks| - 1].evalCount + chunks[|chunks| - 1].promptEvalCount
    else DoneTokens(chunks[..|chunks| - 1])
  }

  /** The streaming callback run over every chunk, as the client's loop does it. */
  method Collect(chunks: seq<Chunk>) returns (content: string, tokens: int)
    ensures content == Joined(chunks)
    ensures tokens == DoneTokens(chunks)
  {
    content, tokens := "", 0;
    var i := 0;
    while i < |chunks|
      invariant 0 <= i <= |chunks|
      invariant content == Joined(chunks[..i])
      invariant tokens == DoneTokens(chunks[..i])
    {
      assert chunks[..i + 1][..i] == chunks[..i];
      content := content + chunks[i].response;
      if chunks[i].done {
        tokens := chunks[i].evalCount + chunks[i].promptEvalCount;
      }
      i := i + 1;
    }
    assert chunks[..i] == chunks;
  }

  /** `Generate`, with `send` standing for the streaming API call. */
  function Generate(c: Client, req: Option<GenerateRequest>, send: Call -> Outcome): (r: Result<GenerateResponse, Error>)
    ensures !RequestAcceptable(req) ==>
              r == Err(NewError(InvalidReq, "invalid request", ValidateGenerateRequest(req)))
    ensures RequestAcceptable(req) && send(CallFor(c, req.value)).Failed? ==>
              r == Err(HandleError(Some(send(CallFor(c, req.value)).cause)).value)
    ensures r.Ok? <==> RequestAcceptable(req) && send(CallFor(c, req.value)).Streamed?
    ensures r.Ok? ==> var chunks := send(CallFor(c, req.value)).chunks;
                      && r.value.content == Joined(chunks)
                      && r.value.tokensUsed == DoneTokens(chunks)
                      && r.value.finishReason == "stop"
                      && r.value.metadata == map["model" := c.config.model]
  {
    var invalid := ValidateGenerateRequest(req);
    if invalid.Some? then Err(NewError(InvalidReq, "invalid request", invalid))
    else
      match send(CallFor(c, req.value))
      case Failed(cause) => Err(HandleError(Some(cause)).value)
      case Streamed(chunks) =>
        Ok(GenerateResponse(Joined(chunks), DoneTokens(chunks), "stop", map["model" := c.config.model]))
  }

  // ---------------------------------------------------------------------------
  // Error classification

  /** The classifier table, in the order the source tests it. */
  const Rules: seq<Rule> := [
    Rule([["connection refused"], ["dial tcp"], ["no such host"]], Network, "cannot connect to Ollama service"),
    Rule([["model", "not found"]], InvalidReq, "model not found"),
    Rule([["timeout"], ["deadline exceeded"], ["context deadline"]], Timeout, "request timeout"),
    Rule([["connection"], ["network"]], Network, "network error")
  ]

  /** `handleError`: nil stays nil; anything else is classified and keeps the original. */
  function HandleError(err: Option<Error>): (r: Option<Error>)
    ensures err.None? <==> r.None?
    ensures err.Some? ==> r.value.AIError? && r.value.original == err && r.value.statusCode == 0
    ensures err.Some? ==> r.value.retryable == IsRetryableType(r.value.kind)
    ensures err.Some? ==> r.value.kind in {Network, InvalidReq, Timeout, Unknown}
  {
    if err.None? then None
    else
      var lower := ToLower(ErrorText(err.value));
      ClassFromTable(Rules, lower);
      Some(NewError(Classify(Rules, lower), Summary(Rules, lower), err))
  }

  // ---------------------------------------------------------------------------

  /** The configured base URL has no effect on what is sent. */
  lemma EndpointIgnored(c: Client, url: string, req: GenerateRequest)
    ensures CallFor(c.(config := c.config.(baseURL := url)), req) == CallFor(c, req)
  {
  }

  /** Nor does it affect construction: two configs differing only in base URL build the same client up to it. */
  lemma NewIgnoresEndpoint(cfg: Config, url: string, env: Option<Error>)
    ensures New(Some(cfg.(baseURL := url)), env).Ok? == New(Some(cfg), env).Ok?
    ensures New(Some(cfg), env).Ok? ==>
              New(Some(cfg.(baseURL := url)), env).value.timeoutSeconds == New(Some(cfg), env).value.timeoutSeconds
  {
  }

  /** The user's prompt is always the tail of what is sent. */
  lemma PromptIsSuffix(cfg: Config, req: GenerateRequest)
    ensures |req.prompt| <= |FullPrompt(cfg, req)|
    ensures FullPrompt(cfg, req)[|FullPrompt(cfg, req)| - |req.prompt|..] == req.prompt
  {
  }

  /** Concatenation distributes over splitting the stream. */
  lemma {:induction false} JoinedAppend(a: seq<Chunk>, b: seq<Chunk>)
    ensures Joined(a + b) == Joined(a) + Joined(b)
    decreases |b|
  {
    if |b| == 0 {
      assert a + b == a;
    } else {
      var b' := b[..|b| - 1];
      assert (a + b)[..|a + b| - 1] == a + b';
      JoinedAppend(a, b');
    }
  }

  /** A later done chunk overrides every earlier token count. */
  lemma {:induction false} LastDoneWins(a: seq<Chunk>, d: Chunk, b: seq<Chunk>)
    requires d.done
    requires forall k :: 0 <= k < |b| ==> !b[k].done
    ensures DoneTokens(a + [d] + b) == d.evalCount + d.promptEvalCount
    decreases |b|
  {
    if |b| == 0 {
      assert a + [d] + b == a + [d];
    } else {
      var b' := b[..|b| - 1];
      assert (a + [d] + b)[..|a + [d] + b| - 1] == a + [d] + b';
      LastDoneWins(a, d, b');
    }
  }

  /** The classes this backend can produce: never `Auth`, `RateLimit` or `ServerError`. */
  lemma OllamaClasses(err: Error)
    ensures HandleError(Some(err)).value.kind in {Network, InvalidReq, Timeout, Unknown}
    ensures !HandleError(Some(err)).value.retryable <==> HandleError(Some(err)).value.kind in {InvalidReq, Unknown}
  {
  }

  /** A refused connection is reported as the service being unreachable, ahead of any other phrase. */
  lemma {:induction false} RefusedIsUnreachable(err: Error)
    requires Contains(ToLower(ErrorText(err)), "connection refused")
    ensures HandleError(Some(err)).value.kind == Network
    ensures HandleError(Some(err)).value.message == "cannot connect to Ollama service"
    ensures HandleError(Some(err)).value.retryable
  {
    var t := ToLower(ErrorText(err));
    PhraseFires(Rules[0], t, 0);
    FirstMatchDecides(Rules, t, 0);
  }

  /** "model ... not found" needs both words; either alone does not make it `InvalidReq`. */
  lemma {:induction false} ModelNotFoundNeedsBoth(err: Error)
    ensures var t := ToLower(ErrorText(err));
            HandleError(Some(err)).value.kind == InvalidReq <==>
              !Fires(Rules[0], t) && Contains(t, "model") && Contains(t, "not found")
  {
    var t := ToLower(ErrorText(err));
    var i := FirstFiring(Rules, t);
    if i < |Rules| {
      FirstMatchDecides(Rules, t, i);
    } else {
      NoRuleFiresIsUnknown(Rules, t);
    }
    var both := ["model", "not found"];
    assert Rules[1].alternatives == [both];
    assert AllPhrases(t, both) <==> Contains(t, both[0]) && Contains(t, both[1]);
    if Contains(t, "model") && Contains(t, "not found") {
      assert AllPhrases(t, Rules[1].alternatives[0]);
    }
    if Fires(Rules[1], t) {
      assert AllPhrases(t, Rules[1].alternatives[0]);
    }
  }
}

=== FILE: parsers.dfy ===
/** Parser-strategy selection with AI fallback (pkg/parser/provider.go), over the
    goldmark parser of pkg/parser/parser.go.

    goldmark, the prompt table's template engine and the two AI backends' SDK
    calls are oracles gathered in `Services`. The prompt table is the one in
    force when a parse runs.
 */
module Parsers {
  import opened Wrappers
  import opened Errors
  import opened AITypes
  import opened AIProvider
  import opened Prompts
  import Factory
  import Gemini
  import Ollama

  /** goldmark's `Convert` (GFM, typographer, highlighting, unsafe HTML): the HTML it writes, or its error. */
  type Goldmark = string -> Result<string, Error>

  /** Everything a parse consults outside the model. */
  datatype Services = Services(
    goldmark: Goldmark,
    prompts: PromptTable,
    engine: TemplateEngine,
    geminiSend: Gemini.Call -> Gemini.Outcome,
    ollamaSend: Ollama.Call -> Ollama.Outcome)

  /** Template data; `None` is a nil Go map. */
  type PromptData = Option<map<string, string>>

  /** `ProviderConfig`; `aiConfig` is the `*ai.Config` pointer. */
  datatype ProviderConfig = ProviderConfig(
    kind: string,
    aiConfig: Option<Config>,
    promptTemplate: string,
    promptData: PromptData,
    customPrompt: string)

  const ProviderTypeTraditional := "traditional"
  const ProviderTypeAI := "ai"

  /** The two `ParserProvider` implementations. The AI provider's fallback provider is always goldmark, so it is not stored. */
  datatype ParserProvider =
    | GoldmarkProvider
    | AIParserProvider(ai: Factory.Provider, promptTemplate: string, promptData: PromptData, customPrompt: string)

  /** The two `Parser` implementations; `hasFallback` says whether the fallback parser is non-nil. */
  datatype Parser =
    | GoldmarkParser
    | AIParser(ai: Factory.Provider, promptTemplate: string, promptData: PromptData, customPrompt: string,
               hasFallback: bool, enableFallback: bool)

  /** `GoldmarkParser.Parse`: goldmark's output, or its error wrapped. */
  function GoldmarkParse(g: Goldmark, markdown: string): (r: Result<string, Error>)
    ensures r.Ok? <==> g(markdown).Ok?
    ensures r.Ok? ==> r.value == g(markdown).value
    ensures r.Err? ==> r.error == Wrapped("failed to parse markdown", g(markdown).error)
  {
    match g(markdown)
    case Ok(html) => Ok(html)
    case Err(e) => Err(Wrapped("failed to parse markdown", e))
  }

  /** `NewAIParserProvider`: the AI backend comes from the factory; its failure is final. */
  function NewAIParserProvider(aiConfig: Option<Config>, promptTemplate: string, promptData: PromptData,
                               customPrompt: string, b: Factory.Backends): (r: Result<ParserProvider, Error>)
    ensures Factory.NewProvider(aiConfig, b).Err? ==>
              r == Err(Wrapped("failed to create AI provider", Factory.NewProvider(aiConfig, b).error))
    ensures Factory.NewProvider(aiConfig, b).Ok? ==>
              r == Ok(AIParserProvider(Factory.NewProvider(aiConfig, b).value, promptTemplate, promptData, customPrompt))
  {
    match Factory.NewProvider(aiConfig, b)
    case Err(e) => Err(Wrapped("failed to create AI provider", e))
    case Ok(p) => Ok(AIParserProvider(p, promptTemplate, promptData, customPrompt))
  }

  /** `NewProvider`: nil and "traditional" give goldmark, "ai" needs an AI config, any other type is refused. */
  function NewProvider(cfg: Option<ProviderConfig>, b: Factory.Backends): (r: Result<ParserProvider, Error>)
    ensures cfg.None? || cfg.value.kind == ProviderTypeTraditional ==> r == Ok(GoldmarkProvider)
    ensures cfg.Some? && cfg.value.kind == ProviderTypeAI && cfg.value.aiConfig.None? ==>
              r == Err(Message("AI config is required for AI provider"))
    ensures cfg.Some? && cfg.value.kind == ProviderTypeAI && cfg.value.aiConfig.Some? ==>
              r == NewAIParserProvider(cfg.value.aiConfig, cfg.value.promptTemplate, cfg.value.promptData,
                                       cfg.value.customPrompt, b)
    ensures cfg.Some? && cfg.value.kind != ProviderTypeTraditional && cfg.value.kind != ProviderTypeAI ==>
              r == Err(Message("unsupported provider type: " + cfg.value.kind))
    ensures r.Ok? && r.value.AIParserProvider? ==>
              cfg.Some? && cfg.value.kind == ProviderTypeAI && ConfigAcceptable(cfg.value.aiConfig)
              && r.value.promptTemplate == cfg.value.promptTemplate && r.value.promptData == cfg.value.promptData
              && r.value.customPrompt == cfg.value.customPrompt
  {
    if cfg.None? then Ok(GoldmarkProvider)
    else
      var c := cfg.value;
      if c.kind == ProviderTypeTraditional then Ok(GoldmarkProvider)
      else if c.kind == ProviderTypeAI then
        if c.aiConfig.None? then Err(Message("AI config is required for AI provider"))
        else
          var r := NewAIParserProvider(c.aiConfig, c.promptTemplate, c.promptData, c.customPrompt, b);
          if r.Ok? then Factory.ProviderFromValidConfig(c.aiConfig, b); r else r
      else Err(Message("unsupported provider type: " + c.kind))
  }

  /** `CreateParser`: never fails; an AI parser always has goldmark as an enabled fallback. */
  function CreateParser(pp: ParserProvider): (r: Result<Parser, Error>)
    ensures r.Ok?
    ensures pp.GoldmarkProvider? <==> r.value.GoldmarkParser?
    ensures pp.AIParserProvider? ==>
              r.value == AIParser(pp.ai, pp.promptTemplate, pp.promptData, pp.customPrompt, true, true)
  {
    match pp
    case GoldmarkProvider => Ok(GoldmarkParser)
    case AIParserProvider(ai, t, d, c) => Ok(AIParser(ai, t, d, c, true, true))
  }

  /** `Name`: "goldmark", or "ai-" and the backend's name. */
  function ProviderName(pp: ParserProvider): (n: string)
    ensures pp.GoldmarkProvider? ==> n == "goldmark"
    ensures pp.AIParserProvider? ==> n == "ai-" + Factory.Name(pp.ai)
  {
    match pp
    case GoldmarkProvider => "goldmark"
    case AIParserProvider(ai, _, _, _) => "ai-" + Factory.Name(ai)
  }

  /** `AIParserProvider.Close`: closes the AI backend. */
  function CloseProvider(pp: ParserProvider, geminiClose: Option<Error>): (r: Option<Error>)
    requires pp.AIParserProvider?
    ensures pp.ai.OllamaProvider? ==> r.None?
    ensures pp.ai.GeminiProvider? ==> r == geminiClose
  {
    Factory.Close(pp.ai, geminiClose)
  }

  // ---------------------------------------------------------------------------
  // The AI route

  /** The template data: the caller's map (an empty one for nil) with "Content" set to the Markdown. */
  function TemplateData(data: PromptData, markdown: string): (d: map<string, string>)
    ensures "Content" in d && d["Content"] == markdown
    ensures d.Keys == (if data.Some? then data.value.Keys else {}) + {"Content"}
    ensures data.Some? ==> forall k :: k in data.value && k != "Content" ==> d[k] == data.value[k]
  {
    data.GetOr(map[])["Content" := markdown]
  }

  /** The prompt: a custom prompt with the Markdown after a blank line, else the
      named template, else the "enhance" template, each rendered on the Markdown. */
  function PromptFor(customPrompt: string, promptTemplate: string, data: PromptData, markdown: string, s: Services)
    : (r: Result<string, Error>)
    ensures customPrompt != "" ==> r == Ok(customPrompt + "\n\n" + markdown)
    ensures customPrompt == "" && promptTemplate != "" ==>
              match RenderPrompt(s.prompts, s.engine, promptTemplate, TemplateData(data, markdown))
              case Ok(p) => r == Ok(p)
              case Err(e) => r == Err(Wrapped("failed to render prompt", e))
    ensures customPrompt == "" && promptTemplate == "" ==>
              match RenderPrompt(s.prompts, s.engine, "enhance", map["Content" := markdown])
              case Ok(p) => r == Ok(p)
              case Err(e) => r == Err(Wrapped("failed to render default prompt", e))
  {
    if customPrompt != "" then Ok(customPrompt + "\n\n" + markdown)
    else if promptTemplate != "" then
      match RenderPrompt(s.prompts, s.engine, promptTemplate, TemplateData(data, markdown))
      case Ok(p) => Ok(p)
      case Err(e) => Err(Wrapped("failed to render prompt", e))
    else
      match RenderPrompt(s.prompts, s.engine, "enhance", map["Content" := markdown])
      case Ok(p) => Ok(p)
      case Err(e) => Err(Wrapped("failed to render default prompt", e))
  }

  /** The generation request every AI parse sends: no system text, 8192 tokens, temperature 0.7. */
  function EnhanceRequest(prompt: string): (q: GenerateRequest)
    ensures q.prompt == prompt && q.system == "" && q.maxTokens == 8192 && q.temperature == 0.7
    ensures RequestAcceptable(Some(q)) <==> prompt != ""
  {
    GenerateRequest(prompt, "", 8192, 0.7, map[])
  }

  /** `enhanceWithAI`: build the prompt, ask the backend, return its content. */
  function EnhanceWithAI(ai: Factory.Provider, customPrompt: string, promptTemplate: string, data: PromptData,
                         markdown: string, s: Services): (r: Result<string, Error>)
    ensures PromptFor(customPrompt, promptTemplate, data, markdown, s).Err? ==>
              r == Err(PromptFor(customPrompt, promptTemplate, data, markdown, s).error)
    ensures r.Ok? <==>
              && PromptFor(customPrompt, promptTemplate, data, markdown, s).Ok?
              && Factory.Generate(ai, Some(EnhanceRequest(PromptFor(customPrompt, promptTemplate, data, markdown, s).value)),
                                  s.geminiSend, s.ollamaSend).Ok?
    ensures r.Ok? ==>
              r.value == Factory.Generate(ai, Some(EnhanceRequest(PromptFor(customPrompt, promptTemplate, data, markdown, s).value)),
                                          s.geminiSend, s.ollamaSend).value.content
  {
    match PromptFor(customPrompt, promptTemplate, data, markdown, s)
    case Err(e) => Err(e)
    case Ok(prompt) =>
      match Factory.Generate(ai, Some(EnhanceRequest(prompt)), s.geminiSend, s.ollamaSend)
      case Err(e) => Err(e)
      case Ok(resp) => Ok(resp.content)
  }

  /** `Parse` for either parser. An AI parser whose enhancement fails parses the
      original Markdown when its fallback is enabled and present, and fails otherwise. */
  function Parse(p: Parser, markdown: string, s: Services): (r: Result<string, Error>)
    ensures p.GoldmarkParser? ==> r == GoldmarkParse(s.goldmark, markdown)
    ensures p.AIParser? ==>
              match EnhanceWithAI(p.ai, p.customPrompt, p.promptTemplate, p.promptData, markdown, s)
              case Ok(enhanced) => r == GoldmarkParse(s.goldmark, enhanced)
              case Err(e) =>
                r == (if p.enableFallback && p.hasFallback then GoldmarkParse(s.goldmark, markdown)
                      else Err(Wrapped("AI enhancement failed", e)))
  {
    match p
    case GoldmarkParser => GoldmarkParse(s.goldmark, markdown)
    case AIParser(ai, t, d, c, hasFallback, enableFallback) =>
      match EnhanceWithAI(ai, c, t, d, markdown, s)
      case Ok(enhanced) => GoldmarkParse(s.goldmark, enhanced)
      case Err(e) =>
        if enableFallback && hasFallback then GoldmarkParse(s.goldmark, markdown)
        else Err(Wrapped("AI enhancement failed", e))
  }

  // ---------------------------------------------------------------------------

  /** The fallback invariant: whenever the AI step fails, for any reason, a parser
      made by an AI provider returns exactly what goldmark makes of the original. */
  lemma FallbackOnAIFailure(pp: ParserProvider, markdown: string, s: Services)
    requires pp.AIParserProvider?
    requires EnhanceWithAI(pp.ai, pp.customPrompt, pp.promptTemplate, pp.promptData, markdown, s).Err?
    ensures Parse(CreateParser(pp).value, markdown, s) == GoldmarkParse(s.goldmark, markdown)
  {
  }

  /** When the AI step succeeds, goldmark parses the AI's text, not the original. */
  lemma AISuccessParsesEnhanced(pp: ParserProvider, markdown: string, s: Services)
    requires pp.AIParserProvider?
    requires EnhanceWithAI(pp.ai, pp.customPrompt, pp.promptTemplate, pp.promptData, markdown, s).Ok?
    ensures Parse(CreateParser(pp).value, markdown, s)
         == GoldmarkParse(s.goldmark, EnhanceWithAI(pp.ai, pp.customPrompt, pp.promptTemplate, pp.promptData, markdown, s).value)
  {
  }

  /** An unknown template name is not an error of the parse: the AI is never asked
      and the original Markdown is parsed as if the AI route had not been chosen. */
  lemma {:induction false} UnknownTemplateFallsBack(pp: ParserProvider, markdown: string, s: Services)
    requires pp.AIParserProvider? && pp.customPrompt == "" && pp.promptTemplate != ""
    requires pp.promptTemplate !in s.prompts
    ensures PromptFor(pp.customPrompt, pp.promptTemplate, pp.promptData, markdown, s)
         == Err(Wrapped("failed to render prompt", Message("template not found: " + pp.promptTemplate)))
    ensures Parse(CreateParser(pp).value, markdown, s) == GoldmarkParse(s.goldmark, markdown)
  {
    var d := TemplateData(pp.promptData, markdown);
    assert RenderPrompt(s.prompts, s.engine, pp.promptTemplate, d) == Err(Message("template not found: " + pp.promptTemplate));
    FallbackOnAIFailure(pp, markdown, s);
  }

  /** A request-validation failure (an empty rendered prompt) also ends in the fallback. */
  lemma {:induction false} EmptyPromptFallsBack(pp: ParserProvider, markdown: string, s: Services)
    requires pp.AIParserProvider?
    requires PromptFor(pp.customPrompt, pp.promptTemplate, pp.promptData, markdown, s) == Ok("")
    ensures Parse(CreateParser(pp).value, markdown, s) == GoldmarkParse(s.goldmark, markdown)
  {
    var q := EnhanceRequest("");
    assert !RequestAcceptable(Some(q));
    assert Factory.Generate(pp.ai, Some(q), s.geminiSend, s.ollamaSend).Err?;
    FallbackOnAIFailure(pp, markdown, s);
  }

  /** A custom prompt always reaches the backend: the prompt is never empty, so the request is valid. */
  lemma CustomPromptAlwaysSent(customPrompt: string, promptTemplate: string, data: PromptData, markdown: string, s: Services)
    requires customPrompt != ""
    ensures RequestAcceptable(Some(EnhanceRequest(PromptFor(customPrompt, promptTemplate, data, markdown, s).value)))
  {
  }

  /** A parser provider named by the AI route reports "ai-" and the backend's configured tag. */
  lemma {:induction false} AIProviderName(cfg: ProviderConfig, b: Factory.Backends)
    requires NewProvider(Some(cfg), b).Ok? && NewProvider(Some(cfg), b).value.AIParserProvider?
    ensures ProviderName(NewProvider(Some(cfg), b).value) == "ai-" + cfg.aiConfig.value.provider
  {
    Factory.ProviderFromValidConfig(cfg.aiConfig, b);
  }
}

=== FILE: prompts.dfy ===
/** The prompt table and its lookup (pkg/ai/prompts.go).

    `DefaultPrompts` is a process-wide mutable map in the source; here it is a
    value of type `PromptTable` that `SetPromptTemplate` returns updated.
    `text/template` is an oracle: the model keeps which template text is looked
    up, and which failure is reported with which message.
 */
module Prompts {
  import opened Wrappers
  import opened Strings
  import opened Errors

  /** Template name to template text. */
  type PromptTable = map<string, string>

  /** The placeholder every Markdown-rewriting template ends with. */
  const ContentSlot := "{{.Content}}"
  /** The placeholder the code-explaining template puts inside its fenced block. */
  const CodeSlot := "{{.Code}}"
  const LanguageFence := "```{{.Language}}"

  const EnhanceInstructions := JoinLines([
    "你是一个专业的文档优化助手。" + "请润色以下 Markdown 内容,使其更清晰、流畅和专业。",
    "",
    "要求:",
    "1. 优化语言表达,使文档更易读",
    "2. 保持技术准确性,不改变原意",
    "3. 保留所有代码块内容(不修改代码)",
    "4. 保留 Markdown 格式结构(标题、列表、表格等)",
    "5. 修正明显的语法和拼写错误",
    "6. 直接返回优化后的 Markdown,不要添加任何说明文字",
    "",
    "原始内容:",
    ""])

  const TranslateInstructions := JoinLines([
    "你是一个专业的技术文档翻译助手。" + "请将以下 Markdown 文档翻译成{{.TargetLang}}。",
    "",
    "要求:",
    "1. 保持 Markdown 格式完整(标题、列表、代码块、表格等)",
    "2. 代码块内的代码不翻译",
    "3. 专业术语使用准确的{{.TargetLang}}表达",
    "4. 保持文档的技术准确性",
    "5. 翻译要自然流畅,符合{{.TargetLang}}表达习惯",
    "6. 直接返回翻译后的 Markdown,不要添加任何说明文字",
    "",
    "原始内容:",
    ""])

  const ExplainCodeInstructions := JoinLines([
    "你是一个代码分析专家。" + "请解释以下{{.Language}}代码的功能和实现逻辑。",
    "",
    "要求:",
    "1. 用中文简洁清晰地解释代码的主要功能",
    "2. 指出关键技术点和算法思路",
    "3. 如有复杂逻辑,请分步骤说明",
    "4. 指出潜在的优化点(如有)",
    "",
    "代码:",
    ""])

  const FormatInstructions := JoinLines([
    "你是一个 Markdown 格式化专家。" + "请优化以下 Markdown 文档的格式。",
    "",
    "要求:",
    "1. 统一标题层级(确保逻辑结构清晰)",
    "2. 规范化列表格式(缩进、符号一致)",
    "3. 美化表格对齐",
    "4. 优化代码块语言标记",
    "5. 调整段落间距,提高可读性",
    "6. 直接返回格式化后的 Markdown,不要添加任何说明文字",
    "",
    "原始内容:",
    ""])

  const SummarizeInstructions := JoinLines([
    "你是一个技术文档总结专家。" + "请为以下 Markdown 文档生成简洁的摘要。",
    "",
    "要求:",
    "1. 提取文档的核心内容和关键信息",
    "2. 总结控制在 3-5 个要点",
    "3. 使用 Markdown 列表格式",
    "4. 保持技术准确性",
    "5. 语言简洁专业",
    "",
    "原始内容:",
    ""])

  /** The built-in table: four Markdown rewrites that end with the content, and a
      code explanation whose code sits in a fenced block tagged with the language. */
  const DefaultPrompts: PromptTable := map[
    "enhance" := EnhanceInstructions + ContentSlot,
    "translate" := TranslateInstructions + ContentSlot,
    "explain_code" := ExplainCodeInstructions + LanguageFence + "\n" + CodeSlot + "\n" + "```",
    "format" := FormatInstructions + ContentSlot,
    "summarize" := SummarizeInstructions + ContentSlot
  ]

  /** `text/template` as an oracle: the parse outcome of a named template text,
      and the output (or error) of executing it with the given data. Every caller
      of the source passes string-valued data, so data maps names to strings. */
  datatype TemplateEngine = TemplateEngine(
    parse: (string, string) -> Option<Error>,
    execute: (string, string, map<string, string>) -> Result<string, Error>)

  /** `RenderPrompt`: look the name up, parse the text, execute it on the data. */
  function RenderPrompt(table: PromptTable, engine: TemplateEngine, name: string, data: map<string, string>)
    : (r: Result<string, Error>)
    ensures name !in table ==> r == Err(Message("template not found: " + name))
    ensures name in table && engine.parse(name, table[name]).Some? ==>
              r == Err(Wrapped("failed to parse template", engine.parse(name, table[name]).value))
    ensures name in table && engine.parse(name, table[name]).None? && engine.execute(name, table[name], data).Err? ==>
              r == Err(Wrapped("failed to render template", engine.execute(name, table[name], data).error))
    ensures r.Ok? <==> name in table && engine.parse(name, table[name]).None? && engine.execute(name, table[name], data).Ok?
    ensures r.Ok? ==> r.value == engine.execute(name, table[name], data).value
  {
    if name !in table then Err(Message("template not found: " + name))
    else
      var text := table[name];
      var parseErr := engine.parse(name, text);
      if parseErr.Some? then Err(Wrapped("failed to parse template", parseErr.value))
      else
        match engine.execute(name, text, data)
        case Err(e) => Err(Wrapped("failed to render template", e))
        case Ok(out) => Ok(out)
  }

  /** `GetPromptTemplate`: the text and whether the name is present (Go's comma-ok lookup, "" when absent). */
  function GetPromptTemplate(table: PromptTable, name: string): (r: (string, bool))
    ensures r.1 <==> name in table
    ensures r.1 ==> r.0 == table[name]
    ensures !r.1 ==> r.0 == ""
  {
    if name in table then (table[name], true) else ("", false)
  }

  /** `SetPromptTemplate`: adds or replaces one entry. */
  function SetPromptTemplate(table: PromptTable, name: string, text: string): (r: PromptTable)
    ensures r.Keys == table.Keys + {name}
    ensures r[name] == text
    ensures forall other :: other in table && other != name ==> r[other] == table[other]
  {
    table[name := text]
  }

  /** `ListPromptTemplates`: every name of the table exactly once, in map iteration order
      (which Go leaves unspecified, so any order is allowed here). */
  method ListPromptTemplates(table: PromptTable) returns (names: seq<string>)
    ensures forall n :: n in names <==> n in table
    ensures forall i, j :: 0 <= i < j < |names| ==> names[i] != names[j]
    ensures |names| == |table.Keys|
  {
    names := [];
    var rest := table.Keys;
    while rest != {}
      invariant rest <= table.Keys
      invariant forall n :: n in names <==> n in table && n !in rest
      invariant forall i, j :: 0 <= i < j < |names| ==> names[i] != names[j]
      invariant |names| + |rest| == |table.Keys|
      decreases |rest|
    {
      var n :| n in rest;
      names := names + [n];
      rest := rest - {n};
    }
  }

  // ---------------------------------------------------------------------------

  /** The built-in table names exactly five templates. */
  lemma DefaultTableNames()
    ensures DefaultPrompts.Keys == {"enhance", "translate", "explain_code", "format", "summarize"}
  {
  }

  /** The four Markdown templates end with the content placeholder; the code template holds the code one. */
  lemma {:induction false} DefaultTemplateSlots()
    ensures forall name :: name in {"enhance", "translate", "format", "summarize"} ==>
              HasSuffix(GetPromptTemplate(DefaultPrompts, name).0, ContentSlot)
    ensures Contains(GetPromptTemplate(DefaultPrompts, "explain_code").0, CodeSlot)
  {
    SuffixHere(EnhanceInstructions, ContentSlot);
    SuffixHere(TranslateInstructions, ContentSlot);
    SuffixHere(FormatInstructions, ContentSlot);
    SuffixHere(SummarizeInstructions, ContentSlot);
    ContainsInfix(ExplainCodeInstructions + LanguageFence + "\n", CodeSlot, "\n" + "```");
    assert ExplainCodeInstructions + LanguageFence + "\n" + CodeSlot + "\n" + "```"
        == ExplainCodeInstructions + LanguageFence + "\n" + CodeSlot + ("\n" + "```");
  }

  /** Get after set: the new text is found under its name, and every other lookup is as before. */
  lemma GetAfterSet(table: PromptTable, name: string, text: string, other: string)
    ensures GetPromptTemplate(SetPromptTemplate(table, name, text), name) == (text, true)
    ensures other != name ==>
              GetPromptTemplate(SetPromptTemplate(table, name, text), other) == GetPromptTemplate(table, other)
  {
  }

  /** Rendering a name depends on that name's text only: what else the table holds makes no difference. */
  lemma RenderSeesOnlyItsEntry(table: PromptTable, engine: TemplateEngine, name: string, text: string,
                               data: map<string, string>)
    ensures RenderPrompt(SetPromptTemplate(table, name, text), engine, name, data)
         == RenderPrompt(map[name := text], engine, name, data)
  {
  }

  /** A name the table lacks is never handed to the template engine, whatever the data. */
  lemma UnknownNameNotFound(engine: TemplateEngine, data: map<string, string>)
    ensures RenderPrompt(DefaultPrompts, engine, "Enhance", data) == Err(Message("template not found: " + "Enhance"))
  {
    DefaultTableNames();
    assert "Enhance"[0] != "enhance"[0];
    assert "Enhance" !in DefaultPrompts;
  }
}

=== FILE: renderer.dfy ===
/** The headless-browser renderer (pkg/renderer/renderer.go).

    The browser is an oracle: each page call it makes is a field of `Page`
    holding that call's outcome. What the model keeps is the order of the
    calls, which failures abort and with what message, which one is ignored,
    and the screenshot parameters chosen from the options.
 */
module Renderer {
  import opened Wrappers
  import opened Errors

  /** `ImageFormat` is a Go string type: any string can reach the renderer. */
  type ImageFormat = string

  const FormatPNG: ImageFormat := "png"
  const FormatJPEG: ImageFormat := "jpeg"
  const FormatWebP: ImageFormat := "webp"

  predicate Supported(f: ImageFormat) {
    f == FormatPNG || f == FormatJPEG || f == FormatWebP
  }

  datatype RenderOptions = RenderOptions(
    width: int,
    height: int,
    format: ImageFormat,
    quality: int,
    fullPage: bool,
    devicePixelRatio: real)

  /** `DefaultRenderOptions`: 1200 wide, automatic height, full-page PNG at quality 90. */
  function DefaultRenderOptions(): (o: RenderOptions)
    ensures o.width == 1200 && o.height == 0 && o.format == FormatPNG
    ensures o.quality == 90 && o.fullPage && o.devicePixelRatio == 1.0
  {
    RenderOptions(1200, 0, FormatPNG, 90, true, 1.0)
  }

  type Image = seq<bv8>

  datatype Viewport = Viewport(width: int, height: int, deviceScaleFactor: real, mobile: bool)
  datatype CaptureFormat = Png | Jpeg | Webp
  datatype ScreenshotParams = ScreenshotParams(format: CaptureFormat, quality: Option<int>, fromSurface: bool)

  /** One browser page: the outcome of every call `RenderToImage` makes on it. */
  datatype Page = Page(
    setViewport: Viewport -> Option<Error>,
    setContent: string -> Option<Error>,
    waitLoad: Option<Error>,
    waitIdle: Option<Error>,
    screenshot: (bool, ScreenshotParams) -> Result<Image, Error>)

  /** A connected browser: opening a page either fails or yields a page. */
  datatype Browser = Browser(newPage: Result<Page, Error>)

  /** `NewRodRenderer`: a panic while connecting (its value given as text) becomes an error. */
  function NewRodRenderer(connect: Result<Browser, string>): (r: Result<Browser, Error>)
    ensures r.Ok? <==> connect.Ok?
    ensures r.Ok? ==> r.value == connect.value
    ensures r.Err? ==> r.error == Message("failed to connect to browser: " + connect.error)
  {
    match connect
    case Ok(b) => Ok(b)
    case Err(panicValue) => Err(Message("failed to connect to browser: " + panicValue))
  }

  /** The device metrics set on the page: never a mobile viewport. */
  function ViewportFor(o: RenderOptions): (v: Viewport)
    ensures v.width == o.width && v.height == o.height && v.deviceScaleFactor == o.devicePixelRatio
    ensures !v.mobile
  {
    Viewport(o.width, o.height, o.devicePixelRatio, false)
  }

  /** The screenshot parameters for a format: a quality only for the lossy formats, none for an unknown format. */
  function ScreenshotParamsFor(o: RenderOptions): (p: Option<ScreenshotParams>)
    ensures p.Some? <==> Supported(o.format)
    ensures p.Some? ==> p.value.fromSurface
    ensures p.Some? ==> (p.value.quality.Some? <==> o.format != FormatPNG)
    ensures p.Some? && p.value.quality.Some? ==> p.value.quality.value == o.quality
    ensures o.format == FormatPNG ==> p == Some(ScreenshotParams(Png, None, true))
  {
    if o.format == FormatPNG then Some(ScreenshotParams(Png, None, true))
    else if o.format == FormatJPEG then Some(ScreenshotParams(Jpeg, Some(o.quality), true))
    else if o.format == FormatWebP then Some(ScreenshotParams(Webp, Some(o.quality), true))
    else None
  }

  /** `RenderToImage`. */
  function RenderToImage(b: Browser, html: string, opts: Option<RenderOptions>): (r: Result<Image, Error>)
    ensures b.newPage.Err? ==> r == Err(Wrapped("failed to create page", b.newPage.error))
    ensures var o := opts.GetOr(DefaultRenderOptions());
            b.newPage.Ok? && b.newPage.value.setViewport(ViewportFor(o)).Some? ==>
              r == Err(Wrapped("failed to set viewport", b.newPage.value.setViewport(ViewportFor(o)).value))
    ensures var o := opts.GetOr(DefaultRenderOptions());
            b.newPage.Ok? && b.newPage.value.setViewport(ViewportFor(o)).None? && b.newPage.value.setContent(html).Some? ==>
              r == Err(Wrapped("failed to set document content", b.newPage.value.setContent(html).value))
    ensures var o := opts.GetOr(DefaultRenderOptions());
            b.newPage.Ok? && b.newPage.value.setViewport(ViewportFor(o)).None? && b.newPage.value.setContent(html).None?
            && b.newPage.value.waitLoad.Some? ==>
              r == Err(Wrapped("failed to wait for page load", b.newPage.value.waitLoad.value))
    ensures var o := opts.GetOr(DefaultRenderOptions());
            b.newPage.Ok? && b.newPage.value.setViewport(ViewportFor(o)).None? && b.newPage.value.setContent(html).None?
            && b.newPage.value.waitLoad.None? && Supported(o.format) ==>
              r == b.newPage.value.screenshot(o.fullPage, ScreenshotParamsFor(o).value)
    ensures r.Ok? ==>
              var o := opts.GetOr(DefaultRenderOptions());
              var page := b.newPage.value;
              && b.newPage.Ok?
              && page.setViewport(ViewportFor(o)).None?
              && page.setContent(html).None?
              && page.waitLoad.None?
              && Supported(o.format)
              && r == page.screenshot(o.fullPage, ScreenshotParamsFor(o).value)
  {
    var o := opts.GetOr(DefaultRenderOptions());
    match b.newPage
    case Err(e) => Err(Wrapped("failed to create page", e))
    case Ok(page) =>
      var vErr := page.setViewport(ViewportFor(o));
      if vErr.Some? then Err(Wrapped("failed to set viewport", vErr.value))
      else
        var cErr := page.setContent(html);
        if cErr.Some? then Err(Wrapped("failed to set document content", cErr.value))
        else if page.waitLoad.Some? then Err(Wrapped("failed to wait for page load", page.waitLoad.value))
        else
          // The idle wait's outcome is deliberately not consulted.
          var params := ScreenshotParamsFor(o);
          if params.None? then Err(Message("unsupported image format: " + o.format))
          else page.screenshot(o.fullPage, params.value)
  }

  // ---------------------------------------------------------------------------

  /** Whether the page ever went idle makes no difference to the result. */
  lemma IdleIgnored(b: Browser, html: string, opts: Option<RenderOptions>, idle: Option<Error>)
    requires b.newPage.Ok?
    ensures RenderToImage(Browser(Ok(b.newPage.value.(waitIdle := idle))), html, opts)
         == RenderToImage(b, html, opts)
  {
  }

  /** Nil options render exactly as the defaults do. */
  lemma NilOptionsAreDefaults(b: Browser, html: string)
    ensures RenderToImage(b, html, None) == RenderToImage(b, html, Some(DefaultRenderOptions()))
  {
  }

  /** An unsupported format is only noticed after the page has loaded, and then no screenshot is taken. */
  lemma UnsupportedFormatRejected(b: Browser, html: string, o: RenderOptions)
    requires !Supported(o.format)
    requires b.newPage.Ok?
    requires b.newPage.value.setViewport(ViewportFor(o)).None?
    requires b.newPage.value.setContent(html).None? && b.newPage.value.waitLoad.None?
    ensures RenderToImage(b, html, Some(o)) == Err(Message("unsupported image format: " + o.format))
  {
  }

  /** A page-level failure is reported even when the format is unsupported. */
  lemma PageFailureBeforeFormat(b: Browser, html: string, o: RenderOptions)
    requires b.newPage.Err?
    ensures RenderToImage(b, html, Some(o)) == Err(Wrapped("failed to create page", b.newPage.error))
  {
  }

  /** PNG is captured without a quality, whatever quality the options carry. */
  lemma PngIgnoresQuality(b: Browser, html: string, o: RenderOptions, q: int)
    requires o.format == FormatPNG
    ensures RenderToImage(b, html, Some(o.(quality := q))) == RenderToImage(b, html, Some(o))
  {
  }
}

=== FILE: settings.dfy ===
/** The service's configuration constants (internal/config): size caps,
    parameter ranges, presentation defaults and the AI defaults. */
module Settings {
  import Renderer

  // Size caps, in bytes.
  const MaxMarkdownSize := 10 * 1024 * 1024
  const MaxFileUploadSize := 10 * 1024 * 1024
  const MaxMultipartMemory := 10 * 1024 * 1024

  // Accepted parameter ranges (inclusive).
  const MinWidth := 200
  const MaxWidth := 4000
  const MinFontSize := 8
  const MaxFontSize := 72
  const MinQuality := 1
  const MaxQuality := 100
  const MinDevicePixelRatio: real := 0.5
  const MaxDevicePixelRatio: real := 4.0

  // Presentation defaults.
  const DefaultTitle := "Markdown to Image"
  const DefaultTheme := "light"
  const DefaultWidth := 1200
  const DefaultFontSize := 16
  const DefaultFontFamily := "Arial, sans-serif"
  const DefaultQuality := 90
  const DefaultDevicePixelRatio: real := 1.0

  /** `DefaultImageFormat`. */
  function DefaultImageFormat(): (f: Renderer.ImageFormat)
    ensures Renderer.Supported(f)
  {
    Renderer.FormatPNG
  }

  // AI defaults.
  const DefaultAIProvider := "gemini"
  const DefaultAIModel := "gemini-2.0-flash-exp"
  const DefaultOllamaEndpoint := "http://localhost:11434"
  const DefaultAIPromptTemplate := "enhance"
  const DefaultAITimeout := 60
  const MaxAIPromptLength := 10000

  /** Every presentation default lies inside its accepted range. */
  lemma DefaultsInRange()
    ensures MinWidth <= DefaultWidth <= MaxWidth
    ensures MinFontSize <= DefaultFontSize <= MaxFontSize
    ensures MinQuality <= DefaultQuality <= MaxQuality
    ensures MinDevicePixelRatio <= DefaultDevicePixelRatio <= MaxDevicePixelRatio
    ensures MaxMultipartMemory == MaxFileUploadSize == MaxMarkdownSize == 10_485_760
  {
  }
}

=== FILE: strings.dfy ===
/** The handful of Go `strings`/`unicode`/`fmt` primitives the core relies on,
    defined over `string` (a sequence of Unicode scalar values).

    - `TrimSpace` trims exactly the runes `unicode.IsSpace` reports.
    - `ToLower` lowers ASCII letters and the two non-ASCII runes whose simple
      lower case is ASCII (U+0130 to 'i', U+212A KELVIN SIGN to 'k'); every other
      rune is left as it is. Every pattern the core searches for is ASCII, so
      containment tests on the lowered text agree with Go's Unicode lowering.
    - `Utf8Length` is Go's `len` of the string's UTF-8 encoding.
 */
module Strings {

  /** `unicode.IsSpace`: the Latin-1 spaces plus the Unicode White_Space runes above Latin-1. */
  predicate IsSpace(c: char) {
    var n := c as int;
    n == 0x20 || (0x09 <= n <= 0x0D) || n == 0x85 || n == 0xA0
    || n == 0x1680 || (0x2000 <= n <= 0x200A) || n == 0x2028 || n == 0x2029
    || n == 0x202F || n == 0x205F || n == 0x3000
  }

  function TrimLeft(s: string): string
    decreases |s|
  {
    if |s| > 0 && IsSpace(s[0]) then TrimLeft(s[1..]) else s
  }

  function TrimRight(s: string): string
    decreases |s|
  {
    if |s| > 0 && IsSpace(s[|s| - 1]) then TrimRight(s[..|s| - 1]) else s
  }

  /** `strings.TrimSpace`. */
  function TrimSpace(s: string): string {
    TrimRight(TrimLeft(s))
  }

  /** Neither end of `s` is white space (vacuously true of ""). */
  predicate Trimmed(s: string) {
    |s| == 0 || (!IsSpace(s[0]) && !IsSpace(s[|s| - 1]))
  }

  function LowerChar(c: char): char {
    if 'A' <= c <= 'Z' then (c as int + 32) as char
    else if c == '\U{0130}' then 'i'
    else if c == '\U{212A}' then 'k'
    else c
  }

  /** `strings.ToLower`, see the module comment for the runes it covers. */
  function ToLower(s: string): string {
    seq(|s|, i requires 0 <= i < |s| => LowerChar(s[i]))
  }

  /** `sub` sits in `s` starting at index `i`. */
  predicate OccursAt(s: string, sub: string, i: int) {
    0 <= i && i + |sub| <= |s| && s[i..i + |sub|] == sub
  }

  /** `strings.Contains`. */
  predicate Contains(s: string, sub: string) {
    exists i :: 0 <= i <= |s| - |sub| && OccursAt(s, sub, i)
  }

  /** `strings.HasPrefix`. */
  predicate HasPrefix(s: string, prefix: string) {
    |prefix| <= |s| && s[..|prefix|] == prefix
  }

  /** `strings.HasSuffix`. */
  predicate HasSuffix(s: string, suffix: string) {
    |suffix| <= |s| && s[|s| - |suffix|..] == suffix
  }

  /** `strings.Count` for a one-rune needle. */
  function Count(s: string, c: char): nat {
    if |s| == 0 then 0 else (if s[0] == c then 1 else 0) + Count(s[1..], c)
  }

  function Utf8Width(c: char): nat {
    var n := c as int;
    if n < 0x80 then 1 else if n < 0x800 then 2 else if n < 0x10000 then 3 else 4
  }

  /** Go's `len(s)`: the number of bytes of the UTF-8 encoding. */
  function Utf8Length(s: string): nat {
    if |s| == 0 then 0 else Utf8Width(s[0]) + Utf8Length(s[1..])
  }

  function DigitChar(d: nat): char
    requires d < 10
  {
    ('0' as int + d) as char
  }

  function NatToString(n: nat): string
    decreases n
  {
    if n < 10 then [DigitChar(n)] else NatToString(n / 10) + [DigitChar(n % 10)]
  }

  /** `fmt.Sprintf("%d", i)`. */
  function IntToString(i: int): string {
    if i < 0 then "-" + NatToString(-i) else NatToString(i)
  }

  /** The pieces joined in order, as a `strings.Builder` or a format string assembles them. */
  function Concat(pieces: seq<string>): string {
    if |pieces| == 0 then "" else pieces[0] + Concat(pieces[1..])
  }

  /** The lines joined with a line feed between each two, as a multi-line literal spells them. */
  function JoinLines(lines: seq<string>): string {
    if |lines| == 0 then "" else if |lines| == 1 then lines[0] else lines[0] + "\n" + JoinLines(lines[1..])
  }

  // ---------------------------------------------------------------------------
  // Facts about the primitives

  lemma ContainsAt(s: string, sub: string, i: int)
    requires OccursAt(s, sub, i)
    ensures Contains(s, sub)
  {
  }

  lemma ContainsInfix(a: string, x: string, b: string)
    ensures Contains(a + x + b, x)
  {
    var s := a + x + b;
    assert s[|a|..|a| + |x|] == x;
    ContainsAt(s, x, |a|);
  }

  /** A string contains its own start. */
  lemma ContainsHere(x: string, b: string)
    ensures Contains(x + b, x)
  {
    assert (x + b)[0..|x|] == x;
    ContainsAt(x + b, x, 0);
  }

  /** Text added in front keeps every piece. */
  lemma ContainsLeft(a: string, b: string, x: string)
    requires Contains(b, x)
    ensures Contains(a + b, x)
  {
    var i :| 0 <= i <= |b| - |x| && OccursAt(b, x, i);
    assert (a + b)[|a| + i..|a| + i + |x|] == b[i..i + |x|];
    ContainsAt(a + b, x, |a| + i);
  }

  /** Text added in front keeps the suffix. */
  lemma SuffixLeft(a: string, b: string, e: string)
    requires HasSuffix(b, e)
    ensures HasSuffix(a + b, e)
  {
    assert (a + b)[|a + b| - |e|..] == b[|b| - |e|..];
  }

  /** A string ends with its own tail. */
  lemma SuffixHere(a: string, b: string)
    ensures HasSuffix(a + b, b)
  {
    assert (a + b)[|a|..] == b;
  }

  /** Every piece can be found in the joined text. */
  lemma {:induction false} ConcatContainsPiece(pieces: seq<string>, i: nat)
    requires i < |pieces|
    ensures Contains(Concat(pieces), pieces[i])
  {
    if i == 0 {
      ContainsHere(pieces[0], Concat(pieces[1..]));
    } else {
      ConcatContainsPiece(pieces[1..], i - 1);
      ContainsLeft(pieces[0], Concat(pieces[1..]), pieces[i]);
    }
  }

  /** The joined text starts with the first piece. */
  lemma ConcatPrefix(pieces: seq<string>)
    requires |pieces| > 0
    ensures HasPrefix(Concat(pieces), pieces[0])
  {
  }

  /** The joined text ends with the last piece. */
  lemma {:induction false} ConcatSuffix(pieces: seq<string>)
    requires |pieces| > 0
    ensures HasSuffix(Concat(pieces), pieces[|pieces| - 1])
  {
    if |pieces| == 1 {
      assert Concat(pieces) == pieces[0] + "";
    } else {
      ConcatSuffix(pieces[1..]);
      SuffixLeft(pieces[0], Concat(pieces[1..]), pieces[|pieces| - 1]);
    }
  }

  lemma ContainsTransitive(s: string, mid: string, sub: string)
    requires Contains(s, mid) && Contains(mid, sub)
    ensures Contains(s, sub)
  {
    var i :| 0 <= i <= |s| - |mid| && OccursAt(s, mid, i);
    var j :| 0 <= j <= |mid| - |sub| && OccursAt(mid, sub, j);
    assert mid == s[i..i + |mid|];
    forall k | 0 <= k < |sub|
      ensures s[i + j..i + j + |sub|][k] == sub[k]
    {
      assert s[i + j + k] == mid[j + k];
    }
    assert s[i + j..i + j + |sub|] == sub;
    ContainsAt(s, sub, i + j);
  }

  lemma LowerCharIdempotent(c: char)
    ensures LowerChar(LowerChar(c)) == LowerChar(c)
  {
  }

  lemma LowerIdempotent(s: string)
    ensures ToLower(ToLower(s)) == ToLower(s)
  {
    forall i | 0 <= i < |s|
      ensures ToLower(ToLower(s))[i] == ToLower(s)[i]
    {
      LowerCharIdempotent(s[i]);
    }
  }

  lemma LowerKeepsSpace(c: char)
    ensures IsSpace(LowerChar(c)) == IsSpace(c)
  {
  }

  lemma {:induction false} TrimLeftShape(s: string)
    ensures |TrimLeft(s)| == 0 || !IsSpace(TrimLeft(s)[0])
    ensures exists k :: 0 <= k <= |s| && TrimLeft(s) == s[k..]
    decreases |s|
  {
    if |s| > 0 && IsSpace(s[0]) {
      TrimLeftShape(s[1..]);
      var k :| 0 <= k <= |s[1..]| && TrimLeft(s[1..]) == s[1..][k..];
      assert TrimLeft(s) == s[k + 1..];
    } else {
      assert TrimLeft(s) == s[0..];
    }
  }

  lemma {:induction false} TrimRightShape(s: string)
    ensures |TrimRight(s)| == 0 || !IsSpace(TrimRight(s)[|TrimRight(s)| - 1])
    ensures exists k :: 0 <= k <= |s| && TrimRight(s) == s[..k]
    decreases |s|
  {
    if |s| > 0 && IsSpace(s[|s| - 1]) {
      var t := s[..|s| - 1];
      TrimRightShape(t);
      var k :| 0 <= k <= |t| && TrimRight(t) == t[..k];
      assert TrimRight(s) == s[..k];
    } else {
      assert TrimRight(s) == s[..|s|];
    }
  }

  /** Trimming leaves neither end white. */
  lemma {:induction false} TrimSpaceTrimmed(s: string)
    ensures Trimmed(TrimSpace(s))
  {
    var l := TrimLeft(s);
    TrimLeftShape(s);
    TrimRightShape(l);
    var k :| 0 <= k <= |l| && TrimRight(l) == l[..k];
    if |TrimRight(l)| > 0 {
      assert TrimRight(l)[0] == l[0];
    }
  }

  /** A string with no white space at either end is its own trim. */
  lemma TrimOfTrimmed(s: string)
    requires Trimmed(s)
    ensures TrimSpace(s) == s
  {
  }

  lemma {:induction false} LowerPreservesTrimmed(s: string)
    requires Trimmed(s)
    ensures Trimmed(ToLower(s))
  {
    if |s| > 0 {
      LowerKeepsSpace(s[0]);
      LowerKeepsSpace(s[|s| - 1]);
    }
  }

  /** Trim-then-lower normalisation is idempotent. */
  lemma {:induction false} NormalizeIdempotent(s: string)
    ensures ToLower(TrimSpace(ToLower(TrimSpace(s)))) == ToLower(TrimSpace(s))
  {
    var t := TrimSpace(s);
    TrimSpaceTrimmed(s);
    LowerPreservesTrimmed(t);
    TrimOfTrimmed(ToLower(t));
    LowerIdempotent(t);
  }

  lemma {:induction false} CountAppend(a: string, b: string, c: char)
    ensures Count(a + b, c) == Count(a, c) + Count(b, c)
  {
    if |a| == 0 {
      assert a + b == b;
    } else {
      assert (a + b)[1..] == a[1..] + b;
      CountAppend(a[1..], b, c);
    }
  }
}

=== FILE: template.dfy ===
/** The HTML document wrapper (pkg/parser/template.go): a fixed skeleton with the
    escaped title, a generated base stylesheet, the caller's custom CSS (inserted
    raw, after the style element closes) and the rendered body. */
module Template {
  import opened Wrappers
  import opened Strings
  import opened Errors
  import Settings

  datatype HTMLTemplate = HTMLTemplate(
    title: string,
    theme: string,
    customCSS: string,
    width: int,
    fontSize: int,
    fontFamily: string)

  /** `DefaultTemplate`: the configured presentation defaults and no custom CSS. */
  function DefaultTemplate(): (t: HTMLTemplate)
    ensures t.title == Settings.DefaultTitle && t.theme == Settings.DefaultTheme
    ensures t.width == Settings.DefaultWidth && t.fontSize == Settings.DefaultFontSize
    ensures t.fontFamily == Settings.DefaultFontFamily && t.customCSS == ""
  {
    HTMLTemplate("Markdown to Image", "light", "", 1200, 16, "Arial, sans-serif")
  }

  // ---------------------------------------------------------------------------
  // Title escaping

  /** The characters an HTML text escape must never let through. */
  predicate Inert(c: char) {
    c != '<' && c != '>' && c != '"' && c != '\'' && c != '\0'
  }

  function EscapeChar(c: char): string {
    match c
    case '\0' => "\U{FFFD}"
    case '"' => "&#34;"
    case '\'' => "&#39;"
    case '&' => "&amp;"
    case '<' => "&lt;"
    case '>' => "&gt;"
    case _ => [c]
  }

  /** `template.HTMLEscapeString`. */
  function HTMLEscape(s: string): string {
    if |s| == 0 then "" else EscapeChar(s[0]) + HTMLEscape(s[1..])
  }

  /** Every character of the escaped text is inert, and escaping never shortens. */
  lemma {:induction false} EscapedInert(s: string)
    ensures forall i :: 0 <= i < |HTMLEscape(s)| ==> Inert(HTMLEscape(s)[i])
    ensures |HTMLEscape(s)| >= |s|
  {
    if |s| > 0 {
      EscapedInert(s[1..]);
      var e, rest := EscapeChar(s[0]), HTMLEscape(s[1..]);
      assert HTMLEscape(s) == e + rest;
      forall i | 0 <= i < |e + rest|
        ensures Inert((e + rest)[i])
      {
        if i >= |e| {
          assert (e + rest)[i] == rest[i - |e|];
        }
      }
    }
  }

  /** Decoding of the five entities the escape produces. */
  function Unescape(s: string): string
    decreases |s|
  {
    if |s| == 0 then ""
    else if HasPrefix(s, "&amp;") then "&" + Unescape(s[5..])
    else if HasPrefix(s, "&lt;") then "<" + Unescape(s[4..])
    else if HasPrefix(s, "&gt;") then ">" + Unescape(s[4..])
    else if HasPrefix(s, "&#34;") then "\"" + Unescape(s[5..])
    else if HasPrefix(s, "&#39;") then "'" + Unescape(s[5..])
    else [s[0]] + Unescape(s[1..])
  }

  lemma UnescapeEscapeChar(c: char, t: string)
    requires c != '\0'
    ensures Unescape(EscapeChar(c) + t) == [c] + Unescape(t)
  {
    match c
    case '&' => UnescapeEntity("&amp;", t);
    case '<' => UnescapeEntity("&lt;", t);
    case '>' => UnescapeEntity("&gt;", t);
    case '"' => UnescapeEntity("&#34;", t);
    case '\'' => UnescapeEntity("&#39;", t);
    case _ => UnescapePlain(c, t);
  }

  /** Each entity decodes to its character, and decoding resumes right after it. */
  lemma UnescapeEntity(e: string, t: string)
    requires e in ["&amp;", "&lt;", "&gt;", "&#34;", "&#39;"]
    ensures e == "&amp;" ==> Unescape(e + t) == "&" + Unescape(t)
    ensures e == "&lt;" ==> Unescape(e + t) == "<" + Unescape(t)
    ensures e == "&gt;" ==> Unescape(e + t) == ">" + Unescape(t)
    ensures e == "&#34;" ==> Unescape(e + t) == "\"" + Unescape(t)
    ensures e == "&#39;" ==> Unescape(e + t) == "'" + Unescape(t)
  {
    var s := e + t;
    assert s[..|e|] == e && s[|e|..] == t;
    assert s[1] == e[1] && s[3] == e[3];
  }

  /** A character other than `&` decodes to itself. */
  lemma UnescapePlain(c: char, t: string)
    requires c != '&'
    ensures Unescape([c] + t) == [c] + Unescape(t)
  {
    var s := [c] + t;
    assert s[0] == c && s[1..] == t;
  }

  /** Escaping loses nothing but NUL: decoding gives the title back. */
  lemma {:induction false} EscapeRoundTrip(s: string)
    requires forall i :: 0 <= i < |s| ==> s[i] != '\0'
    ensures Unescape(HTMLEscape(s)) == s
  {
    if |s| > 0 {
      UnescapeEscapeChar(s[0], HTMLEscape(s[1..]));
      EscapeRoundTrip(s[1..]);
      assert [s[0]] + s[1..] == s;
    }
  }

  // ---------------------------------------------------------------------------
  // Stylesheet

  /** Theme colours: "dark" has its own palette, every other theme string gets the light one. */
  function TextColor(theme: string): string {
    if theme == "dark" then "#e6edf3" else "#24292f"
  }

  function BackgroundColor(theme: string): string {
    if theme == "dark" then "#0d1117" else "#ffffff"
  }

  function ContainerColor(theme: string): string {
    if theme == "dark" then "#161b22" else "#ffffff"
  }

  /** Stylesheet lines: a rule-level line, a rule opening its block, a declaration inside it, the closing brace. */
  function Outer(text: string): string {
    "        " + text
  }

  function Open(selector: string): string {
    Outer(selector + " {")
  }

  function Decl(declaration: string): string {
    "            " + declaration
  }

  const Close := Outer("}")

  /** The Markdown element rules that follow the parameterised part, line by line. */
  const ElementCSSLines: seq<string> := [
    "",
    Open("h1, h2, h3, h4, h5, h6"),
    Decl("margin-top: 24px;"),
    Decl("margin-bottom: 16px;"),
    Decl("font-weight: 600;"),
    Decl("line-height: 1.25;"),
    Close,
    "",
    Outer("h1 { font-size: 2em;" + " border-bottom: 1px solid #eaecef;" + " padding-bottom: 8px; }"),
    Outer("h2 { font-size: 1.5em;" + " border-bottom: 1px solid #eaecef;" + " padding-bottom: 8px; }"),
    Outer("h3 { font-size: 1.25em; }"),
    Outer("h4 { font-size: 1em; }"),
    Outer("h5 { font-size: 0.875em; }"),
    Outer("h6 { font-size: 0.85em;" + " color: #6a737d; }"),
    "",
    Open("p"),
    Decl("margin-bottom: 16px;"),
    Close,
    "",
    Open("a"),
    Decl("color: #0366d6;"),
    Decl("text-decoration: none;"),
    Close,
    "",
    Open("a:hover"),
    Decl("text-decoration: underline;"),
    Close,
    "",
    Open("ul, ol"),
    Decl("margin-bottom: 16px;"),
    Decl("padding-left: 2em;"),
    Close,
    "",
    Open("li"),
    Decl("margin-bottom: 8px;"),
    Close,
    "",
    Open("blockquote"),
    Decl("padding: 0 1em;"),
    Decl("color: #6a737d;"),
    Decl("border-left: 4px solid #dfe2e5;"),
    Decl("margin-bottom: 16px;"),
    Close,
    "",
    Open("code"),
    Decl("padding: 2px 6px;"),
    Decl("font-family: 'Courier New', Courier, monospace;"),
    Decl("font-size: 0.9em;"),
    Decl("background-color: rgba(27,31,35,0.05);"),
    Decl("border-radius: 3px;"),
    Close,
    "",
    Open("pre"),
    Decl("padding: 16px;"),
    Decl("overflow: auto;"),
    Decl("font-size: 0.9em;"),
    Decl("line-height: 1.45;"),
    Decl("background-color: #f6f8fa;"),
    Decl("border-radius: 6px;"),
    Decl("margin-bottom: 16px;"),
    Close,
    "",
    Open("pre code"),
    Decl("display: block;"),
    Decl("padding: 0;"),
    Decl("background: transparent;"),
    Decl("border-radius: 0;"),
    Close,
    "",
    Open("table"),
    Decl("border-collapse: collapse;"),
    Decl("width: 100%;"),
    Decl("margin-bottom: 16px;"),
    Close,
    "",
    Open("th, td"),
    Decl("padding: 12px;"),
    Decl("border: 1px solid #dfe2e5;"),
    Decl("text-align: left;"),
    Close,
    "",
    Open("th"),
    Decl("background-color: #f6f8fa;"),
    Decl("font-weight: 600;"),
    Close,
    "",
    Open("hr"),
    Decl("height: 1px;"),
    Decl("margin: 24px 0;"),
    Decl("background-color: #e1e4e8;"),
    Decl("border: 0;"),
    Close,
    "",
    Open("img"),
    Decl("max-width: 100%;"),
    Decl("height: auto;"),
    Decl("display: block;"),
    Decl("margin: 16px 0;"),
    Close,
    "",
    Outer("/* Chroma 代码高亮样式 */"),
    Open(".chroma"),
    Decl("background-color: #272822;"),
    Decl("color: #f8f8f2;"),
    Decl("padding: 16px;"),
    Decl("border-radius: 6px;"),
    Decl("overflow-x: auto;"),
    Close,
    "",
    Open(".chroma .line"),
    Decl("display: block;"),
    Close,
    "",
    Open(".chroma .ln"),
    Decl("margin-right: 12px;"),
    Decl("color: #75715e;"),
    Close,
    "    "]

  const ElementCSS := JoinLines(ElementCSSLines)

  /** The reset rule and the opening of the body rule, up to its first declaration. */
  const BodyRulePrefix := "\n" + JoinLines([Open("*"), Decl("margin: 0;"), Decl("padding: 0;"),
                                             Decl("box-sizing: border-box;"), Close, "", Open("body"), Decl("")])
  /** A line break followed by a declaration's indentation. */
  const Indent := "\n" + Decl("")

  /** The stylesheet as its pieces; the formatted values sit at the odd positions 1, 3, 5, 7, 9 and 11. */
  function BaseCSSPieces(t: HTMLTemplate): seq<string> {
    [ BodyRulePrefix,
      "font-family: " + t.fontFamily + ";", Indent,
      "font-size: " + IntToString(t.fontSize) + "px;", Indent + "line-height: 1.6;" + Indent,
      "color: " + TextColor(t.theme) + ";", Indent,
      "background-color: " + BackgroundColor(t.theme) + ";",
      Indent + "padding: 40px 20px;" + "\n" + Close + "\n\n" + Open(".container") + Indent,
      "max-width: " + IntToString(t.width) + "px;", Indent + "margin: 0 auto;" + Indent + "padding: 40px;" + Indent,
      "background: " + ContainerColor(t.theme) + ";",
      Indent + "border-radius: 8px;" + Indent + "box-shadow: 0 2px 10px rgba(0,0,0,0.1);" + "\n" + Close + "\n",
      ElementCSS ]
  }

  /** `generateBaseCSS`. */
  function BaseCSS(t: HTMLTemplate): string {
    Concat(BaseCSSPieces(t))
  }

  /** The stylesheet embeds the font family, and the font size and the page width in pixels. */
  lemma BaseCSSEmbedsSizes(t: HTMLTemplate)
    ensures var css := BaseCSS(t);
            && Contains(css, "font-family: " + t.fontFamily + ";")
            && Contains(css, "font-size: " + IntToString(t.fontSize) + "px;")
            && Contains(css, "max-width: " + IntToString(t.width) + "px;")
  {
    PieceInBaseCSS(t, 1);
    PieceInBaseCSS(t, 3);
    PieceInBaseCSS(t, 9);
  }

  /** The stylesheet ends with the fixed element rules. */
  lemma BaseCSSEndsWithElementRules(t: HTMLTemplate)
    ensures HasSuffix(BaseCSS(t), ElementCSS)
  {
    ConcatSuffix(BaseCSSPieces(t));
  }

  /** The stylesheet embeds the theme's text, page and container colours. */
  lemma BaseCSSEmbedsColours(t: HTMLTemplate)
    ensures var css := BaseCSS(t);
            && Contains(css, "color: " + TextColor(t.theme) + ";")
            && Contains(css, "background-color: " + BackgroundColor(t.theme) + ";")
            && Contains(css, "background: " + ContainerColor(t.theme) + ";")
  {
    PieceInBaseCSS(t, 5);
    PieceInBaseCSS(t, 7);
    PieceInBaseCSS(t, 11);
  }

  /** "dark" selects the dark palette and every other theme the light one, as the stylesheet spells them. */
  lemma ThemePalettes(t: HTMLTemplate)
    ensures var css := BaseCSS(t);
            t.theme == "dark" ==>
              && Contains(css, "color: #e6edf3;")
              && Contains(css, "background-color: #0d1117;")
              && Contains(css, "background: #161b22;")
    ensures var css := BaseCSS(t);
            t.theme != "dark" ==>
              && Contains(css, "color: #24292f;")
              && Contains(css, "background-color: #ffffff;")
              && Contains(css, "background: #ffffff;")
  {
    BaseCSSEmbedsColours(t);
    if t.theme == "dark" {
      DarkDeclarations();
    } else {
      LightDeclarations(t.theme);
    }
  }

  lemma DarkDeclarations()
    ensures "color: " + TextColor("dark") + ";" == "color: #e6edf3;"
    ensures "background-color: " + BackgroundColor("dark") + ";" == "background-color: #0d1117;"
    ensures "background: " + ContainerColor("dark") + ";" == "background: #161b22;"
  {
  }

  lemma LightDeclarations(theme: string)
    requires theme != "dark"
    ensures "color: " + TextColor(theme) + ";" == "color: #24292f;"
    ensures "background-color: " + BackgroundColor(theme) + ";" == "background-color: #ffffff;"
    ensures "background: " + ContainerColor(theme) + ";" == "background: #ffffff;"
  {
  }

  /** Every piece of the stylesheet can be found in it. */
  lemma PieceInBaseCSS(t: HTMLTemplate, k: nat)
    requires k < |BaseCSSPieces(t)|
    ensures Contains(BaseCSS(t), BaseCSSPieces(t)[k])
  {
    ConcatContainsPiece(BaseCSSPieces(t), k);
  }

  // ---------------------------------------------------------------------------
  // Document

  /** Everything before the title: doctype, root element, and the head's two meta elements. */
  const DocumentHead := JoinLines([
    "<!DOCTYPE html>",
    "<html lang=\"zh-CN\">",
    "<head>",
    "    <meta charset=\"UTF-8\">",
    "    <meta name=\"viewport\"" + " content=\"width=device-width," + " initial-scale=1.0\">",
    "    "])

  /** The title element. */
  function TitleElement(title: string): string {
    "<title>" + title + "</title>"
  }

  /** The end of the head: the style element with the base CSS, then the custom CSS. */
  function HeadStyles(baseCSS: string, customCSS: string): string {
    "<style>\n        " + baseCSS + "\n    </style>\n    " + customCSS + "\n</head>"
  }

  /** The container element with the rendered body. */
  function ContainerElement(content: string): string {
    "<div class=\"container\">\n        " + content + "\n    </div>"
  }

  function DocumentPieces(title: string, baseCSS: string, customCSS: string, content: string): seq<string> {
    [ DocumentHead, TitleElement(title), "\n    ", HeadStyles(baseCSS, customCSS),
      "\n<body>\n    ", ContainerElement(content), "\n</body>\n</html>" ]
  }

  /** The document for a template. */
  function Wrap(content: string, t: HTMLTemplate): string {
    Concat(DocumentPieces(HTMLEscape(t.title), BaseCSS(t), t.customCSS, content))
  }

  /** Where each part of a template lands: the document opens with the fixed head,
      holds the escaped title, the base and custom CSS at the end of the head and
      the content in the container, and closes the body and the page. */
  lemma DocumentLayout(content: string, t: HTMLTemplate)
    ensures var d := Wrap(content, t);
            && HasPrefix(d, DocumentHead)
            && Contains(d, TitleElement(HTMLEscape(t.title)))
            && Contains(d, HeadStyles(BaseCSS(t), t.customCSS))
            && Contains(d, ContainerElement(content))
            && HasSuffix(d, "</body>\n</html>")
  {
    DocumentLaid(HTMLEscape(t.title), BaseCSS(t), t.customCSS, content);
  }

  /** `WrapHTML`: a nil template means the default one, and the error is always nil. */
  function WrapHTML(content: string, tmpl: Option<HTMLTemplate>): (r: Result<string, Error>)
    ensures tmpl.Some? ==> r == Ok(Wrap(content, tmpl.value))
    ensures tmpl.None? ==> r == Ok(Wrap(content, DefaultTemplate()))
  {
    match tmpl
    case None => Ok(Wrap(content, DefaultTemplate()))
    case Some(t) => Ok(Wrap(content, t))
  }

  /** Where each part lands in the assembled document. */
  lemma DocumentLaid(title: string, baseCSS: string, customCSS: string, content: string)
    ensures var d := Concat(DocumentPieces(title, baseCSS, customCSS, content));
            && HasPrefix(d, DocumentHead)
            && Contains(d, TitleElement(title))
            && Contains(d, HeadStyles(baseCSS, customCSS))
            && Contains(d, ContainerElement(content))
            && HasSuffix(d, "</body>\n</html>")
  {
    var ps := DocumentPieces(title, baseCSS, customCSS, content);
    ConcatPrefix(ps);
    ConcatContainsPiece(ps, 1);
    ConcatContainsPiece(ps, 3);
    ConcatContainsPiece(ps, 5);
    ConcatSuffix(ps);
    EndsWithClose(Concat(ps));
  }

  lemma EndsWithClose(d: string)
    requires HasSuffix(d, "\n</body>\n</html>")
    ensures HasSuffix(d, "</body>\n</html>")
  {
    assert d[|d| - 15..] == "\n</body>\n</html>"[1..];
  }

  // ---------------------------------------------------------------------------

  /** Any theme other than "dark" renders exactly as "light". */
  lemma NonDarkThemesAlike(content: string, t: HTMLTemplate, theme: string)
    requires theme != "dark"
    ensures WrapHTML(content, Some(t.(theme := theme))) == WrapHTML(content, Some(t.(theme := "light")))
  {
    assert BaseCSSPieces(t.(theme := theme)) == BaseCSSPieces(t.(theme := "light"));
  }

  /** The title can never open or close a tag in the document. */
  lemma TitleIsInert(t: HTMLTemplate)
    ensures forall i :: 0 <= i < |HTMLEscape(t.title)| ==> HTMLEscape(t.title)[i] != '<'
  {
    EscapedInert(t.title);
  }

  /** Custom CSS reaches the document unescaped: whatever markup it holds is in the page. */
  lemma CustomCSSVerbatim(content: string, t: HTMLTemplate, markup: string)
    requires Contains(t.customCSS, markup)
    ensures Contains(WrapHTML(content, Some(t)).value, markup)
  {
    var piece := HeadStyles(BaseCSS(t), t.customCSS);
    DocumentLayout(content, t);
    ContainsInfix("<style>\n        " + BaseCSS(t) + "\n    </style>\n    ", t.customCSS, "\n</head>");
    ContainsTransitive(WrapHTML(content, Some(t)).value, piece, t.customCSS);
    ContainsTransitive(WrapHTML(content, Some(t)).value, t.customCSS, markup);
  }
}

=== FILE: validation.dfy ===
/** Parameter validation (internal/utils/validation.go). Every validator returns
    the nil error (`None`) or a message naming the accepted range. */
module Validation {
  import opened Wrappers
  import opened Strings
  import opened Errors
  import opened Settings

  function ValidateQuality(quality: int): (r: Option<Error>)
    ensures r.None? <==> MinQuality <= quality <= MaxQuality
    ensures r.Some? ==> r.value == Message("图片质量必须在 1-100 之间")
  {
    if quality < MinQuality || quality > MaxQuality then Some(Message("图片质量必须在 1-100 之间")) else None
  }

  function ValidateWidth(width: int): (r: Option<Error>)
    ensures r.None? <==> MinWidth <= width <= MaxWidth
    ensures r.Some? ==> r.value == Message("页面宽度必须在 200-4000 之间")
  {
    if width < MinWidth || width > MaxWidth then Some(Message("页面宽度必须在 200-4000 之间")) else None
  }

  function ValidateFontSize(fontSize: int): (r: Option<Error>)
    ensures r.None? <==> MinFontSize <= fontSize <= MaxFontSize
    ensures r.Some? ==> r.value == Message("字体大小必须在 8-72 之间")
  {
    if fontSize < MinFontSize || fontSize > MaxFontSize then Some(Message("字体大小必须在 8-72 之间")) else None
  }

  /** The ratio is a Go `float64`; it is modelled as a real (no NaN). */
  function ValidateDevicePixelRatio(dpr: real): (r: Option<Error>)
    ensures r.None? <==> MinDevicePixelRatio <= dpr <= MaxDevicePixelRatio
    ensures r.Some? ==> r.value == Message("设备像素比必须在 0.5-4.0 之间")
  {
    if dpr < MinDevicePixelRatio || dpr > MaxDevicePixelRatio then Some(Message("设备像素比必须在 0.5-4.0 之间"))
    else None
  }

  /** Exactly "light" and "dark" are themes; the comparison is case-sensitive. */
  function ValidateTheme(theme: string): (r: Option<Error>)
    ensures r.None? <==> theme == "light" || theme == "dark"
    ensures r.Some? ==> r.value == Message("无效的主题: " + theme + " (支持: light, dark)")
  {
    if theme == "light" || theme == "dark" then None
    else Some(Message("无效的主题: " + theme + " (支持: light, dark)"))
  }

  // ---------------------------------------------------------------------------
  // Custom CSS

  /** The cap on custom CSS, in UTF-8 bytes. */
  const MaxCSSLength := 100000

  /** The blocklist, in the order it is tested. */
  const ForbiddenPatterns: seq<string> := [
    "</style>", "<style", "<script", "<iframe", "javascript:", "data:",
    "vbscript:", "<object", "<embed", "onerror", "onload", "onclick"
  ]

  /** Index of the first blocklisted pattern found in `lower`, at or after `from`; `|ForbiddenPatterns|` if none. */
  function FirstForbidden(lower: string, from: nat): (k: nat)
    requires from <= |ForbiddenPatterns|
    ensures from <= k <= |ForbiddenPatterns|
    ensures forall j :: from <= j < k ==> !Contains(lower, ForbiddenPatterns[j])
    ensures k < |ForbiddenPatterns| ==> Contains(lower, ForbiddenPatterns[k])
    decreases |ForbiddenPatterns| - from
  {
    if from == |ForbiddenPatterns| then from
    else if Contains(lower, ForbiddenPatterns[from]) then from
    else FirstForbidden(lower, from + 1)
  }

  /** What an acceptable stylesheet is: within the cap, free of every blocklisted
      pattern in any letter case, with an even number of each quote character. */
  predicate SafeCSS(css: string) {
    && Utf8Length(css) <= MaxCSSLength
    && (forall j :: 0 <= j < |ForbiddenPatterns| ==> !Contains(ToLower(css), ForbiddenPatterns[j]))
    && Count(css, '"') % 2 == 0
    && Count(css, '\'') % 2 == 0
  }

  /** `ValidateCustomCSS`: size first, then the blocklist (first pattern found is named), then quotes. */
  function ValidateCustomCSS(css: string): (r: Option<Error>)
    ensures css == "" ==> r.None?
    ensures r.None? <==> SafeCSS(css)
    ensures Utf8Length(css) > MaxCSSLength ==> r == Some(Message("自定义 CSS 过大（最大 100000 字节）"))
    ensures Utf8Length(css) <= MaxCSSLength && FirstForbidden(ToLower(css), 0) < |ForbiddenPatterns| ==>
              r == Some(Message("无效的 CSS：包含禁止的模式 '" + ForbiddenPatterns[FirstForbidden(ToLower(css), 0)] + "'"))
    ensures Utf8Length(css) <= MaxCSSLength && FirstForbidden(ToLower(css), 0) == |ForbiddenPatterns|
            && (Count(css, '"') % 2 != 0 || Count(css, '\'') % 2 != 0) ==>
              r == Some(Message("无效的 CSS：引号不配对"))
  {
    if css == "" then None
    else if Utf8Length(css) > MaxCSSLength then Some(Message("自定义 CSS 过大（最大 100000 字节）"))
    else
      var k := FirstForbidden(ToLower(css), 0);
      if k < |ForbiddenPatterns| then
        Some(Message("无效的 CSS：包含禁止的模式 '" + ForbiddenPatterns[k] + "'"))
      else if Count(css, '"') % 2 != 0 || Count(css, '\'') % 2 != 0 then
        Some(Message("无效的 CSS：引号不配对"))
      else None
  }

  // ---------------------------------------------------------------------------

  /** The defaults pass their own validators. */
  lemma DefaultsValid()
    ensures ValidateQuality(DefaultQuality).None? && ValidateWidth(DefaultWidth).None?
    ensures ValidateFontSize(DefaultFontSize).None? && ValidateDevicePixelRatio(DefaultDevicePixelRatio).None?
    ensures ValidateTheme(DefaultTheme).None?
  {
  }

  /** Themes are matched exactly: "Dark" is not a theme. */
  lemma ThemeCaseSensitive()
    ensures ValidateTheme("Dark").Some? && ValidateTheme("LIGHT").Some?
  {
  }

  /** Lower-casing distributes over concatenation. */
  lemma LowerAppend(a: string, b: string)
    ensures ToLower(a + b) == ToLower(a) + ToLower(b)
  {
  }

  /** The blocklist ignores case: an upper-case script tag anywhere is rejected. */
  lemma {:induction false} ShoutedScriptRejected(before: string, after: string)
    ensures ValidateCustomCSS(before + "<SCRIPT" + after).Some?
  {
    var css := before + "<SCRIPT" + after;
    LowerAppend(before + "<SCRIPT", after);
    LowerAppend(before, "<SCRIPT");
    assert ToLower("<SCRIPT") == "<script";
    ContainsInfix(ToLower(before), "<script", ToLower(after));
    assert ForbiddenPatterns[2] == "<script";
  }

  /** Quote parity is counted on the raw text: one stray apostrophe is enough to reject. */
  lemma {:induction false} StrayQuoteRejected(css: string)
    requires Count(css, '\'') % 2 == 0
    ensures ValidateCustomCSS(css + "'").Some?
  {
    CountAppend(css, "'", '\'');
    assert Count("'", '\'') == 1;
  }

  /** A closing tag followed by anything but `>` slips past the blocklist. */
  lemma {:induction false} StyleCloseWithoutBracketAccepted()
    ensures ValidateCustomCSS("</style ").None?
  {
    var css := "</style ";
    assert ToLower(css) == css;
    BlocklistMissed(css);
    ShortCounts();
  }

  /** No blocklisted pattern occurs in "</style ". */
  lemma BlocklistMissed(s: string)
    requires s == "</style "
    ensures forall j :: 0 <= j < |ForbiddenPatterns| ==> !Contains(s, ForbiddenPatterns[j])
  {
    OpenTagsAbsent(s);
    StartAbsent(s, "javascript:");
    StartAbsent(s, "data:");
    StartAbsent(s, "vbscript:");
    StartAbsent(s, "onerror");
    StartAbsent(s, "onload");
    StartAbsent(s, "onclick");
    NoneOfTheBlocklist(s);
  }

  lemma ShortCounts()
    ensures Utf8Length("</style ") == 8 && Count("</style ", '"') == 0 && Count("</style ", '\'') == 0
  {
    assert "</style "[1..] == "/style ";
    assert "/style "[1..] == "style ";
    assert "style "[1..] == "tyle ";
    assert "tyle "[1..] == "yle ";
    assert "yle "[1..] == "le ";
    assert "le "[1..] == "e ";
    assert "e "[1..] == " ";
  }

  /** None of the tag patterns occurs in "</style ". */
  lemma OpenTagsAbsent(s: string)
    requires s == "</style "
    ensures !Contains(s, "</style>") && !Contains(s, "<style") && !Contains(s, "<script")
    ensures !Contains(s, "<iframe") && !Contains(s, "<object") && !Contains(s, "<embed")
  {
    forall i | 0 <= i <= |s| - |"</style>"|
      ensures !OccursAt(s, "</style>", i)
    {
      assert s[i..i + 8][7] == ' ';
    }
    AngleThenSlash(s, "<style");
    AngleThenSlash(s, "<script");
    AngleThenSlash(s, "<iframe");
    AngleThenSlash(s, "<object");
    AngleThenSlash(s, "<embed");
  }

  lemma NoneOfTheBlocklist(s: string)
    requires !Contains(s, "</style>") && !Contains(s, "<style") && !Contains(s, "<script")
    requires !Contains(s, "<iframe") && !Contains(s, "javascript:") && !Contains(s, "data:")
    requires !Contains(s, "vbscript:") && !Contains(s, "<object") && !Contains(s, "<embed")
    requires !Contains(s, "onerror") && !Contains(s, "onload") && !Contains(s, "onclick")
    ensures forall j :: 0 <= j < |ForbiddenPatterns| ==> !Contains(s, ForbiddenPatterns[j])
  {
  }

  /** A pattern is absent when its first character never occurs in the text. */
  lemma StartAbsent(s: string, p: string)
    requires |p| > 0 && forall i :: 0 <= i < |s| ==> s[i] != p[0]
    ensures !Contains(s, p)
  {
    forall i | 0 <= i <= |s| - |p|
      ensures !OccursAt(s, p, i)
    {
      assert s[i..i + |p|][0] == s[i];
    }
  }

  /** A tag pattern is absent when the only `<` in the text is followed by `/` and the pattern's is not. */
  lemma AngleThenSlash(s: string, p: string)
    requires |s| >= 2 && s[0] == '<' && s[1] == '/'
    requires forall i :: 0 < i < |s| ==> s[i] != '<'
    requires |p| >= 2 && p[0] == '<' && p[1] != '/'
    ensures !Contains(s, p)
  {
    forall i | 0 <= i <= |s| - |p|
      ensures !OccursAt(s, p, i)
    {
      assert s[i..i + |p|][0] == s[i] && s[i..i + |p|][1] == s[i + 1];
    }
  }
}

=== FILE: wrappers.dfy ===
/** Failure-compatible wrappers shared by every module of the model.

    Go returns `(value, error)` pairs and bare `error` values where `nil` means
    success; the model uses `Result<T, E>` for the former and `Option<E>` for the
    latter (`None` is the nil error).
 */
module Wrappers {

  datatype Option<+T> = None | Some(value: T) {

    /** The wrapped value, or `default` when there is none. */
    function GetOr(default: T): T {
      match this
      case Some(v) => v
      case None => default
    }
  }

  datatype Result<+T, +E> = Ok(value: T) | Err(error: E) {

    predicate IsFailure() {
      Err?
    }

    function PropagateFailure<U>(): Result<U, E>
      requires Err?
    {
      Err(error)
    }

    function Extract(): T
      requires Ok?
    {
      value
    }
  }
}
